=== FILE: README.md ===
# Fault-diagnosis back end, modelled in Dafny

The system is a Flask back end for bearing-fault diagnosis. Users register and log in.
They upload data sets (zip archives of a CSV table) and trained model artifacts, and list,
check and delete them page by page. A diagnosis request runs an evaluator process,
`diagnosis_eval.py`, on one stored data file and one stored model. The evaluator prints one
result line holding the five metrics as JSON. The handler finds that line with a regular
expression, stores a diagnosis record and a report row, and renders the report as a PDF.
The records can then be listed and deleted together with their reports.

The model covers the following:

- the relational schema as immutable tables keyed by an autoincrementing primary key, and
  the store-wide consistency every operation keeps (`Schema`);
- the evaluator's observable contract: loading the test table, the per-class confusion
  counts, the JSON it prints and the images it saves (`Evaluation`);
- the extraction of the result line by the pattern `diagnosis_result-eval\s*(\{.*\})`,
  with Python's first-match and greedy semantics (`ResultLine`);
- the report name, the paths and URLs, and the text lines of the PDF (`ReportDocument`);
- the `diagnose` request end to end (`Diagnosis`);
- listing and deleting diagnosis records (`Records`);
- the file and model catalogues: extension screening, the duplicate test, newest-first
  paging, deletion and the existence check (`Catalog`, `FileManagement`, `ModelManagement`);
- login and registration (`Auth`).

Some inputs are parameters of the model:

- the evaluator process, the JSON decoder, the password hash and its check, and
  `secure_filename`;
- the two clocks (the database's `CURRENT_TIMESTAMP` and `datetime.utcnow`);
- the token the JWT library returns, if it returns one;
- whether the PDF can be written.

The file system is the set of paths that exist.

Three defects of the source are logged under "## Findings", and each has a corrected
definition. The rest of the model uses the code as written wherever the code is
well-defined.

## Model

| member | source | states |
|---|---|---|
| Schema.Insert | backend/models/models.py:10 | an insert gives the row a fresh key, greater than every key in the table, and keeps every other row |
| Schema.FindFirst | backend/routes/auth.py:19 | `filter_by(...).first()` finds a matching row exactly when one exists, and it is the one with the smallest key |
| Schema.EmptyStore | backend/models/models.py:7-82 | a store with no rows meets every consistency rule of the schema |
| Text.LastIndexOf | backend/routes/file_management.py:18 | the found index holds the last occurrence of the character; none is found exactly when the character is absent |
| Text.AfterLast | backend/routes/file_management.py:18 | `rsplit('.', 1)[1]` holds no dot, and the name is a prefix ending in a dot followed by it |
| Text.Basename | backend/routes/diagnosis.py:181-182 | `os.path.basename` is a suffix of the path, holds no '/', and is preceded by '/' when shorter than the path |
| Text.BasenameOfJoin | backend/routes/diagnosis.py:181 | a directory joined with a name holding no '/' has that name as its base name |
| Clock.CompactStamp | backend/routes/diagnosis.py:185 | `%Y%m%d%H%M%S` prints exactly fourteen digits |
| Clock.DisplayStamp | backend/routes/diagnosis.py:101 | `%Y-%m-%d %H:%M:%S` prints nineteen characters with the separators at fixed places |
| Clock.CompactStampRoundTrip | backend/routes/diagnosis.py:185 | reading the fourteen digits back as year, month, day, hour, minute and second gives the original time |
| Clock.DisplayStampRoundTrip | backend/routes/diagnosis.py:101 | reading the printed diagnosis time back gives the original time |
| Clock.CompactStampInjective | backend/routes/diagnosis.py:185 | two times share a compact stamp exactly when they are equal to the second |
| Evaluation.TruncateToInt | backend/routes/diagnosis_eval.py:75 | the conversion of a label to `torch.long` rounds toward zero |
| Evaluation.SplitRowRoundTrip | backend/routes/diagnosis_eval.py:61-68 | features followed by the label give back the filled row when the label cell is whole |
| Evaluation.Flatten | backend/routes/diagnosis_eval.py:67 | the feature matrix holds the width times the row count of values |
| Evaluation.FlattenSlice | backend/routes/diagnosis_eval.py:67 | the features of row `i` occupy exactly positions `[i*w, (i+1)*w)` of the flattened table |
| Evaluation.LoadDataset | backend/routes/diagnosis_eval.py:34-82 | the loader succeeds exactly when `test_dataset.csv` is in the extraction directory (left there by this or an earlier archive), the table has a label column and the features fill a whole number of 1024x13 samples, zero included; then every row's label is kept in order |
| Evaluation.OneSamplePerRow | backend/routes/diagnosis_eval.py:67-78 | a table of 13312 features plus a label per row loads as one sample per row, each sample being that row's features |
| Evaluation.EmptyTableLoads | backend/routes/diagnosis_eval.py:67-78 | a table without rows or without feature columns loads as zero samples instead of failing |
| Evaluation.CountsOf | backend/routes/diagnosis_eval.py:279-282 | TP of a class is its diagonal cell; TP, FN, FP and TN are never negative, add up to the sample count, and TP+FN and TP+FP are the row sum and the column sum |
| Evaluation.AllCounts | backend/routes/diagnosis_eval.py:278-282 | the counts are computed for every class, in class order |
| Evaluation.TableCountsNonNegative | backend/routes/diagnosis_eval.py:280-282 | the diagonal cell is within its row sum and its column sum, and the row and column together never exceed the total, so no count goes negative |
| Evaluation.AccuracyFraction | backend/routes/diagnosis_eval.py:285 | the accuracy's numerator is the summed TP over classes, which is the trace, and never exceeds its denominator, the sample count |
| Evaluation.TraceBelowTotal | backend/routes/diagnosis_eval.py:285 | the correct predictions summed over classes never exceed the number of samples |
| Evaluation.MisclassifiedBothWays | backend/routes/diagnosis_eval.py:280-281 | summed over classes, the false negatives and the false positives each equal the misclassified samples |
| Evaluation.Dumps | backend/routes/diagnosis_eval.py:344-353 | `json.dumps` of the result is object text, and one line whenever every value prints on one line |
| Evaluation.Main | backend/routes/diagnosis_eval.py:329-364 | the process exits 0 exactly when evaluation completes; then it has saved both images and printed the result line last; otherwise it printed no result line and saved the t-SNE image before any confusion-matrix image |
| Evaluation.MainOutputContract | backend/routes/diagnosis_eval.py:353-364 | when the progress output before the result line is whole lines without the marker, the orchestrator's pattern recovers exactly `json.dumps` of the metrics from a completed run, and nothing from a failed one |
| Evaluation.ForgedListingMatchesFirst | backend/routes/diagnosis.py:158 | the printed list of a `./temp_data` holding an entry named after the marker and `{}` is captured, whatever is printed after it |
| Evaluation.ListingHijacksResult | backend/routes/diagnosis_eval.py:49-50 | with that list as the progress output, the extractor returns `{}` whether the run completes or raises, so a completed run's metrics are never recovered |
| ResultLine.SkipSpaces | backend/routes/diagnosis.py:158 | `\s*` consumes the longest run of white space |
| ResultLine.LastBrace | backend/routes/diagnosis.py:158 | the greedy `.*\}` ends at the last '}' before the end of the line |
| ResultLine.MatchAt | backend/routes/diagnosis.py:158 | a match at a position captures one line of object text |
| ResultLine.MatchAtIsGreedySpan | backend/routes/diagnosis.py:158 | the pattern matches at a position exactly when some span satisfies it there, and the captured span is the longest one |
| ResultLine.FirstMatch | backend/routes/diagnosis.py:158 | `re.search` takes the leftmost position where the pattern matches |
| ResultLine.Extract | backend/routes/diagnosis.py:158-169 | the captured group is one line of object text, and nothing is captured exactly when the pattern matches nowhere |
| ResultLine.MatchAtResultLine | backend/routes/diagnosis_eval.py:353 | a printed result line is matched at its start and yields its payload |
| ResultLine.EmitThenExtract | backend/routes/diagnosis.py:158-160 | output whose earlier lines lack the marker yields the payload of the result line that follows them |
| ResultLine.NoMarkerNoResult | backend/routes/diagnosis.py:167-169 | output without the marker yields no result |
| ReportDocument.ReportName | backend/routes/diagnosis.py:185 | the report name is the model name and '_', then the file name, then '_' and the compact UTC stamp, which reads back as the time |
| ReportDocument.ReportNameDeterminesSecond | backend/routes/diagnosis.py:185 | for a fixed model and file, two report names agree exactly when they were made in the same second |
| ReportDocument.ReportNameAmbiguous | backend/routes/diagnosis.py:185 | names holding '_' make different model and file pairs produce the same report name |
| ReportDocument.ReportPath | backend/routes/diagnosis.py:198 | a report path is the reports directory, '/', the report name and ".pdf" |
| ReportDocument.ReportPathInReportsDir | backend/routes/diagnosis.py:198 | a report path's base name is the report name plus ".pdf" |
| ReportDocument.ArtifactUrl | backend/routes/diagnosis.py:181-182 | an image URL is "/reports/" followed by the path's last component: a suffix of the path with no '/' that follows a '/' or the start |
| ReportDocument.ImageUrls | backend/routes/diagnosis.py:177-182 | the two image URLs name the two images the evaluator saves |
| ReportDocument.DecodedOrEmpty | backend/routes/diagnosis.py:81-84 | result text the decoder accepts reads as the decoded object; undecodable text reads as an empty object |
| ReportDocument.Render | backend/routes/diagnosis.py:52-113 | the PDF has eleven text lines: title, report, file and model names (with the "Unknown" fallbacks), the five metrics in fixed order and the diagnosis time; the image is inserted exactly when the confusion matrix exists on disk |
| ReportDocument.ReportShowsMetrics | backend/routes/diagnosis.py:86-98 | a result that decodes to the evaluator's metrics shows each metric's value under its label |
| ReportDocument.UndecodableShowsNotAvailable | backend/routes/diagnosis.py:81-98 | an undecodable result shows "N/A" for all five metrics |
| ReportDocument.ReportTimeReadsBack | backend/routes/diagnosis.py:100-102 | the printed diagnosis time reads back as the record's creation time |
| Diagnosis.Lookup | backend/routes/diagnosis.py:129-130 | `Query.get` finds a row exactly when the id is a key of the table |
| Diagnosis.Persist | backend/routes/diagnosis.py:187-213 | exactly one new record and one new report are added, the record holds the captured text, the fixed image paths and the link to the report, and no other table changes |
| Diagnosis.PersistPreservesConsistency | backend/routes/diagnosis.py:187-213 | the three commits keep the store consistent |
| Diagnosis.AddPairPreservesConsistency | backend/models/models.py:47-82 | adding a record and the one fresh report it links to keeps every consistency rule |
| Diagnosis.Check | backend/routes/diagnosis.py:121-143 | a request is cleared exactly when it is validated; the cleared paths join the fixed upload directories with the stored names |
| Diagnosis.Conclude | backend/routes/diagnosis.py:146-217 | after the evaluator runs, its images stay on disk; exits before the commits leave the store unchanged; a success adds exactly the report PDF to the disk |
| Diagnosis.Interpret | backend/routes/diagnosis.py:161-166 | result text that does not decode answers 500 and changes nothing; text that decodes is committed |
| Diagnosis.Commit | backend/routes/diagnosis.py:187-223 | a decoded result is committed; the answer carries the decoded data and the two image URLs, or a render error |
| Diagnosis.Diagnose | backend/routes/diagnosis.py:118-231 | refusals before the evaluator change nothing; the answer is 400 exactly when the body lacks an id; users, files and models never change |
| Diagnosis.CheckOrder | backend/routes/diagnosis.py:121-143 | each check decides its own answer in source order: no object is 500, a missing or zero id 400, a missing row 404, then a missing data file 404 and a missing model file 404 with the path looked for; the evaluator runs exactly when all of them pass |
| Diagnosis.ZeroIdIsMissing | backend/routes/diagnosis.py:125-126 | an id of 0 counts as missing, so the answer is 400 before any lookup |
| Diagnosis.ValidatedRuns | backend/routes/diagnosis.py:146-151 | a validated request's answer is the evaluator's run on the two cleared paths followed by the rest of the handler |
| Diagnosis.EvaluatorFailures | backend/routes/diagnosis.py:158-169 | a nonzero exit, no result line and an undecodable line each give their own 500 with the store unchanged |
| Diagnosis.CommittedPair | backend/routes/diagnosis.py:188-213 | a decodable result adds one record and one linked report even when the PDF then fails |
| Diagnosis.DiagnosePreservesConsistency | backend/routes/diagnosis.py:118-231 | every request keeps the store consistent |
| Diagnosis.EndToEnd | backend/routes/diagnosis.py:146-223 | with the real evaluator completing after progress output of whole lines without the marker, the answer carries exactly its metrics and the two image URLs, both images exist, and the new record keeps `json.dumps` of the metrics |
| Diagnosis.CompletedRun | backend/routes/diagnosis.py:158-223 | the same as EndToEnd once the checks have passed, under the same condition on the progress output |
| Diagnosis.ConcludeOutcome | backend/routes/diagnosis.py:146-169 | the evaluator's outcome picks the exit: a nonzero status is the script error, exactly; status 0 with no result line is "not found"; a result line that does not decode is "not JSON"; only a decoded one reaches the commits |
| Diagnosis.EndToEndDocument | backend/routes/diagnosis.py:64-98 | the PDF of a successful diagnosis names the stored file and model and shows the evaluator's metrics |
| Diagnosis.RepeatSharesReportPath | backend/routes/diagnosis.py:185-198 | two successful requests in the same second give two reports that share one PDF path |
| Records.ReportOf | backend/routes/report.py:26 | a record has a report exactly when its link resolves, and it is the linked report |
| Records.EntryOf | backend/routes/report.py:28-35 | an entry carries the record's key and creation time |
| Records.ListRecords | backend/routes/report.py:17-36 | the listing holds exactly one entry per record, in ascending key order, each built from its record |
| Records.EntryFallbacks | backend/routes/report.py:22-35 | a detached file shows as "Unknown" and a record without a report shows an empty path and "No Report"; otherwise the stored names are shown |
| Records.DeleteRecord | backend/routes/report.py:43-62 | an unknown id answers 404; a missing report file answers 500 and changes nothing; otherwise the record, its report and the report file all go |
| Records.DeleteRecordLeavesOthers | backend/routes/report.py:50-57 | deleting one record leaves every other record as it was |
| Records.DeleteRecordPreservesConsistency | backend/routes/report.py:43-62 | deleting a record keeps the store consistent |
| Records.SharedPathBlocksSecondDelete | backend/routes/report.py:50-52 | when two reports share a PDF path, deleting the second record after the first answers 500 and changes nothing |
| Catalog.AfterLastAt | backend/routes/file_management.py:18 | the extension is the text after the dot at which no later dot occurs |
| Catalog.AllowedIffSplit | backend/routes/file_management.py:16-18 | a name is allowed exactly when it has a dot and the lowered text after its last dot is whitelisted |
| Catalog.AllowedByLastExtension | backend/routes/model_management.py:14-16 | only the last extension decides whether a name is allowed |
| Catalog.InnerExtensionIgnored | backend/routes/file_management.py:16-18 | "bearing.dat.txt" is refused although it holds ".dat" |
| Catalog.LastExtensionDecides | backend/routes/model_management.py:14-16 | "weights.tar.pt" is accepted as a model |
| Catalog.KelvinSignExtension | backend/routes/model_management.py:16 | `str.lower` maps KELVIN SIGN to 'k', so "net.pKl" with that sign is accepted |
| Catalog.NameTakenIff | backend/routes/file_management.py:33-35 | the duplicate test finds a row exactly when some row has that name |
| Catalog.Screen | backend/routes/file_management.py:25-30 | no upload or an empty name answers "no file"; a name with a bad extension answers "invalid type"; otherwise the upload passes the screen |
| Catalog.Admit | backend/routes/file_management.py:25-46 | as written: the duplicate test uses the client's name while the saved file and the row use the sanitised name; an empty sanitised name fails the save |
| Catalog.AdmitIntended | backend/routes/file_management.py:25-46 | corrected: the duplicate test uses the sanitised name, so an admitted name is held by no existing row |
| Catalog.CheckExists | backend/routes/file_management.py:126-136 | a missing or empty name answers 400; otherwise the answer is whether some row has exactly that name |
| Catalog.KeysFrom | backend/routes/file_management.py:76 | the keys from a bound upward, ascending, each once |
| Catalog.InsertItem | backend/routes/file_management.py:76 | inserting into a newest-first list keeps it newest first and adds exactly that item |
| Catalog.SortNewest | backend/routes/file_management.py:76 | `order_by(upload_time.desc())` is a permutation of the rows, newest first |
| Catalog.Items | backend/routes/file_management.py:76 | one item per row, with that row's time |
| Catalog.Listed | backend/routes/file_management.py:76 | the listing order holds every row exactly once, newest first |
| Catalog.NewestFirstUnique | backend/routes/file_management.py:76 | two newest-first arrangements of the same items are the same sequence |
| Catalog.ListedIsTheOrder | backend/routes/file_management.py:76 | any newest-first arrangement of the rows is the listing order, so the order is fixed by the rows |
| Catalog.ListedKeysDistinct | backend/routes/file_management.py:76 | no key occupies two positions of the listing order |
| Catalog.ItemsCount | backend/routes/file_management.py:82 | the count of items is the count of rows |
| Catalog.PageOf | backend/routes/file_management.py:79 | `offset(lo).limit(size)` is the consecutive run at the offset, full unless the rows run out |
| Catalog.TotalPagesIsCeiling | backend/routes/file_management.py:83 | `(total + size - 1) // size` is the fewest pages of that size holding all rows |
| Catalog.EveryItemOnItsPage | backend/routes/file_management.py:79-83 | each position appears on page `position // size + 1`, which is within the page count |
| Catalog.DivisionUnique | backend/routes/file_management.py:79 | a position splits in one way only into whole pages and an offset within a page |
| Catalog.PageInOrder | backend/routes/file_management.py:76-79 | a page of a newest-first list is newest first and holds only its items |
| Catalog.SortedPage | backend/routes/file_management.py:76-79 | a page is the run of the listing order starting after the rows of the earlier pages, at most `size` long and full unless the rows run out; newest first |
| Catalog.PageKeys | backend/routes/file_management.py:76-79 | the keys on a page are the keys of that run of the listing order: rows of the table, no more than `size`, in descending time |
| Catalog.List | backend/routes/file_management.py:70-101 | a page or size that is not an integer or is below 1, or an OFFSET `(page - 1) * size` or a LIMIT `size` above 2^64 - 1, which MySQL refuses, answers 500; otherwise the page holds the keys at positions `(page - 1) * size` onwards of the listing order, as many as fit in `size`, with the total and the ceiling page count |
| Catalog.KeyOnOnePage | backend/routes/file_management.py:76-79 | no row is listed on two different pages |
| Catalog.PositionOnOnePage | backend/routes/file_management.py:76-79 | place `i1` of page `p1` and place `i2` of page `p2` of the listing order hold the same row only when they are the same page and place |
| Catalog.SamePlace | backend/routes/file_management.py:79 | `offset(lo)` places of two pages coincide only for the same page and index |
| Catalog.RowOnSomePage | backend/routes/file_management.py:76-83 | every row appears on some page within the page count |
| Catalog.OversizedRequestsFail | backend/routes/file_management.py:79 | page 2^64 + 1 of size 5, and page 1 of size 2^64, answer 500; page 1 of size 2^64 - 1 is listed |
| Catalog.ListingShowsEveryRow | backend/routes/file_management.py:70-97 | when `size` is a LIMIT MySQL accepts and the table has at most 2^64 - 1 rows, the first page is listed and every row is listed on some page its count announces |
| FileManagement.SaveAdmitted | backend/routes/file_management.py:39-60 | an admitted upload adds the file to the disk and exactly one row with the sanitised name, path, size and time; a refusal changes nothing |
| FileManagement.UploadFile | backend/routes/file_management.py:22-66 | as written: the upload succeeds exactly when the screen passes, no row has the client's name and the sanitised name is not empty; a failure changes nothing |
| FileManagement.UploadFileIntended | backend/routes/file_management.py:22-66 | corrected: the duplicate test uses the stored name |
| FileManagement.UploadPreservesConsistency | backend/routes/file_management.py:52-60 | both versions of the upload keep the store consistent |
| FileManagement.UploadIntendedKeepsNamesUnique | backend/routes/file_management.py:33-39 | the corrected upload keeps stored file names unique |
| FileManagement.SpacedNamePassesScreen | backend/routes/file_management.py:16-30 | "a b.pt" passes the extension screen |
| FileManagement.RepeatedUploadDuplicatesName | backend/routes/file_management.py:33-60 | as written, uploading "a b.pt" twice succeeds twice, leaves two rows named "a_b.pt", and the existence check still denies "a b.pt" |
| FileManagement.RepeatedUploadRefusedWhenIntended | backend/routes/file_management.py:33-39 | corrected, the repeat is refused and changes nothing, and the existence check finds the stored name |
| FileManagement.GetFiles | backend/routes/file_management.py:70-101 | fails exactly as `Catalog.List` does, the 64-bit OFFSET and LIMIT range included; otherwise the listing reports the page number, the row count and the ceiling page count; its entries are the rows at positions `(page - 1) * size` onwards of the newest-first order, as many as fit, each showing its row |
| FileManagement.Entries | backend/routes/file_management.py:85-90 | one entry per listed key, in order |
| FileManagement.GetFilesNewestFirst | backend/routes/file_management.py:76 | a listed page is in descending upload time |
| FileManagement.ListedKeyShown | backend/routes/file_management.py:85-90 | every listed key appears as the entry of its row |
| FileManagement.GetFilesShowsEveryFile | backend/routes/file_management.py:70-97 | when `page_size` is a LIMIT MySQL accepts and there are at most 2^64 - 1 files, every stored file is shown on some page within the page count |
| FileManagement.Detach | backend/models/models.py:63 | the back-reference sets the file key of exactly the records naming the file to NULL and leaves all else |
| FileManagement.DeleteFile | backend/routes/file_management.py:105-122 | an unknown id answers 500 and changes nothing; otherwise the row and the file go and the records that named it are detached |
| FileManagement.DeleteFilePreservesConsistency | backend/routes/file_management.py:105-122 | deleting a file keeps the store consistent |
| FileManagement.DeletedFileShowsUnknown | backend/routes/report.py:22-30 | a record whose file is deleted lists its file as "Unknown", where it named it before |
| FileManagement.CheckFileExists | backend/routes/file_management.py:126-136 | a missing or empty name answers 400; otherwise whether some file row has exactly that name |
| ModelManagement.SaveAdmitted | backend/routes/model_management.py:37-58 | an admitted model adds its file and exactly one row with the sanitised name, size, path and time |
| ModelManagement.UploadModel | backend/routes/model_management.py:20-64 | as written: the upload succeeds exactly when the screen passes, no row has the client's name and the sanitised name is not empty |
| ModelManagement.UploadModelIntended | backend/routes/model_management.py:20-64 | corrected: the duplicate test uses the stored name |
| ModelManagement.UploadPreservesConsistency | backend/routes/model_management.py:50-58 | both versions of the upload keep the store consistent |
| ModelManagement.UploadIntendedKeepsNamesUnique | backend/routes/model_management.py:31-37 | the corrected upload keeps stored model names unique |
| ModelManagement.SpacedNamePassesScreen | backend/routes/model_management.py:14-28 | "a b.pt" passes the model extension screen |
| ModelManagement.RepeatedUploadDuplicatesName | backend/routes/model_management.py:31-58 | as written, uploading "a b.pt" twice succeeds twice and leaves two model rows named "a_b.pt" |
| ModelManagement.RepeatedUploadRefusedWhenIntended | backend/routes/model_management.py:31-37 | corrected, the repeat is refused and changes nothing |
| ModelManagement.GetModels | backend/routes/model_management.py:68-99 | fails exactly as `Catalog.List` does, the 64-bit OFFSET and LIMIT range included; otherwise the listing reports the page number, the row count and the ceiling page count; its entries are the rows at positions `(page - 1) * size` onwards of the newest-first order, as many as fit, each showing its row |
| ModelManagement.GetModelsNewestFirst | backend/routes/model_management.py:74 | a listed page is in descending upload time |
| ModelManagement.ListedKeyShown | backend/routes/model_management.py:83-88 | every listed key appears as the entry of its row |
| ModelManagement.GetModelsShowsEveryModel | backend/routes/model_management.py:68-95 | when `page_size` is a LIMIT MySQL accepts and there are at most 2^64 - 1 models, every stored model is shown on some page within the page count |
| ModelManagement.DeleteModel | backend/routes/model_management.py:103-120 | the delete succeeds exactly when the model exists and no record uses it; the file of an existing model goes either way; a failure keeps every row |
| ModelManagement.DeleteModelPreservesConsistency | backend/routes/model_management.py:103-120 | deleting a model keeps every record's model key resolvable |
| ModelManagement.DeleteUsedModelLosesFile | backend/routes/model_management.py:108-114 | deleting a model in use answers 500 and keeps its row, but its file is gone, and a retry answers the same |
| ModelManagement.CheckModelExists | backend/routes/model_management.py:124-134 | a missing or empty name answers 400; otherwise whether some model row has exactly that name |
| Auth.Account | backend/routes/auth.py:19-22 | no account is found exactly when no name is given or no user has it; otherwise the found user has the name |
| Auth.AccountIsTheNamedUser | backend/routes/auth.py:19 | with unique user names the lookup finds the one user of that name |
| Auth.DoLogin | backend/routes/auth.py:12-44 | unknown names answer 404, a failed password check 401, and success 200 exactly when the password checks and a token is made; only a passing login sets the user's last login |
| Auth.LoginTouchesOnlyLastLogin | backend/routes/auth.py:27-28 | a login changes at most the last-login time of the user it names, and keeps the store consistent |
| Auth.LoginSucceedsIff | backend/routes/auth.py:19-41 | a user logs in exactly when the password checks against that user's hash and a token is made |
| Auth.RoleFor | backend/routes/auth.py:62 | the role is admin exactly when the lowered name starts with "admin" |
| Auth.AdminPrefix | backend/routes/auth.py:62 | the same rule stated character by character |
| Auth.RoleExamples | backend/routes/auth.py:62 | the prefix rule ignores case and does not look inside the name |
| Auth.Validate | backend/routes/auth.py:50-59 | a non-object body is 500, a blank field 400, a taken name 400; otherwise nothing objects |
| Auth.Register | backend/routes/auth.py:48-76 | as written: no registration ever succeeds or changes the store; a valid new name answers 500 |
| Auth.FirstRegistrationFails | backend/routes/auth.py:61-76 | on an empty store a complete registration answers 500 as written, and succeeds once the hash is imported |
| Auth.RegisterIntended | backend/routes/auth.py:48-76 | corrected: registration succeeds exactly when nothing objects, and then adds exactly one user with the hashed password, the email, no last login and the role the name implies |
| Auth.RegisterPreservesConsistency | backend/routes/auth.py:58-71 | both versions keep user names unique and the store consistent |
| Auth.RegisteredUserCanLogIn | backend/routes/auth.py:12-71 | a user registered with the corrected handler logs in with that password |

## Left out

- The neural network, the data loader and batching, t-SNE and the plots of
  `diagnosis_eval.py` (lines 85-232 and 297-322) are left out. They are numerics and
  plotting. Only their observable effects are kept: the five values and the two saved images.
- The metric values are opaque `Float`s, given by the text Python prints for them. Float
  arithmetic (precision, recall, F1, specificity and the accuracy quotient) is not
  modelled. The accuracy is kept as a numerator and a denominator.
- Unzipping, reading the CSV and removing the temporary file are left out. The loader gets
  the extracted names and the parsed table as inputs.
- The evaluator is a parameter of `Diagnosis`. `subprocess.run` with `check=True` is
  modelled by the exit status, the standard output and the files written.
- JSON decoding is an opaque decoder parameter. Decoded values are kept as the text
  `str()` gives them.
- The FPDF layout (fonts, cells, spacing) is left out. Only the text lines and the image
  are kept. Whether `pdf.output` succeeds is an input.
- SQLAlchemy sessions, rollbacks and the MySQL connection are left out. Tables are maps. A
  commit is an atomic update of the store.
- The clocks, the password hash and its check, the JWT encoding and `secure_filename` are
  parameters.
- The following files are not part of this model: `user_management.py`,
  `data_management.py`, `database.py`, `route.py`, `my_logging.py`, the blueprint
  registration in `routes/__init__.py` and `app.py`, and the front end.
- `serve_report` (`diagnosis.py` lines 18-22) sends the saved images back for the
  `/reports/<name>` URLs. Only the URLs are modelled (`ReportDocument.ArtifactUrl`); sending
  files is left out as I/O. The listing routes after it (lines 24-44) are shadowed by the
  listings of the file and model blueprints and are not part of this model.
- Concurrency between requests is left out. Every request is one atomic step.
- Non-string JSON values in the login and registration bodies are left out. Fields are
  strings or absent.
- Times are shown as time values. The text formats are left out: the file and model
  listings send `isoformat()`, and `get_diagnosis_records` lets `jsonify` render `created_at` as an
  HTTP date (backend/routes/report.py:32).
- Auth.Account: when names repeat, the row with the smallest key is chosen. The database's
  order is unspecified there.
- Catalog.SortNewest: rows with equal upload times are ordered by ascending key. The
  source leaves their order to the database.
- The upload handlers save under the relative directories `./uploads` and `./models`, but
  `diagnose` looks under absolute directories. The working directory is not modelled, so
  the two are different strings in the model.
- The size columns are `String(50)` in the schema and are kept as numbers.
- `str.lower` is modelled as ASCII plus KELVIN SIGN. That is exact for comparisons with
  ASCII words such as the extension whitelist and "admin".
- Primary keys are unbounded. The 32-bit `INTEGER` limit is not modelled.
- Catalog.ListingShowsEveryRow, FileManagement.GetFilesShowsEveryFile and
  ModelManagement.GetModelsShowsEveryModel assume at most 2^64 - 1 rows. In a larger table
  the later pages would need an OFFSET MySQL refuses. Since the keys are unbounded here, the
  model does not rule such a table out by itself.
- The foreign key from a record to its model is taken to be enforced by the database, as
  MySQL's InnoDB does (backend/config.py:10).
- Logging is left out.
- FileManagement.CheckFileExists: names are compared exactly, as under a binary collation.
  The collation is a setting of the MySQL server that the repository does not fix. Under
  MySQL's default case- and accent-insensitive collations, `file_name = 'A.pt'` also finds
  a row named "a.pt", and the model does not promise that answer.
- ModelManagement.CheckModelExists: names are compared exactly, for the same reason as
  `CheckFileExists`.
- Catalog.NameTakenIff, Catalog.CheckExists and Catalog.Admit: the duplicate test of the
  uploads compares names exactly. The collation is not modelled.
- Auth.Account: usernames are compared exactly at login and registration, and the
  uniqueness of `username` is exact equality too. The collation is not modelled.
- Diagnosis.Persist and Diagnosis.Commit: the `String(255)` widths of `report_name` and
  `report_path` (backend/models/models.py:73-75) are not checked. Under MySQL's strict mode a
  longer name fails the second commit after the record is committed, so the handler answers
  500 and keeps a record without a report. The model always commits both.
- FileManagement.SaveAdmitted and ModelManagement.SaveAdmitted: the `String(255)` widths of
  the name and path columns (backend/models/models.py:24-25, 38-40) are not checked. Under
  strict mode a longer name fails the commit after the file is saved. The model always adds
  the row.
- Auth.Register: the `String(255)` widths of the user columns (backend/models/models.py:11-13)
  are not checked either.
- Diagnosis.Check: the two ids are JSON integers or absent. Strings, booleans and floats,
  which `Query.get` would also look up, are not modelled.
- Records.ListRecords: records are listed in ascending key order. `query.all()`
  (backend/routes/report.py:19) has no `ORDER BY`, so the real order is the database's.
- Evaluation.MainOutputContract, Diagnosis.EndToEnd and Diagnosis.CompletedRun hold only
  when the progress output before the result line is whole lines without the marker
  (`Evaluation.QuietProgress`). The source does not guarantee that. `diagnosis_eval.py`
  (lines 49-50) prints the names in `./temp_data`, which keeps the members of every uploaded
  archive. A member named after the marker followed by `{}` is captured before the real
  result line (`Evaluation.ListingHijacksResult`). Then a completed run is answered with
  whatever `{}` decodes to instead of its metrics. A failed run still gets the script
  error, because the exit status is checked first.

## Findings

| source | as written | input that shows it | evidently intended | confidence | as-written member | corrected member |
|---|---|---|---|---|---|---|
| backend/routes/auth.py:2 | `generate_password_hash` is never imported, so line 61 raises `NameError` for every valid request and the handler answers 500 | a body with username "alice", password "secret", email "alice@example.com" on an empty store | import the hash from `werkzeug.security` so the user row is added | not executed | Auth.Register | Auth.RegisterIntended |
| backend/routes/file_management.py:33-39 | the duplicate test looks up the client's file name, but the row stores `secure_filename` of it | "a b.pt" uploaded twice: both succeed, two rows named "a_b.pt", the second save overwrites the first file | test the sanitised name that the row will carry | not executed | FileManagement.RepeatedUploadDuplicatesName | FileManagement.UploadFileIntended |
| backend/routes/model_management.py:31-37 | the same mismatch in the model upload | "a b.pt" uploaded twice as a model | test the sanitised name | not executed | ModelManagement.RepeatedUploadDuplicatesName | ModelManagement.UploadModelIntended |

The discrepancies are exhibited by `Auth.FirstRegistrationFails`, and by
`FileManagement.RepeatedUploadDuplicatesName` and `ModelManagement.RepeatedUploadDuplicatesName`.
The corrected definitions come with `Auth.RegisteredUserCanLogIn`,
`FileManagement.UploadIntendedKeepsNamesUnique`, `FileManagement.RepeatedUploadRefusedWhenIntended`,
`ModelManagement.UploadIntendedKeepsNamesUnique` and `ModelManagement.RepeatedUploadRefusedWhenIntended`.
One further hazard is not logged as a finding, because the intended behaviour is unclear:
`delete_model` removes the artifact before the database refuses to delete a model that a record
still uses (`ModelManagement.DeleteUsedModelLosesFile`).

=== FILE: auth.dfy ===
/** `auth.py`: login and registration. Password hashing and token signing are parameters:
    `verify` is `check_password_hash`, `hash` is `generate_password_hash`, and the token is
    whatever `jwt.encode(...).decode('utf-8')` yields, `None` when that raises. */
module Auth {
  import opened Common
  import opened Text
  import opened Clock
  import opened Schema

  /** The JSON body of a request, read with `data.get(...)`: `None` for a missing key. */
  datatype Credentials = Credentials(username: Option<string>, password: Option<string>, email: Option<string>)

  /** User `k` carries the name `name`. */
  predicate Named(users: Table<User>, k: nat, name: string) {
    k in users.rows && users.rows[k].username == name
  }

  /** `filter_by(username=...).first()`. A missing name filters on NULL, which no row holds. */
  function Account(users: Table<User>, name: Option<string>): (r: Option<nat>)
    ensures r.None? <==> name.None? || forall k :: k in users.rows ==> users.rows[k].username != name.value
    ensures r.Some? ==> Named(users, r.value, name.value) && forall k :: Named(users, k, name.value) ==> r.value <= k
  {
    if name.None? then None else FindFirst(users, (u: User) => u.username == name.value)
  }

  /** Under `UNIQUE(username)` the account is the one row of that name. */
  lemma AccountIsTheNamedUser(users: Table<User>, name: string, k: nat)
    requires UniqueUsernames(users) && Named(users, k, name)
    ensures Account(users, Some(name)) == Some(k)
  {
    var r := Account(users, Some(name));
    assert r.Some?;
  }

  datatype LoginOutcome =
    | LoginFailed          // 500: no JSON object, no password, or the token could not be made
    | UnknownUser          // 404
    | WrongPassword        // 401
    | LoggedIn(token: string)  // 200
  {
    function Status(): int {
      match this
      case LoginFailed => 500
      case UnknownUser => 404
      case WrongPassword => 401
      case LoggedIn(_) => 200
    }
  }

  datatype Login = Login(outcome: LoginOutcome, store: Store)

  /** The body names an account and its password checks out against the stored hash. */
  predicate Passes(st: Store, body: Option<Credentials>, verify: (string, string) -> bool) {
    && body.Some?
    && Account(st.users, body.value.username).Some?
    && body.value.password.Some?
    && verify(st.users.rows[Account(st.users, body.value.username).value].passwordHash, body.value.password.value)
  }

  /** `login`. `body` is `None` when `request.get_json()` is not a JSON object; `now` is
      `datetime.utcnow()`. The time of login is committed before the token is made, so it
      stays even when making the token fails. */
  function DoLogin(st: Store, body: Option<Credentials>, verify: (string, string) -> bool,
                   now: Time, token: Option<string>): (r: Login)
    ensures r.outcome.UnknownUser? <==> body.Some? && Account(st.users, body.value.username).None?
    ensures r.outcome.WrongPassword? <==>
      && body.Some? && Account(st.users, body.value.username).Some? && body.value.password.Some?
      && !Passes(st, body, verify)
    ensures r.outcome.LoggedIn? <==> Passes(st, body, verify) && token.Some?
    ensures r.outcome.LoggedIn? ==> r.outcome.token == token.value
    ensures !Passes(st, body, verify) ==> r.store == st
    ensures Passes(st, body, verify) ==>
      var k := Account(st.users, body.value.username).value;
      && r.store.users.rows == st.users.rows[k := st.users.rows[k].(lastLogin := Some(now))]
      && r.store.users.next == st.users.next
    ensures r.store.files == st.files && r.store.models == st.models
    ensures r.store.records == st.records && r.store.reports == st.reports
  {
    if body.None? then Login(LoginFailed, st)
    else
      match Account(st.users, body.value.username)
      case None => Login(UnknownUser, st)
      case Some(k) =>
        match body.value.password
        case None => Login(LoginFailed, st)
        case Some(pw) =>
          var user := st.users.rows[k];
          if !verify(user.passwordHash, pw) then Login(WrongPassword, st)
          else
            var st1 := st.(users := Update(st.users, k, user.(lastLogin := Some(now))));
            match token
            case None => Login(LoginFailed, st1)
            case Some(t) => Login(LoggedIn(t), st1)
  }

  /** A login changes at most the time of last login of the one user it names, and keeps the
      store consistent. */
  lemma LoginTouchesOnlyLastLogin(st: Store, body: Option<Credentials>, verify: (string, string) -> bool,
                                  now: Time, token: Option<string>, j: nat)
    requires Consistent(st) && j in st.users.rows
    ensures var r := DoLogin(st, body, verify, now, token);
      && Consistent(r.store)
      && j in r.store.users.rows
      && r.store.users.rows[j].(lastLogin := st.users.rows[j].lastLogin) == st.users.rows[j]
      && (r.store.users.rows[j] != st.users.rows[j] ==>
            body.Some? && body.value.username == Some(st.users.rows[j].username) && r.store.users.rows[j].lastLogin == Some(now))
  {
    var r := DoLogin(st, body, verify, now, token);
    if Passes(st, body, verify) {
      var k := Account(st.users, body.value.username).value;
      forall a, b | a in r.store.users.rows && b in r.store.users.rows && a != b
        ensures r.store.users.rows[a].username != r.store.users.rows[b].username
      {
        assert r.store.users.rows[a].username == st.users.rows[a].username;
        assert r.store.users.rows[b].username == st.users.rows[b].username;
      }
      assert forall p :: p in st.reports.rows ==> exists i :: OwnedBy(r.store.records, p, i);
    }
  }

  /** With unique names, logging in as user `k` succeeds exactly when the password checks
      out against `k`'s hash and a token can be made. */
  lemma LoginSucceedsIff(st: Store, k: nat, password: string, verify: (string, string) -> bool,
                         now: Time, token: Option<string>)
    requires UniqueUsernames(st.users) && k in st.users.rows
    ensures var body := Some(Credentials(Some(st.users.rows[k].username), Some(password), None));
      DoLogin(st, body, verify, now, token).outcome.LoggedIn? <==>
        verify(st.users.rows[k].passwordHash, password) && token.Some?
  {
    AccountIsTheNamedUser(st.users, st.users.rows[k].username, k);
  }

  /** `db.Enum('admin', 'user')` is chosen by the lower-cased name starting with "admin". */
  function RoleFor(username: string): (r: Role)
    ensures r == Admin <==> |username| >= 5 && Lower(username[..5]) == "admin"
  {
    if |username| >= 5 && Lower(username)[..5] == "admin" then Admin else Regular
  }

  /** The role character by character: a name is an administrator's exactly when its first
      five characters are 'a', 'd', 'm', 'i', 'n', each in either case. KELVIN SIGN, the one
      non-ASCII character that lowers to an ASCII letter, plays no part: "admin" has no 'k'. */
  lemma AdminPrefix(username: string)
    ensures RoleFor(username) == Admin <==>
      && |username| >= 5
      && username[0] in {'a', 'A'} && username[1] in {'d', 'D'} && username[2] in {'m', 'M'}
      && username[3] in {'i', 'I'} && username[4] in {'n', 'N'}
  {
    if |username| >= 5 {
      var w := Lower(username[..5]);
      if w == "admin" {
        assert w[0] == 'a' && w[1] == 'd' && w[2] == 'm' && w[3] == 'i' && w[4] == 'n';
      }
    }
  }

  /** Examples of the rule: the case of the prefix does not matter, and the prefix must be
      at the start. */
  lemma RoleExamples()
    ensures RoleFor("ADMINistrator") == Admin
    ensures RoleFor("admin") == Admin
    ensures RoleFor("adm") == Regular
    ensures RoleFor("the_admin") == Regular
  {
    AdminPrefix("ADMINistrator");
    AdminPrefix("admin");
    AdminPrefix("the_admin");
  }

  datatype RegisterOutcome =
    | RegisterFailed    // 500
    | MissingFields     // 400
    | UsernameTaken     // 400
    | Registered        // 200
  {
    function Status(): int {
      match this
      case RegisterFailed => 500
      case MissingFields => 400
      case UsernameTaken => 400
      case Registered => 200
    }
  }

  datatype Registration = Registration(outcome: RegisterOutcome, store: Store)

  /** `not field`: absent, or the empty string. */
  predicate Blank(field: Option<string>) {
    field.None? || field.value == ""
  }

  /** The checks both versions of `register` make before building the row: a refusal, or
      nothing to object to. */
  function Validate(st: Store, body: Option<Credentials>): (r: Option<RegisterOutcome>)
    ensures r == Some(RegisterFailed) <==> body.None?
    ensures r == Some(MissingFields) <==>
      body.Some? && (Blank(body.value.username) || Blank(body.value.password) || Blank(body.value.email))
    ensures r == Some(UsernameTaken) <==>
      && body.Some? && !Blank(body.value.username) && !Blank(body.value.password) && !Blank(body.value.email)
      && exists k :: Named(st.users, k, body.value.username.value)
    ensures r.Some? ==> !r.value.Registered?
  {
    if body.None? then Some(RegisterFailed)
    else
      var c := body.value;
      if Blank(c.username) || Blank(c.password) || Blank(c.email) then Some(MissingFields)
      else if Account(st.users, c.username).Some? then Some(UsernameTaken)
      else None
  }

  /** `register` as written: `generate_password_hash` is never imported, so every request
      that passes the checks raises `NameError`, the session is rolled back, and the answer
      is 500. No request ever adds a user. */
  function Register(st: Store, body: Option<Credentials>): (r: Registration)
    ensures r.store == st
    ensures r.outcome != Registered
    ensures r.outcome == RegisterFailed <==>
      body.None? || (!Blank(body.value.username) && !Blank(body.value.password) && !Blank(body.value.email) &&
                     forall k :: k in st.users.rows ==> st.users.rows[k].username != body.value.username.value)
  {
    match Validate(st, body)
    case Some(refusal) => Registration(refusal, st)
    case None => Registration(RegisterFailed, st)
  }

  /** `register` with the import in place. `hash` is `generate_password_hash`; `now` is the
      database's `CURRENT_TIMESTAMP`, the default of `created_at`. */
  function RegisterIntended(st: Store, body: Option<Credentials>, hash: string -> string, now: Time): (r: Registration)
    ensures r.outcome.Registered? <==> Validate(st, body).None?
    ensures !r.outcome.Registered? ==> r.store == st && r.outcome == Validate(st, body).value
    ensures r.outcome.Registered? ==>
      var c := body.value;
      exists k: nat :: k !in st.users.rows &&
        r.store.users.rows == st.users.rows[k := User(c.username.value, hash(c.password.value), Some(c.email.value),
                                                      now, None, RoleFor(c.username.value))]
    ensures r.store.files == st.files && r.store.models == st.models
    ensures r.store.records == st.records && r.store.reports == st.reports
  {
    match Validate(st, body)
    case Some(refusal) => Registration(refusal, st)
    case None =>
      var c := body.value;
      var (users, k) := Insert(st.users, User(c.username.value, hash(c.password.value), Some(c.email.value),
                                              now, None, RoleFor(c.username.value)));
      Registration(Registered, st.(users := users))
  }

  /** A first registration on an empty store: refused with 500 as written, accepted once the
      hash function is imported. */
  lemma FirstRegistrationFails(hash: string -> string, now: Time)
    ensures var body := Some(Credentials(Some("alice"), Some("secret"), Some("alice@example.com")));
      && Register(EmptyStore(), body) == Registration(RegisterFailed, EmptyStore())
      && RegisterIntended(EmptyStore(), body, hash, now).outcome == Registered
  {
    var body := Some(Credentials(Some("alice"), Some("secret"), Some("alice@example.com")));
    assert Validate(EmptyStore(), body).None?;
  }

  /** Registration keeps the store consistent: a name already taken is refused. */
  lemma RegisterPreservesConsistency(st: Store, body: Option<Credentials>, hash: string -> string, now: Time)
    requires Consistent(st)
    ensures Consistent(Register(st, body).store)
    ensures Consistent(RegisterIntended(st, body, hash, now).store)
  {
    var r := RegisterIntended(st, body, hash, now);
    if r.outcome.Registered? {
      var c := body.value;
      var name := c.username.value;
      var u := User(name, hash(c.password.value), Some(c.email.value), now, None, RoleFor(name));
      var k: nat :| k !in st.users.rows && r.store.users.rows == st.users.rows[k := u];
      forall a, b | a in r.store.users.rows && b in r.store.users.rows && a != b
        ensures r.store.users.rows[a].username != r.store.users.rows[b].username
      {
        if a == k {
          assert !Named(st.users, b, name);
        } else if b == k {
          assert !Named(st.users, a, name);
        }
      }
      assert forall p :: p in st.reports.rows ==> exists i :: OwnedBy(r.store.records, p, i);
    }
  }

  /** A name registered with the import in place logs in with the password it was registered
      with, as long as the hash checks against its own password and a token can be made. */
  lemma RegisteredUserCanLogIn(st: Store, name: string, password: string, email: string,
                               hash: string -> string, verify: (string, string) -> bool,
                               now: Time, later: Time, token: string)
    requires UniqueUsernames(st.users)
    requires name != "" && password != "" && email != ""
    requires forall k :: k in st.users.rows ==> st.users.rows[k].username != name
    requires verify(hash(password), password)
    ensures var r := RegisterIntended(st, Some(Credentials(Some(name), Some(password), Some(email))), hash, now);
      && r.outcome.Registered?
      && DoLogin(r.store, Some(Credentials(Some(name), Some(password), None)), verify, later, Some(token)).outcome == LoggedIn(token)
  {
    var body := Some(Credentials(Some(name), Some(password), Some(email)));
    var r := RegisterIntended(st, body, hash, now);
    assert Validate(st, body).None?;
    var u := User(name, hash(password), Some(email), now, None, RoleFor(name));
    var k: nat :| k !in st.users.rows && r.store.users.rows == st.users.rows[k := u];
    assert Named(r.store.users, k, name);
    forall a, b | a in r.store.users.rows && b in r.store.users.rows && a != b
      ensures r.store.users.rows[a].username != r.store.users.rows[b].username
    {
      if a == k {
        assert !Named(st.users, b, name);
      } else if b == k {
        assert !Named(st.users, a, name);
      }
    }
    AccountIsTheNamedUser(r.store.users, name, k);
  }
}

=== FILE: catalog.dfy ===
/** What `file_management.py` and `model_management.py` share: the extension whitelist, the
    checks an upload passes before it is saved, the name lookup, and the newest-first paged
    listing. */
module Catalog {
  import opened Common
  import opened Text
  import opened Schema

  /** `allowed_file`'s whitelist. */
  const FileExtensions: set<string> := {"dat", "pt", "zip", "xlsx"}

  /** `allowed_model`'s whitelist. */
  const ModelExtensions: set<string> := {"h5", "pt", "zip", "pkl"}

  /** `'.' in name and name.rsplit('.', 1)[1].lower() in extensions`. */
  predicate Allowed(name: string, extensions: set<string>) {
    '.' in name && Lower(AfterLast(name, '.')) in extensions
  }

  /** `rsplit('.', 1)` cuts at the dot after which no dot follows. */
  lemma AfterLastAt(name: string, k: nat)
    requires k < |name| && name[k] == '.' && '.' !in name[k + 1..]
    ensures AfterLast(name, '.') == name[k + 1..]
  {
    var j := LastIndexOf(name, '.').value;
    if j < k {
      assert false;
    } else if j > k {
      assert false;
    }
  }

  /** The whitelist test reads the name as a stem, a dot, and an extension without dots,
      and accepts exactly when the lowered extension is listed. */
  lemma AllowedIffSplit(name: string, extensions: set<string>)
    ensures Allowed(name, extensions) <==>
      exists k: nat :: k < |name| && name[k] == '.' && '.' !in name[k + 1..] && Lower(name[k + 1..]) in extensions
  {
    if Allowed(name, extensions) {
      var k := LastIndexOf(name, '.').value;
      assert AfterLast(name, '.') == name[k + 1..];
    }
    if exists k: nat :: k < |name| && name[k] == '.' && '.' !in name[k + 1..] && Lower(name[k + 1..]) in extensions {
      var k: nat :| k < |name| && name[k] == '.' && '.' !in name[k + 1..] && Lower(name[k + 1..]) in extensions;
      AfterLastAt(name, k);
    }
  }

  /** A name that ends in a dot and a dot-free extension is judged by that extension alone. */
  lemma AllowedByLastExtension(stem: string, ext: string, extensions: set<string>)
    requires '.' !in ext
    ensures Allowed(stem + "." + ext, extensions) <==> Lower(ext) in extensions
  {
    var name := stem + "." + ext;
    assert name[|stem|] == '.';
    assert name[|stem| + 1..] == ext;
    AfterLastAt(name, |stem|);
  }

  /** An extension already in lower case is its own lower case. */
  lemma LowercaseExtension(ext: string)
    requires forall i :: 0 <= i < |ext| ==> 'a' <= ext[i] <= 'z'
    ensures Lower(ext) == ext
  {
  }

  /** Only the last extension counts: a whitelisted inner extension does not help... */
  lemma InnerExtensionIgnored()
    ensures !Allowed("bearing.dat.txt", FileExtensions)
  {
    AfterLastAt("bearing.dat.txt", 11);
    LowercaseExtension("txt");
    assert "bearing.dat.txt"[12..] == "txt";
  }

  /** ... and an unlisted inner one does not hurt. */
  lemma LastExtensionDecides()
    ensures Allowed("weights.tar.pt", ModelExtensions)
  {
    AfterLastAt("weights.tar.pt", 11);
    LowercaseExtension("pt");
    assert "weights.tar.pt"[12..] == "pt";
  }

  /** The comparison ignores case, and `str.lower` maps KELVIN SIGN to 'k', so a model
      named with it in its extension passes as a pickle. */
  lemma KelvinSignExtension()
    ensures Allowed("net.p\U{212A}l", ModelExtensions)
  {
    AfterLastAt("net.p\U{212A}l", 3);
    assert "net.p\U{212A}l"[4..] == "p\U{212A}l";
    assert Lower("p\U{212A}l") == "pkl";
  }

  /** `filter_by(<name column>=name).first()` finds a row. */
  predicate NameTaken<T>(t: Table<T>, nameOf: T -> string, name: string)
  {
    FindFirst(t, (row: T) => nameOf(row) == name).Some?
  }

  lemma NameTakenIff<T>(t: Table<T>, nameOf: T -> string, name: string)
    ensures NameTaken(t, nameOf, name) <==> exists k :: k in t.rows && nameOf(t.rows[k]) == name
  {
    var p := (row: T) => nameOf(row) == name;
    if exists k :: k in t.rows && nameOf(t.rows[k]) == name {
      var k :| k in t.rows && nameOf(t.rows[k]) == name;
      assert p(t.rows[k]);
    }
  }

  /** No two rows of the table carry the same name. */
  predicate UniqueNames<T>(t: Table<T>, nameOf: T -> string) {
    forall a, b :: a in t.rows && b in t.rows && a != b ==> nameOf(t.rows[a]) != nameOf(t.rows[b])
  }

  /** The multipart part of the request: the client's file name and the bytes' count. */
  datatype Upload = Upload(filename: string, size: nat)

  /** How an upload handler ends. */
  datatype UploadOutcome =
    | NothingUploaded   // 400: no part, or an empty file name
    | InvalidType       // 400: the extension is not whitelisted
    | AlreadyExists     // 400: a row already has the looked-up name
    | SaveFailed        // 500: `save` raised, as it does for an empty sanitised name
    | Uploaded(key: nat, storedName: string)
  {
    function Status(): int {
      match this
      case NothingUploaded => 400
      case InvalidType => 400
      case AlreadyExists => 400
      case SaveFailed => 500
      case Uploaded(_, _) => 200
    }
  }

  /** What a handler decides before it touches the database: refuse, or save the bytes under
      `path` and insert a row named `safeName`. */
  datatype Admission = Refuse(outcome: UploadOutcome) | Save(safeName: string, path: string, size: nat)

  /** The first two checks: something was uploaded, and its extension is whitelisted. */
  function Screen(extensions: set<string>, upload: Option<Upload>): (r: Option<UploadOutcome>)
    ensures r == Some(NothingUploaded) <==> upload.None? || upload.value.filename == ""
    ensures r == Some(InvalidType) <==>
      upload.Some? && upload.value.filename != "" && !Allowed(upload.value.filename, extensions)
    ensures r.None? ==> upload.Some? && Allowed(upload.value.filename, extensions)
  {
    if upload.None? || upload.value.filename == "" then Some(NothingUploaded)
    else if !Allowed(upload.value.filename, extensions) then Some(InvalidType)
    else None
  }

  /** The upload handlers as written: the duplicate test looks up the client's name, but the
      file is saved, and the row named, under `secure_filename` of it. Saving under an empty
      name targets the directory itself and raises. */
  function Admit<T>(t: Table<T>, nameOf: T -> string, extensions: set<string>, dir: string,
                    secure: string -> string, upload: Option<Upload>): (a: Admission)
    ensures Screen(extensions, upload).Some? ==> a == Refuse(Screen(extensions, upload).value)
    ensures Screen(extensions, upload).None? ==>
      var name := upload.value.filename;
      && (a == Refuse(AlreadyExists) <==> exists k :: k in t.rows && nameOf(t.rows[k]) == name)
      && (a == Refuse(SaveFailed) <==>
            (forall k :: k in t.rows ==> nameOf(t.rows[k]) != name) && secure(name) == "")
      && (a.Save? ==> a == Save(secure(name), Join(dir, secure(name)), upload.value.size) && secure(name) != "")
  {
    match Screen(extensions, upload)
    case Some(o) => Refuse(o)
    case None =>
      var name := upload.value.filename;
      NameTakenIff(t, nameOf, name);
      if NameTaken(t, nameOf, name) then Refuse(AlreadyExists)
      else
        var safe := secure(name);
        if safe == "" then Refuse(SaveFailed)
        else Save(safe, Join(dir, safe), upload.value.size)
  }

  /** The handlers as intended: the duplicate test looks up the name the row will carry. */
  function AdmitIntended<T>(t: Table<T>, nameOf: T -> string, extensions: set<string>, dir: string,
                            secure: string -> string, upload: Option<Upload>): (a: Admission)
    ensures Screen(extensions, upload).Some? ==> a == Refuse(Screen(extensions, upload).value)
    ensures Screen(extensions, upload).None? ==>
      var safe := secure(upload.value.filename);
      && (a == Refuse(AlreadyExists) <==> exists k :: k in t.rows && nameOf(t.rows[k]) == safe)
      && (a == Refuse(SaveFailed) <==> (forall k :: k in t.rows ==> nameOf(t.rows[k]) != safe) && safe == "")
      && (a.Save? ==> a == Save(safe, Join(dir, safe), upload.value.size) && safe != "")
    ensures a.Save? ==> forall k :: k in t.rows ==> nameOf(t.rows[k]) != a.safeName
  {
    match Screen(extensions, upload)
    case Some(o) => Refuse(o)
    case None =>
      var safe := secure(upload.value.filename);
      NameTakenIff(t, nameOf, safe);
      if NameTaken(t, nameOf, safe) then Refuse(AlreadyExists)
      else if safe == "" then Refuse(SaveFailed)
      else Save(safe, Join(dir, safe), upload.value.size)
  }

  /** `check_file_exists` / `check_model_exists`. */
  datatype ExistsAnswer = NameNotProvided | Answer(found: bool) {
    function Status(): int {
      if NameNotProvided? then 400 else 200
    }
  }

  function CheckExists<T>(t: Table<T>, nameOf: T -> string, name: Option<string>): (r: ExistsAnswer)
    ensures r.NameNotProvided? <==> name.None? || name.value == ""
    ensures r.Answer? ==> (r.found <==> exists k :: k in t.rows && nameOf(t.rows[k]) == name.value)
  {
    if name.None? || name.value == "" then NameNotProvided
    else
      NameTakenIff(t, nameOf, name.value);
      Answer(NameTaken(t, nameOf, name.value))
  }

  // ---------------------------------------------------------------------------------------
  // Listing: `order_by(upload_time.desc()).offset((page - 1) * page_size).limit(page_size)`
  // ---------------------------------------------------------------------------------------

  /** The keys of the table from `from` on, ascending. */
  function KeysFrom<T>(t: Table<T>, from: nat): (r: seq<nat>)
    requires from >= 1
    ensures forall i :: 0 <= i < |r| ==> r[i] in t.rows && from <= r[i]
    ensures forall i, j :: 0 <= i < j < |r| ==> r[i] < r[j]
    ensures forall k :: k in t.rows && from <= k ==> k in r
    decreases t.next - from
  {
    if from >= t.next then []
    else if from in t.rows then [from] + KeysFrom(t, from + 1)
    else KeysFrom(t, from + 1)
  }

  /** A row in the listing order: its key, and the ordinal of its upload time. */
  datatype Item = Item(key: nat, stamp: int)

  /** `a` is listed before `b`: it was uploaded later, or at the same second with a smaller
      key. The database leaves ties in an unspecified order; the key fixes one. */
  predicate Before(a: Item, b: Item) {
    a.stamp > b.stamp || (a.stamp == b.stamp && a.key < b.key)
  }

  predicate NewestFirst(s: seq<Item>) {
    forall i, j :: 0 <= i < j < |s| ==> Before(s[i], s[j])
  }

  predicate DistinctKeys(s: seq<Item>) {
    forall i, j :: 0 <= i < j < |s| ==> s[i].key != s[j].key
  }

  /** An item that precedes every element of a newest-first sequence can go in front. */
  lemma ConsNewestFirst(h: Item, s: seq<Item>)
    requires NewestFirst(s) && forall y :: y in s ==> Before(h, y)
    ensures NewestFirst([h] + s)
  {
    var r := [h] + s;
    forall i, j | 0 <= i < j < |r| ensures Before(r[i], r[j]) {
      if i == 0 {
        assert r[j] == s[j - 1];
      } else {
        assert r[i] == s[i - 1] && r[j] == s[j - 1];
      }
    }
  }

  /** The head of a newest-first sequence precedes the rest of it, and whatever its
      successor follows. */
  lemma HeadPrecedes(x: Item, s: seq<Item>, rest: seq<Item>)
    requires NewestFirst(s) && s != [] && !Before(x, s[0]) && x.key != s[0].key
    requires multiset(rest) == multiset(s[1..]) + multiset{x}
    ensures forall y :: y in rest ==> Before(s[0], y)
  {
    forall y | y in rest ensures Before(s[0], y) {
      assert y in multiset(rest);
      if y != x {
        assert y in s[1..];
        var j :| 0 <= j < |s[1..]| && s[1..][j] == y;
        assert s[j + 1] == y;
      }
    }
  }

  /** Places `x` in front of the first element it precedes. */
  function InsertItem(x: Item, s: seq<Item>): (r: seq<Item>)
    requires NewestFirst(s)
    requires forall y :: y in s ==> y.key != x.key
    ensures NewestFirst(r)
    ensures multiset(r) == multiset(s) + multiset{x}
  {
    if s == [] then [x]
    else if Before(x, s[0]) then
      assert forall y :: y in s ==> Before(x, y) by {
        forall y | y in s ensures Before(x, y) {
          var j :| 0 <= j < |s| && s[j] == y;
          assert j == 0 || Before(s[0], s[j]);
        }
      }
      ConsNewestFirst(x, s);
      [x] + s
    else
      assert s == [s[0]] + s[1..];
      var rest := InsertItem(x, s[1..]);
      HeadPrecedes(x, s, rest);
      ConsNewestFirst(s[0], rest);
      [s[0]] + rest
  }

  /** Insertion sort into the listing order. */
  function SortNewest(s: seq<Item>): (r: seq<Item>)
    requires DistinctKeys(s)
    ensures NewestFirst(r)
    ensures multiset(r) == multiset(s)
  {
    if s == [] then []
    else
      var rest := SortNewest(s[1..]);
      assert s == [s[0]] + s[1..];
      forall y | y in rest ensures y.key != s[0].key {
        assert y in multiset(rest);
        var j :| 0 <= j < |s[1..]| && s[1..][j] == y;
        assert s[j + 1] == y;
      }
      InsertItem(s[0], rest)
  }

  /** The table's rows in key order, each stamped with its upload time's ordinal. */
  function Items<T>(t: Table<T>, stamp: T -> int): (r: seq<Item>)
    ensures DistinctKeys(r)
    ensures forall x :: x in r <==> x.key in t.rows && x.stamp == stamp(t.rows[x.key])
  {
    var keys := KeysFrom(t, 1);
    var r := seq(|keys|, i requires 0 <= i < |keys| => Item(keys[i], stamp(t.rows[keys[i]])));
    forall x: Item | x.key in t.rows && x.stamp == stamp(t.rows[x.key]) ensures x in r {
      var i :| 0 <= i < |keys| && keys[i] == x.key;
      assert r[i] == x;
    }
    r
  }

  /** A sequence without repeats has as many elements as the set of them. */
  lemma {:induction false} DistinctCount(s: seq<Item>)
    requires DistinctKeys(s)
    ensures |set x | x in s| == |s|
  {
    if s != [] {
      DistinctCount(s[1..]);
      assert (set x | x in s) == {s[0]} + (set x | x in s[1..]);
      assert s[0] !in s[1..];
    }
  }

  /** The table's rows, one item per key. */
  lemma ItemsCount<T>(t: Table<T>, stamp: T -> int)
    ensures |Items(t, stamp)| == |t.rows|
  {
    var r := Items(t, stamp);
    DistinctCount(r);
    var keysOf := set x | x in r :: x.key;
    forall k | k in t.rows ensures k in keysOf {
      assert Item(k, stamp(t.rows[k])) in r;
    }
    assert keysOf == t.rows.Keys;
    var xs := set x | x in r;
    KeyImage(xs);
    assert (set x | x in xs :: x.key) == keysOf;
  }

  /** Taking keys is one-to-one on the items of a table. */
  lemma {:induction false} KeyImage(xs: set<Item>)
    requires forall a, b :: a in xs && b in xs && a.key == b.key ==> a == b
    ensures |set x | x in xs :: x.key| == |xs|
    decreases |xs|
  {
    if xs != {} {
      var a :| a in xs;
      var rest := xs - {a};
      KeyImage(rest);
      assert (set x | x in xs :: x.key) == (set x | x in rest :: x.key) + {a.key};
      assert a.key !in (set x | x in rest :: x.key);
    }
  }

  /** The items of one page: at most `size` of them, starting at offset `lo`; the page is
      full unless it reaches the end, and an offset past the end gives none. */
  function PageOf(s: seq<Item>, lo: nat, size: nat): (r: seq<Item>)
    ensures |r| <= size && (|r| == size || lo + |r| >= |s|)
    ensures forall i :: 0 <= i < |r| ==> lo + i < |s| && r[i] == s[lo + i]
  {
    if lo >= |s| then []
    else if lo + size >= |s| then s[lo..]
    else s[lo..lo + size]
  }

  /** `(total + page_size - 1) // page_size`. */
  function TotalPages(total: nat, size: int): (n: int)
    requires size >= 1
  {
    (total + size - 1) / size
  }

  /** Multiplying by a page size keeps order. */
  lemma MulLe(a: int, b: int, size: int)
    requires a <= b && size >= 0
    ensures a * size <= b * size
  {
    assert b * size - a * size == (b - a) * size;
  }

  /** The page count is the ceiling of `total / size`: the fewest pages of `size` that hold
      `total` items. */
  lemma TotalPagesIsCeiling(total: nat, size: int)
    requires size >= 1
    ensures var n := TotalPages(total, size);
      n >= 0 && (n - 1) * size < total <= n * size
  {
    var n := TotalPages(total, size);
    var rem := (total + size - 1) % size;
    assert total + size - 1 == n * size + rem;
    assert (n - 1) * size == n * size - size;
  }

  /** A position splits in one way only into whole pages and a remainder below the size:
      an item shown at position `i` of page `q + 1` is on no other page. */
  lemma DivisionUnique(j: int, size: int, q: int, i: int)
    requires size >= 1 && 0 <= i < size && j == q * size + i
    ensures j / size == q && j % size == i
  {
    var q0, i0 := j / size, j % size;
    assert j == q0 * size + i0;
    if q0 < q {
      MulLe(q0 + 1, q, size);
      assert false;
    } else if q < q0 {
      MulLe(q + 1, q0, size);
      assert false;
    }
  }

  /** The largest LIMIT or OFFSET MySQL accepts: both are unsigned 64-bit integers. */
  const MaxLimit: nat := 0xFFFF_FFFF_FFFF_FFFF

  /** `(page - 1) * page_size`: how many items the pages before `page` hold. */
  function Offset(page: int, size: int): (lo: nat)
    requires page >= 1 && size >= 1
  {
    MulLe(0, page - 1, size);
    (page - 1) * size
  }

  /** The OFFSET and the LIMIT of the page's query are both ones MySQL accepts. */
  predicate Fetchable(page: int, size: int)
    requires page >= 1 && size >= 1
  {
    Offset(page, size) <= MaxLimit && size <= MaxLimit
  }

  /** Every item is on page `j / size + 1`, at position `j % size`, within the page count. */
  lemma EveryItemOnItsPage(s: seq<Item>, size: int, j: nat) returns (p: int)
    requires size >= 1 && j < |s|
    ensures p == j / size + 1 && 1 <= p <= TotalPages(|s|, size)
    ensures var page := PageOf(s, Offset(p, size), size);
      j % size < |page| && page[j % size] == s[j]
  {
    var q, i := j / size, j % size;
    p := q + 1;
    assert Offset(p, size) + i == j;
    var n := TotalPages(|s|, size);
    TotalPagesIsCeiling(|s|, size);
    if q >= n {
      MulLe(n, q, size);
      assert false;
    }
  }

  /** `int(request.args.get(name, default))`: absent, an integer, or text `int` rejects. */
  datatype PageParam = Absent | Given(value: int) | NotAnInteger {
    function Read(default: int): Option<int> {
      match this
      case Absent => Some(default)
      case Given(v) => Some(v)
      case NotAnInteger => None
    }
  }

  /** A page of a newest-first sequence is newest first, and holds only its items. */
  lemma PageInOrder(s: seq<Item>, lo: nat, size: nat)
    requires NewestFirst(s)
    ensures NewestFirst(PageOf(s, lo, size))
    ensures forall x :: x in PageOf(s, lo, size) ==> x in s
  {
    var r := PageOf(s, lo, size);
    forall i, j | 0 <= i < j < |r| ensures Before(r[i], r[j]) {
      assert r[i] == s[lo + i] && r[j] == s[lo + j];
    }
  }

  /** The table's rows in listing order: each row once, newest first. */
  function Listed<T>(t: Table<T>, stamp: T -> int): (r: seq<Item>)
    ensures NewestFirst(r) && |r| == |t.rows|
    ensures forall x :: x in r <==> x.key in t.rows && x.stamp == stamp(t.rows[x.key])
  {
    var items := Items(t, stamp);
    var r := SortNewest(items);
    ItemsCount(t, stamp);
    assert |multiset(r)| == |multiset(items)|;
    forall x ensures x in r <==> x in items {
      assert x in r <==> x in multiset(r);
      assert x in items <==> x in multiset(items);
    }
    r
  }

  /** The head of a newest-first sequence precedes its other items. */
  lemma FirstPrecedes(s: seq<Item>, x: Item)
    requires NewestFirst(s) && x in s
    ensures x == s[0] || Before(s[0], x)
  {
    var i :| 0 <= i < |s| && s[i] == x;
    assert i == 0 || Before(s[0], s[i]);
  }

  /** Two newest-first sequences of the same items are one sequence. */
  lemma {:induction false} NewestFirstUnique(a: seq<Item>, b: seq<Item>)
    requires NewestFirst(a) && NewestFirst(b)
    requires forall x :: x in a <==> x in b
    ensures a == b
    decreases |a|
  {
    if b != [] {
      assert b[0] in a;
    }
    if a != [] {
      assert a[0] in b && b != [] && b[0] in a;
      FirstPrecedes(a, b[0]);
      FirstPrecedes(b, a[0]);
      assert a[0] == b[0];
      forall x ensures x in a[1..] <==> x in b[1..] {
        if x in a[1..] {
          var k :| 0 <= k < |a[1..]| && a[1..][k] == x;
          assert Before(a[0], a[k + 1]);
          assert x in b;
          var m :| 0 <= m < |b| && b[m] == x;
          assert m != 0;
          assert b[1..][m - 1] == x;
        }
        if x in b[1..] {
          var k :| 0 <= k < |b[1..]| && b[1..][k] == x;
          assert Before(b[0], b[k + 1]);
          assert x in a;
          var m :| 0 <= m < |a| && a[m] == x;
          assert m != 0;
          assert a[1..][m - 1] == x;
        }
      }
      NewestFirstUnique(a[1..], b[1..]);
      assert a == [a[0]] + a[1..] && b == [b[0]] + b[1..];
    }
  }

  /** The listing order is the only newest-first arrangement of the rows. */
  lemma ListedIsTheOrder<T>(t: Table<T>, stamp: T -> int, s: seq<Item>)
    requires NewestFirst(s)
    requires forall x :: x in s <==> x.key in t.rows && x.stamp == stamp(t.rows[x.key])
    ensures s == Listed(t, stamp)
  {
    NewestFirstUnique(s, Listed(t, stamp));
  }

  /** In a newest-first sequence of rows, two positions holding the same key are the same
      position. */
  lemma ListedKeysDistinct<T>(t: Table<T>, stamp: T -> int, j1: nat, j2: nat)
    ensures var s := Listed(t, stamp);
      (j1 < |s| && j2 < |s| && j1 != j2) ==> s[j1].key != s[j2].key
  {
    var s := Listed(t, stamp);
    if j1 < |s| && j2 < |s| {
      assert s[j1] in s && s[j2] in s;
      if j1 < j2 {
        assert Before(s[j1], s[j2]);
      } else if j2 < j1 {
        assert Before(s[j2], s[j1]);
      }
    }
  }

  /** The items of one page of the table's rows: the window of the listing order that starts
      after the items of the earlier pages, full unless it reaches the end. */
  function SortedPage<T>(t: Table<T>, stamp: T -> int, page: int, size: int): (r: seq<Item>)
    requires page >= 1 && size >= 1
    ensures var s, lo := Listed(t, stamp), Offset(page, size);
      && |r| <= size && (|r| == size || lo + |r| >= |s|)
      && forall i :: 0 <= i < |r| ==> lo + i < |s| && r[i] == s[lo + i]
    ensures NewestFirst(r)
    ensures forall x :: x in r ==> x.key in t.rows && x.stamp == stamp(t.rows[x.key])
  {
    var sorted := Listed(t, stamp);
    var shown := PageOf(sorted, Offset(page, size), size);
    PageInOrder(sorted, Offset(page, size), size);
    shown
  }

  /** The keys on one page of the listing: the keys of that window of the listing order. */
  function PageKeys<T>(t: Table<T>, stamp: T -> int, page: int, size: int): (r: seq<nat>)
    requires page >= 1 && size >= 1
    ensures var s, lo := Listed(t, stamp), Offset(page, size);
      && |r| <= size && (|r| == size || lo + |r| >= |s|)
      && forall i :: 0 <= i < |r| ==> lo + i < |s| && r[i] == s[lo + i].key
    ensures forall i :: 0 <= i < |r| ==> r[i] in t.rows
    ensures forall i, j :: 0 <= i < j < |r| ==> stamp(t.rows[r[i]]) >= stamp(t.rows[r[j]]) && r[i] != r[j]
  {
    var shown := SortedPage(t, stamp, page, size);
    var r := KeysOf(shown);
    forall i, j | 0 <= i < j < |r| ensures stamp(t.rows[r[i]]) >= stamp(t.rows[r[j]]) && r[i] != r[j] {
      assert shown[i] in shown && shown[j] in shown;
      assert Before(shown[i], shown[j]);
      ListedKeysDistinct(t, stamp, Offset(page, size) + i, Offset(page, size) + j);
    }
    r
  }

  function KeysOf(s: seq<Item>): (r: seq<nat>)
    ensures |r| == |s| && forall i :: 0 <= i < |s| ==> r[i] == s[i].key
  {
    if s == [] then [] else [s[0].key] + KeysOf(s[1..])
  }

  /** The listing's answer: the keys of one page, newest first, and the counters. */
  datatype Listing = Listing(keys: seq<nat>, total: nat, totalPages: int, currentPage: int) | ListingFailed

  /** `get_files` / `get_models`, which answer 500 when a parameter is not an integer, when
      `page_size` is below 1 (a negative LIMIT, or a division by zero), when `page` is below 1
      (a negative OFFSET), or when the LIMIT or the OFFSET is above what MySQL accepts. A page
      shows the keys at positions `(page - 1) * size` onwards of the listing order, as many
      as fit. */
  function List<T>(t: Table<T>, stamp: T -> int, page: PageParam, size: PageParam): (r: Listing)
    ensures r.ListingFailed? <==>
      || page.Read(1).None? || size.Read(5).None? || page.Read(1).value < 1 || size.Read(5).value < 1
      || !Fetchable(page.Read(1).value, size.Read(5).value)
    ensures r.Listing? ==>
      && r.currentPage == page.Read(1).value
      && r.total == |t.rows|
      && r.totalPages == TotalPages(r.total, size.Read(5).value)
      && |r.keys| <= size.Read(5).value
      && (forall i :: 0 <= i < |r.keys| ==> r.keys[i] in t.rows)
      && (forall i, j :: 0 <= i < j < |r.keys| ==> stamp(t.rows[r.keys[i]]) >= stamp(t.rows[r.keys[j]]) && r.keys[i] != r.keys[j])
    ensures r.Listing? ==>
      var s, lo, n := Listed(t, stamp), Offset(r.currentPage, size.Read(5).value), size.Read(5).value;
      && (|r.keys| == n || lo + |r.keys| >= |s|)
      && forall i :: 0 <= i < |r.keys| ==> lo + i < |s| && r.keys[i] == s[lo + i].key
  {
    if page.Read(1).None? || size.Read(5).None? || page.Read(1).value < 1 || size.Read(5).value < 1 then ListingFailed
    else
      var p, n := page.Read(1).value, size.Read(5).value;
      if !Fetchable(p, n) then ListingFailed
      else ShowPage(t, stamp, p, n)
  }

  /** The answer for a page the database can fetch. */
  function ShowPage<T>(t: Table<T>, stamp: T -> int, p: int, n: int): (r: Listing)
    requires p >= 1 && n >= 1
    ensures r.Listing? && r.currentPage == p && r.total == |t.rows| && r.totalPages == TotalPages(|t.rows|, n)
    ensures r.Listing? ==> r.keys == PageKeys(t, stamp, p, n)
  {
    TotalPagesIsCeiling(|t.rows|, n);
    Listing(PageKeys(t, stamp, p, n), |t.rows|, TotalPages(|t.rows|, n), p)
  }

  /** An OFFSET or a LIMIT past 2^64 - 1 makes the query fail, so the request answers 500. */
  lemma OversizedRequestsFail<T>(t: Table<T>, stamp: T -> int)
    ensures List(t, stamp, Given(MaxLimit + 2), Given(5)).ListingFailed?
    ensures List(t, stamp, Given(1), Given(MaxLimit + 1)).ListingFailed?
    ensures List(t, stamp, Given(1), Given(MaxLimit)).Listing?
  {
    assert Offset(MaxLimit + 2, 5) == (MaxLimit + 1) * 5;
    assert Offset(1, MaxLimit) == 0;
  }

  /** No row is listed on two pages: a key on page `p1` and on page `p2` sits at the same
      position of the listing order, and a position lies on one page only. */
  lemma KeyOnOnePage<T>(t: Table<T>, stamp: T -> int, size: int, p1: int, p2: int, k: nat)
    requires size >= 1 && p1 >= 1 && p2 >= 1
    ensures var l1, l2 := List(t, stamp, Given(p1), Given(size)), List(t, stamp, Given(p2), Given(size));
      (l1.Listing? && l2.Listing? && k in l1.keys && k in l2.keys) ==> p1 == p2
  {
    var l1, l2 := List(t, stamp, Given(p1), Given(size)), List(t, stamp, Given(p2), Given(size));
    if l1.Listing? && l2.Listing? && k in l1.keys && k in l2.keys {
      assert Fetchable(p1, size) && Fetchable(p2, size);
      FetchedPage(t, stamp, p1, size);
      FetchedPage(t, stamp, p2, size);
      var i1 := KeyPosition(t, stamp, size, p1, k);
      var i2 := KeyPosition(t, stamp, size, p2, k);
      PositionOnOnePage(t, stamp, size, p1, p2, i1, i2);
    }
  }

  /** Where a key of page `p` sits: place `i` of the page, which is position
      `(p - 1) * size + i` of the listing order. */
  lemma KeyPosition<T>(t: Table<T>, stamp: T -> int, size: int, p: int, k: nat) returns (i: nat)
    requires size >= 1 && p >= 1
    ensures i < size
    ensures var keys, s := PageKeys(t, stamp, p, size), Listed(t, stamp);
      k in keys ==> Offset(p, size) + i < |s| && s[Offset(p, size) + i].key == k
  {
    var keys := PageKeys(t, stamp, p, size);
    i := if k in keys then KeyIndex(keys, k) else 0;
    WindowPlace(t, stamp, size, p, i);
  }

  /** The first place of `k` in `keys`. */
  function KeyIndex(keys: seq<nat>, k: nat): (i: nat)
    requires k in keys
    ensures i < |keys| && keys[i] == k
  {
    if keys[0] == k then 0 else 1 + KeyIndex(keys[1..], k)
  }

  /** Place `i` of page `p` is position `(p - 1) * size + i` of the listing order. */
  lemma WindowPlace<T>(t: Table<T>, stamp: T -> int, size: int, p: int, i: nat)
    requires size >= 1 && p >= 1
    ensures var keys, s, lo := PageKeys(t, stamp, p, size), Listed(t, stamp), Offset(p, size);
      i < |keys| ==> i < size && lo + i < |s| && s[lo + i].key == keys[i]
  {
  }

  /** Place `i1` of page `p1` and place `i2` of page `p2` hold the same row only when they
      are one place. */
  lemma PositionOnOnePage<T>(t: Table<T>, stamp: T -> int, size: int, p1: int, p2: int, i1: nat, i2: nat)
    requires size >= 1 && p1 >= 1 && p2 >= 1 && i1 < size && i2 < size
    ensures var s, j1, j2 := Listed(t, stamp), Offset(p1, size) + i1, Offset(p2, size) + i2;
      (j1 < |s| && j2 < |s| && s[j1].key == s[j2].key) ==> p1 == p2 && i1 == i2
  {
    var s, j1, j2 := Listed(t, stamp), Offset(p1, size) + i1, Offset(p2, size) + i2;
    if j1 < |s| && j2 < |s| {
      ListedKeysDistinct(t, stamp, j1, j2);
      SamePlace(size, p1, p2, i1, i2);
    }
  }

  /** A place on a page is one position of the listing, and the other way round. */
  lemma SamePlace(size: int, p1: int, p2: int, i1: nat, i2: nat)
    requires size >= 1 && p1 >= 1 && p2 >= 1
    requires i1 < size && i2 < size
    ensures Offset(p1, size) + i1 == Offset(p2, size) + i2 ==> p1 == p2 && i1 == i2
  {
    var j := Offset(p1, size) + i1;
    if j == Offset(p2, size) + i2 {
      DivisionUnique(j, size, p1 - 1, i1);
      DivisionUnique(j, size, p2 - 1, i2);
    }
  }

  /** Each row's item is on a page between 1 and the page count. */
  lemma RowOnSomePage<T>(t: Table<T>, stamp: T -> int, size: int, k: nat) returns (p: int)
    requires size >= 1 && k in t.rows
    ensures 1 <= p <= TotalPages(|t.rows|, size)
    ensures Item(k, stamp(t.rows[k])) in SortedPage(t, stamp, p, size)
  {
    var sorted := Listed(t, stamp);
    var x := Item(k, stamp(t.rows[k]));
    var j :| 0 <= j < |sorted| && sorted[j] == x;
    p := EveryItemOnItsPage(sorted, size, j);
    var page := PageOf(sorted, Offset(p, size), size);
    assert x in page;
    assert page == SortedPage(t, stamp, p, size);
  }

  /** Paging through the whole listing shows every row: each row is on some page between 1
      and the page count. */
  lemma ListingShowsEveryRow<T>(t: Table<T>, stamp: T -> int, size: int, k: nat)
    requires size >= 1 && k in t.rows
    requires size <= MaxLimit && |t.rows| <= MaxLimit
    ensures var first := List(t, stamp, Given(1), Given(size));
      && first.Listing?
      && exists p :: 1 <= p <= first.totalPages &&
           var l := List(t, stamp, Given(p), Given(size)); l.Listing? && k in l.keys
  {
    var p := RowOnSomePage(t, stamp, size, k);
    PageWithinRows(t, stamp, size, p, k);
    RowListed(t, stamp, size, p, k);
    FirstPageShown(t, stamp, size);
  }

  /** With a LIMIT MySQL accepts, the first page is shown and announces the ceiling count. */
  lemma FirstPageShown<T>(t: Table<T>, stamp: T -> int, size: int)
    requires 1 <= size <= MaxLimit
    ensures var first := List(t, stamp, Given(1), Given(size));
      first.Listing? && first.totalPages == TotalPages(|t.rows|, size)
  {
    assert Offset(1, size) == 0;
  }

  /** A page that holds a row starts before the end of the table. */
  lemma PageWithinRows<T>(t: Table<T>, stamp: T -> int, size: int, p: int, k: nat)
    requires size >= 1 && p >= 1 && k in t.rows
    ensures Item(k, stamp(t.rows[k])) in SortedPage(t, stamp, p, size) ==> Offset(p, size) < |t.rows|
  {
    var shown := SortedPage(t, stamp, p, size);
    if Item(k, stamp(t.rows[k])) in shown {
      var i :| 0 <= i < |shown| && shown[i] == Item(k, stamp(t.rows[k]));
      assert Offset(p, size) + i < |Listed(t, stamp)|;
    }
  }

  /** A row whose item is on a page is listed there by key. */
  lemma RowListed<T>(t: Table<T>, stamp: T -> int, size: int, p: int, k: nat)
    requires size >= 1 && p >= 1 && k in t.rows
    requires Offset(p, size) < |t.rows| <= MaxLimit && size <= MaxLimit
    requires Item(k, stamp(t.rows[k])) in SortedPage(t, stamp, p, size)
    ensures var l := List(t, stamp, Given(p), Given(size)); l.Listing? && k in l.keys
  {
    FetchableBelowRows(p, size, |t.rows|);
    FetchedPage(t, stamp, p, size);
    KeyListed(SortedPage(t, stamp, p, size), Item(k, stamp(t.rows[k])));
  }

  lemma FetchableBelowRows(p: int, size: int, n: nat)
    requires size >= 1 && p >= 1
    requires Offset(p, size) < n <= MaxLimit && size <= MaxLimit
    ensures Fetchable(p, size)
  {
  }

  /** A page the database can fetch is listed with the keys of its window. */
  lemma FetchedPage<T>(t: Table<T>, stamp: T -> int, p: int, size: int)
    requires size >= 1 && p >= 1 && Fetchable(p, size)
    ensures var l := List(t, stamp, Given(p), Given(size));
      l.Listing? && l.keys == PageKeys(t, stamp, p, size) == KeysOf(SortedPage(t, stamp, p, size))
  {
    assert List(t, stamp, Given(p), Given(size)) == ShowPage(t, stamp, p, size);
  }

  lemma KeyListed(s: seq<Item>, x: Item)
    requires x in s
    ensures x.key in KeysOf(s)
  {
    var i :| 0 <= i < |s| && s[i] == x;
    assert KeysOf(s)[i] == x.key;
  }
}

=== FILE: clock.dfy ===
/** Timestamps as the back end stores, compares and prints them. */
module Clock {
  import opened Common

  /** A `datetime` to the second; the MySQL DATETIME columns of the schema keep no fraction. */
  datatype DateTime = DateTime(year: int, month: int, day: int, hour: int, minute: int, second: int)

  predicate LeapYear(y: int) {
    y % 4 == 0 && (y % 100 != 0 || y % 400 == 0)
  }

  function DaysInMonth(y: int, m: int): int
    requires 1 <= m <= 12
  {
    if m == 2 then (if LeapYear(y) then 29 else 28)
    else if m == 4 || m == 6 || m == 9 || m == 11 then 30
    else 31
  }

  /** The values Python's `datetime` admits (proleptic Gregorian calendar, years 1 to 9999). */
  predicate Valid(t: DateTime) {
    && 1 <= t.year <= 9999
    && 1 <= t.month <= 12
    && 1 <= t.day <= DaysInMonth(t.year, t.month)
    && 0 <= t.hour < 24
    && 0 <= t.minute < 60
    && 0 <= t.second < 60
  }

  /** A timestamp Python can hold; every timestamp the back end stores or reads is one. */
  type Time = t: DateTime | Valid(t) witness DateTime(1970, 1, 1, 0, 0, 0)

  predicate IsDigit(c: char) {
    '0' <= c <= '9'
  }

  function Digit(n: int): (c: char)
    requires 0 <= n < 10
    ensures IsDigit(c)
  {
    ('0' as int + n) as char
  }

  function DigitValue(c: char): int {
    c as int - '0' as int
  }

  /** Two decimal digits with a leading zero, as `%m`, `%d`, `%H`, `%M`, `%S` print. */
  function Pad2(n: int): (r: string)
    requires 0 <= n < 100
    ensures |r| == 2 && IsDigit(r[0]) && IsDigit(r[1])
  {
    [Digit(n / 10), Digit(n % 10)]
  }

  /** Four decimal digits with leading zeros, as `%Y` prints. */
  function Pad4(n: int): (r: string)
    requires 0 <= n < 10000
    ensures |r| == 4 && forall i :: 0 <= i < 4 ==> IsDigit(r[i])
  {
    Pad2(n / 100) + Pad2(n % 100)
  }

  /** `strftime('%Y%m%d%H%M%S')`, the stamp that ends a report name. */
  function CompactStamp(t: DateTime): (r: string)
    requires Valid(t)
    ensures |r| == 14 && forall i :: 0 <= i < 14 ==> IsDigit(r[i])
  {
    Pad4(t.year) + Pad2(t.month) + Pad2(t.day) + Pad2(t.hour) + Pad2(t.minute) + Pad2(t.second)
  }

  /** `strftime("%Y-%m-%d %H:%M:%S")`, the diagnosis time printed in a report. */
  function DisplayStamp(t: DateTime): (r: string)
    requires Valid(t)
    ensures |r| == 19
    ensures r[4] == '-' && r[7] == '-' && r[10] == ' ' && r[13] == ':' && r[16] == ':'
  {
    Pad4(t.year) + "-" + Pad2(t.month) + "-" + Pad2(t.day) + " "
    + Pad2(t.hour) + ":" + Pad2(t.minute) + ":" + Pad2(t.second)
  }

  /** The value of a run of decimal digits. */
  function Number(s: string): int {
    if s == [] then 0 else Number(s[..|s| - 1]) * 10 + DigitValue(s[|s| - 1])
  }

  predicate AllDigits(s: string) {
    forall i :: 0 <= i < |s| ==> IsDigit(s[i])
  }

  /** Reads back a compact stamp: fourteen digits split as year, month, day, hour, minute, second. */
  function ParseCompact(s: string): Option<DateTime> {
    if |s| == 14 && AllDigits(s) then
      Some(DateTime(Number(s[0..4]), Number(s[4..6]), Number(s[6..8]),
                    Number(s[8..10]), Number(s[10..12]), Number(s[12..14])))
    else None
  }

  /** Reads back a display stamp, fields at the offsets `DisplayStamp` prints them. */
  function ParseDisplay(s: string): Option<DateTime> {
    if |s| == 19 && s[4] == '-' && s[7] == '-' && s[10] == ' ' && s[13] == ':' && s[16] == ':' then
      Some(DateTime(Number(s[0..4]), Number(s[5..7]), Number(s[8..10]),
                    Number(s[11..13]), Number(s[14..16]), Number(s[17..19])))
    else None
  }

  lemma {:induction false} Pad2Number(n: int)
    requires 0 <= n < 100
    ensures Number(Pad2(n)) == n
  {
    var p := Pad2(n);
    assert p[..1] == [Digit(n / 10)];
    assert Number(p[..1][..0]) == 0 by { assert p[..1][..0] == []; }
  }

  lemma {:induction false} Pad4Number(n: int)
    requires 0 <= n < 10000
    ensures Number(Pad4(n)) == n
  {
    var hi, lo := Pad2(n / 100), Pad2(n % 100);
    var p := hi + lo;
    Pad2Number(n / 100);
    Pad2Number(n % 100);
    assert p[..3] == hi + [lo[0]];
    assert p[..3][..2] == hi;
    assert Number(p[..3]) == Number(hi) * 10 + DigitValue(lo[0]);
    assert lo[..1] == [lo[0]] && lo[..1][..0] == [];
    assert Number(lo) == DigitValue(lo[0]) * 10 + DigitValue(lo[1]);
  }

  /** Printing a valid time as a compact stamp and reading it back gives the same time. */
  lemma {:induction false} CompactStampRoundTrip(t: DateTime)
    requires Valid(t)
    ensures ParseCompact(CompactStamp(t)) == Some(t)
  {
    var s := CompactStamp(t);
    var a := Pad4(t.year) + Pad2(t.month) + Pad2(t.day) + Pad2(t.hour) + Pad2(t.minute);
    assert s == a + Pad2(t.second) && |a| == 12;
    assert s[0..4] == Pad4(t.year);
    assert s[4..6] == Pad2(t.month);
    assert s[6..8] == Pad2(t.day);
    assert s[8..10] == Pad2(t.hour);
    assert s[10..12] == Pad2(t.minute);
    assert s[12..] == Pad2(t.second);
    assert s[12..14] == s[12..];
    Pad4Number(t.year);
    Pad2Number(t.month);
    Pad2Number(t.day);
    Pad2Number(t.hour);
    Pad2Number(t.minute);
    Pad2Number(t.second);
  }

  /** Printing a valid time as a display stamp and reading it back gives the same time. */
  lemma {:induction false} DisplayStampRoundTrip(t: DateTime)
    requires Valid(t)
    ensures ParseDisplay(DisplayStamp(t)) == Some(t)
  {
    var s := DisplayStamp(t);
    assert s[0..4] == Pad4(t.year);
    assert s[5..7] == Pad2(t.month);
    assert s[8..10] == Pad2(t.day);
    assert s[11..13] == Pad2(t.hour);
    assert s[14..16] == Pad2(t.minute);
    assert s[17..19] == Pad2(t.second);
    Pad4Number(t.year);
    Pad2Number(t.month);
    Pad2Number(t.day);
    Pad2Number(t.hour);
    Pad2Number(t.minute);
    Pad2Number(t.second);
  }

  /** Two valid times one second or more apart never share a compact stamp. */
  lemma CompactStampInjective(a: DateTime, b: DateTime)
    requires Valid(a) && Valid(b)
    ensures CompactStamp(a) == CompactStamp(b) <==> a == b
  {
    CompactStampRoundTrip(a);
    CompactStampRoundTrip(b);
  }

  /** Seconds since a fixed origin, up to gaps for short months: the chronological order of
      valid times, which is how MySQL orders a DATETIME column. */
  function Ordinal(t: DateTime): int {
    ((((t.year * 12 + (t.month - 1)) * 31 + (t.day - 1)) * 24 + t.hour) * 60 + t.minute) * 60 + t.second
  }
}

=== FILE: common.dfy ===
/** Small failure-compatible wrapper shared by every module of the model. */
module Common {

  /** A value that may be absent: a SQL NULL, a missing JSON key, a lookup miss. */
  datatype Option<+T> = None | Some(value: T) {

    /** The wrapped value, or `default` when there is none (Python's `x if x else d`). */
    function GetOr(default: T): T {
      match this
      case Some(v) => v
      case None => default
    }
  }
}

=== FILE: diagnosis.dfy ===
/** `diagnose`: the request that runs the evaluator on a stored data file and a stored model,
    records its result, links a report to it and renders that report. */
module Diagnosis {
  import opened Common
  import opened Text
  import opened Clock
  import opened Schema
  import opened ResultLine
  import opened ReportDocument
  import Evaluation

  /** The directories `diagnose` looks for uploads in; the names stored in the rows are joined to them. */
  const ServerUploadsDir: string := "/root/My_Project/backend/uploads"
  const ServerModelsDir: string := "/root/My_Project/backend/models"

  /** The body of the request: a JSON object with the two ids (absent keys are None), or
      anything else, on which `data.get` raises. */
  datatype Request = NotAnObject | Body(fileId: Option<int>, modelId: Option<int>)

  /** Python truthiness of an id: absent (None) and 0 are both false. */
  predicate Given(id: Option<int>) {
    id.Some? && id.value != 0
  }

  /** `Query.get(id)`: the key of the row, if one has that primary key. */
  function Lookup<T>(t: Table<T>, id: int): (r: Option<nat>)
    ensures r.Some? <==> id >= 0 && id as nat in t.rows
    ensures r.Some? ==> r.value == id
  {
    if id >= 0 && id as nat in t.rows then Some(id as nat) else None
  }

  /** How the request ends. */
  datatype Outcome =
    | NotJson                      // 500: the body is not a JSON object
    | IdsRequired                  // 400
    | FileNotInDatabase            // 404
    | ModelNotInDatabase           // 404
    | FileNotOnServer(path: string)  // 404
    | ModelNotOnServer(path: string) // 404
    | ScriptError                  // 500: CalledProcessError from `check=True`
    | ResultNotFound               // 500: the pattern does not match the output
    | ResultNotJson                // 500: the captured text does not decode
    | RenderError                  // 500: writing the PDF raised, after every commit
    | Diagnosed(result: map<string, string>, tsneUrl: string, cmUrl: string)  // 200
  {
    function Status(): int {
      match this
      case NotJson => 500
      case IdsRequired => 400
      case FileNotInDatabase => 404
      case ModelNotInDatabase => 404
      case FileNotOnServer(_) => 404
      case ModelNotOnServer(_) => 404
      case ScriptError => 500
      case ResultNotFound => 500
      case ResultNotJson => 500
      case RenderError => 500
      case Diagnosed(_, _, _) => 200
    }

    /** The exits taken before the evaluator runs. */
    predicate BeforeEvaluation() {
      NotJson? || IdsRequired? || FileNotInDatabase? || ModelNotInDatabase? ||
      FileNotOnServer? || ModelNotOnServer?
    }

    /** The exits taken after the evaluator ran but before anything is committed. */
    predicate BeforeCommit() {
      ScriptError? || ResultNotFound? || ResultNotJson?
    }
  }

  /** The evaluator process, the JSON decoder, the two clocks, and whether `pdf.output`
      manages to write a given document. */
  datatype Env = Env(
    evaluate: (string, string) -> Evaluation.EvalOutcome,
    decode: Decoder,
    dbNow: Time,
    utcNow: Time,
    pdfWrites: PdfDocument -> bool)

  /** The end state of the request. */
  datatype Response = Response(outcome: Outcome, store: Store, disk: set<string>)

  /** What the request persists once the output decoded: the record, then the report, then
      the link from the record to the report, each in its own commit. Returns the new store
      and the two new keys. */
  function Persist(st: Store, fileKey: nat, modelKey: nat, result: string, name: string, now: Time)
    : (r: (Store, nat, nat))
    ensures var (st', rk, pk) := r;
      && rk !in st.records.rows && pk !in st.reports.rows
      && st'.records.rows == st.records.rows[rk := Record(Some(fileKey), modelKey, result,
           Evaluation.TsneImagePath, Evaluation.ConfusionMatrixImagePath, now, Some(pk))]
      && st'.reports.rows == st.reports.rows[pk := ReportRow(name, "PDF", ReportPath(name), now)]
      && st'.users == st.users && st'.files == st.files && st'.models == st.models
  {
    var record := Record(Some(fileKey), modelKey, result, Evaluation.TsneImagePath,
                         Evaluation.ConfusionMatrixImagePath, now, None);
    var (records1, rk) := Insert(st.records, record);
    var (reports1, pk) := Insert(st.reports, ReportRow(name, "PDF", ReportPath(name), now));
    var records2 := Update(records1, rk, record.(reportId := Some(pk)));
    (st.(records := records2, reports := reports1), rk, pk)
  }

  /** Where the checks before the evaluator leave the request: refused with an outcome, or
      cleared with the two row keys and the two paths handed to the evaluator. */
  datatype Checked =
    | Refused(outcome: Outcome)
    | Cleared(fileKey: nat, modelKey: nat, filePath: string, modelPath: string)

  /** A request whose two ids name rows of the database. */
  predicate RowsFound(req: Request, st: Store) {
    && req.Body? && Given(req.fileId) && Given(req.modelId)
    && Lookup(st.files, req.fileId.value).Some?
    && Lookup(st.models, req.modelId.value).Some?
  }

  /** Where the server expects the named data file and model. */
  function UploadPathOf(req: Request, st: Store): string
    requires RowsFound(req, st)
  {
    Join(ServerUploadsDir, st.files.rows[req.fileId.value as nat].name)
  }

  function ModelPathOf(req: Request, st: Store): string
    requires RowsFound(req, st)
  {
    Join(ServerModelsDir, st.models.rows[req.modelId.value as nat].name)
  }

  /** The facts of a request that gets past the checks. */
  predicate Validated(req: Request, st: Store, disk: set<string>) {
    RowsFound(req, st) && UploadPathOf(req, st) in disk && ModelPathOf(req, st) in disk
  }

  /** The checks, in the order the handler runs them: the body, both ids, the file row, the
      model row, the file on disk, the model on disk. */
  function Check(req: Request, st: Store, disk: set<string>): (c: Checked)
    ensures c.Refused? ==> c.outcome.BeforeEvaluation()
    ensures c.Cleared? <==> Validated(req, st, disk)
    ensures c.Cleared? ==>
      && c.fileKey == req.fileId.value && c.modelKey == req.modelId.value
      && c.fileKey in st.files.rows && c.modelKey in st.models.rows
      && c.filePath == Join(ServerUploadsDir, st.files.rows[c.fileKey].name)
      && c.modelPath == Join(ServerModelsDir, st.models.rows[c.modelKey].name)
  {
    match req
    case NotAnObject => Refused(NotJson)
    case Body(fileId, modelId) =>
      if !Given(fileId) || !Given(modelId) then Refused(IdsRequired)
      else
        var fileKey := Lookup(st.files, fileId.value);
        var modelKey := Lookup(st.models, modelId.value);
        if fileKey.None? then Refused(FileNotInDatabase)
        else if modelKey.None? then Refused(ModelNotInDatabase)
        else
          var filePath := Join(ServerUploadsDir, st.files.rows[fileKey.value].name);
          var modelPath := Join(ServerModelsDir, st.models.rows[modelKey.value].name);
          if filePath !in disk then Refused(FileNotOnServer(filePath))
          else if modelPath !in disk then Refused(ModelNotOnServer(modelPath))
          else Cleared(fileKey.value, modelKey.value, filePath, modelPath)
  }

  /** The name the report of a cleared request gets. */
  function NameFor(st: Store, fileKey: nat, modelKey: nat, utc: Time): string
    requires fileKey in st.files.rows && modelKey in st.models.rows
  {
    ReportName(st.models.rows[modelKey].name, st.files.rows[fileKey].name, utc)
  }

  /** Everything after the evaluator returned `run`: the exit check and the extraction of
      the result line; what follows is `Interpret`. */
  function Conclude(env: Env, st: Store, disk: set<string>, fileKey: nat, modelKey: nat,
                    run: Evaluation.EvalOutcome): (r: Response)
    requires fileKey in st.files.rows && modelKey in st.models.rows
    ensures !r.outcome.BeforeEvaluation() && r.disk >= disk + run.wrote
    ensures r.outcome.BeforeCommit() ==> r.store == st && r.disk == disk + run.wrote
    ensures r.outcome.Diagnosed? ==> r.disk == disk + run.wrote + {ReportPath(NameFor(st, fileKey, modelKey, env.utcNow))}
    ensures r.outcome.RenderError? ==> r.disk == disk + run.wrote
    ensures r.store.users == st.users && r.store.files == st.files && r.store.models == st.models
  {
    var disk1 := disk + run.wrote;
    if run.exitCode != 0 then Response(ScriptError, st, disk1)
    else Found(env, st, disk1, fileKey, modelKey, Extract(run.stdout))
  }

  /** The process exited 0: the captured result text, if there is one, is interpreted. */
  function Found(env: Env, st: Store, disk: set<string>, fileKey: nat, modelKey: nat,
                 text: Option<string>): (r: Response)
    requires fileKey in st.files.rows && modelKey in st.models.rows
    ensures r.outcome.ResultNotFound? <==> text.None?
    ensures r.outcome.ResultNotFound? || r.outcome.ResultNotJson? || r.outcome.Diagnosed? || r.outcome.RenderError?
    ensures r.outcome.BeforeCommit() ==> r.store == st && r.disk == disk
    ensures r.outcome.Diagnosed? ==> r.disk == disk + {ReportPath(NameFor(st, fileKey, modelKey, env.utcNow))}
    ensures r.outcome.RenderError? ==> r.disk == disk
    ensures r.store.users == st.users && r.store.files == st.files && r.store.models == st.models
  {
    if text.None? then Response(ResultNotFound, st, disk)
    else Interpret(env, st, disk, fileKey, modelKey, text.value)
  }

  /** The extracted result text: `json.loads`, then the commits. */
  function Interpret(env: Env, st: Store, disk: set<string>, fileKey: nat, modelKey: nat,
                     text: string): (r: Response)
    requires fileKey in st.files.rows && modelKey in st.models.rows
    ensures r.outcome.ResultNotJson? || r.outcome.Diagnosed? || r.outcome.RenderError?
    ensures r.outcome.ResultNotJson? <==> env.decode(text).None?
    ensures r.outcome.ResultNotJson? ==> r.store == st && r.disk == disk
    ensures r.outcome.Diagnosed? ==> r.disk == disk + {ReportPath(NameFor(st, fileKey, modelKey, env.utcNow))}
    ensures r.outcome.RenderError? ==> r.disk == disk
    ensures r.store.users == st.users && r.store.files == st.files && r.store.models == st.models
  {
    match env.decode(text)
    case None => Response(ResultNotJson, st, disk)
    case Some(data) => Commit(env, st, disk, fileKey, modelKey, text, data)
  }

  /** The decoded path: the three commits, then the rendering of the new record. */
  function Commit(env: Env, st: Store, disk: set<string>, fileKey: nat, modelKey: nat,
                  text: string, data: map<string, string>): (r: Response)
    requires fileKey in st.files.rows && modelKey in st.models.rows
    ensures r.outcome.Diagnosed? || r.outcome.RenderError?
    ensures r.outcome.Diagnosed? ==> r.disk == disk + {ReportPath(NameFor(st, fileKey, modelKey, env.utcNow))}
    ensures r.outcome.Diagnosed? ==>
      (r.outcome.result == data &&
       r.outcome.tsneUrl == "/reports/" + Evaluation.TsneImageName &&
       r.outcome.cmUrl == "/reports/" + Evaluation.ConfusionMatrixImageName)
    ensures r.outcome.RenderError? ==> r.disk == disk
    ensures r.store.users == st.users && r.store.files == st.files && r.store.models == st.models
  {
    ImageUrls();
    var name := NameFor(st, fileKey, modelKey, env.utcNow);
    var (st1, _, _) := Persist(st, fileKey, modelKey, text, name, env.dbNow);
    var doc := Render(name, Some(st.files.rows[fileKey].name), Some(st.models.rows[modelKey].name),
                      text, env.decode, env.dbNow, Evaluation.ConfusionMatrixImagePath, disk);
    if env.pdfWrites(doc) then
      Response(Diagnosed(data, ArtifactUrl(Evaluation.TsneImagePath),
                         ArtifactUrl(Evaluation.ConfusionMatrixImagePath)),
               st1, disk + {ReportPath(name)})
    else Response(RenderError, st1, disk)
  }

  /** The evaluator's outcome picks the exit: a nonzero status is a script error, output
      without the result line is "not found", a result line that does not decode is "not
      JSON", and only a decoded result goes on to the commits. */
  lemma ConcludeOutcome(env: Env, st: Store, disk: set<string>, fileKey: nat, modelKey: nat,
                        run: Evaluation.EvalOutcome)
    requires fileKey in st.files.rows && modelKey in st.models.rows
    ensures var o := Conclude(env, st, disk, fileKey, modelKey, run).outcome;
      && (o.ScriptError? <==> run.exitCode != 0)
      && (o.ResultNotFound? <==> run.exitCode == 0 && Extract(run.stdout).None?)
      && (o.ResultNotJson? <==>
            run.exitCode == 0 && Extract(run.stdout).Some? && env.decode(Extract(run.stdout).value).None?)
      && (o.Diagnosed? || o.RenderError? <==>
            run.exitCode == 0 && Extract(run.stdout).Some? && env.decode(Extract(run.stdout).value).Some?)
  {
  }

  /** The request. `disk` is the set of paths that exist; the evaluator's images and the PDF
      are added to it as they are written. */
  function Diagnose(env: Env, req: Request, st: Store, disk: set<string>): (r: Response)
    ensures r.outcome.BeforeEvaluation() ==> r.store == st && r.disk == disk
    ensures r.outcome.BeforeCommit() ==> r.store == st && disk <= r.disk
    ensures r.outcome.Status() == 400 <==> req.Body? && (!Given(req.fileId) || !Given(req.modelId))
    ensures r.store.users == st.users && r.store.files == st.files && r.store.models == st.models
  {
    match Check(req, st, disk)
    case Refused(o) => Response(o, st, disk)
    case Cleared(fileKey, modelKey, filePath, modelPath) =>
      Conclude(env, st, disk, fileKey, modelKey, env.evaluate(filePath, modelPath))
  }

  /** The checks run in a fixed order, and each one decides its own outcome: the first
      failing check names the response, and the evaluator runs exactly when all pass. */
  lemma CheckOrder(env: Env, req: Request, st: Store, disk: set<string>)
    ensures var o := Diagnose(env, req, st, disk).outcome;
      && (o.NotJson? <==> req.NotAnObject?)
      && (o.IdsRequired? <==> req.Body? && (!Given(req.fileId) || !Given(req.modelId)))
      && (o.FileNotInDatabase? <==>
            (req.Body? && Given(req.fileId) && Given(req.modelId) && Lookup(st.files, req.fileId.value).None?))
      && (o.ModelNotInDatabase? <==>
            (req.Body? && Given(req.fileId) && Given(req.modelId) &&
             Lookup(st.files, req.fileId.value).Some? && Lookup(st.models, req.modelId.value).None?))
      && (o.FileNotOnServer? <==> RowsFound(req, st) && UploadPathOf(req, st) !in disk)
      && (o.ModelNotOnServer? <==>
            RowsFound(req, st) && UploadPathOf(req, st) in disk && ModelPathOf(req, st) !in disk)
      && (o.FileNotOnServer? ==> o.path == UploadPathOf(req, st))
      && (o.ModelNotOnServer? ==> o.path == ModelPathOf(req, st))
      && (!o.BeforeEvaluation() <==> Validated(req, st, disk))
      && (o.BeforeEvaluation() ==> o.Status() == if o.NotJson? then 500 else if o.IdsRequired? then 400 else 404)
  {
    var c := Check(req, st, disk);
    if c.Cleared? {
      var r := Conclude(env, st, disk, c.fileKey, c.modelKey, env.evaluate(c.filePath, c.modelPath));
      assert !r.outcome.BeforeEvaluation();
    }
  }

  /** A zero-valued id counts as missing: the request is refused before any lookup. */
  lemma ZeroIdIsMissing(env: Env, fileId: Option<int>, st: Store, disk: set<string>)
    ensures Diagnose(env, Body(fileId, Some(0)), st, disk) == Response(IdsRequired, st, disk)
    ensures Diagnose(env, Body(Some(0), fileId), st, disk) == Response(IdsRequired, st, disk)
  {
  }

  /** What the evaluator does with the two paths of a validated request. */
  function EvaluatorRun(env: Env, req: Request, st: Store, disk: set<string>): Evaluation.EvalOutcome
    requires Validated(req, st, disk)
  {
    env.evaluate(Join(ServerUploadsDir, st.files.rows[req.fileId.value as nat].name),
                 Join(ServerModelsDir, st.models.rows[req.modelId.value as nat].name))
  }

  /** A validated request is the evaluator's run followed by the rest of the handler. */
  lemma ValidatedRuns(env: Env, req: Request, st: Store, disk: set<string>)
    requires Validated(req, st, disk)
    ensures Diagnose(env, req, st, disk) ==
      Conclude(env, st, disk, req.fileId.value as nat, req.modelId.value as nat, EvaluatorRun(env, req, st, disk))
  {
  }

  /** After validation the evaluator's outcome decides the response: a nonzero exit is a
      script error, output without the result line or with an undecodable one is a 500, and
      none of them adds a row. */
  lemma EvaluatorFailures(env: Env, req: Request, st: Store, disk: set<string>)
    requires Validated(req, st, disk)
    ensures var run := EvaluatorRun(env, req, st, disk);
      var r := Diagnose(env, req, st, disk);
      && (run.exitCode != 0 ==> r == Response(ScriptError, st, disk + run.wrote))
      && (run.exitCode == 0 && Extract(run.stdout).None? ==> r == Response(ResultNotFound, st, disk + run.wrote))
      && (run.exitCode == 0 && Extract(run.stdout).Some? && env.decode(Extract(run.stdout).value).None? ==>
            r == Response(ResultNotJson, st, disk + run.wrote))
  {
    ValidatedRuns(env, req, st, disk);
  }

  /** Once the output decodes, exactly one record and one report are added, linked to each
      other, whether or not the PDF can then be written: a render failure keeps both rows.
      The record holds the captured text verbatim and the two fixed image paths; the report
      is named after model, file and second, shares the record's creation time, and its path
      is the PDF the success path writes. */
  lemma CommittedPair(env: Env, st: Store, disk: set<string>, fileKey: nat, modelKey: nat,
                      run: Evaluation.EvalOutcome)
    requires fileKey in st.files.rows && modelKey in st.models.rows
    requires run.exitCode == 0 && Extract(run.stdout).Some?
    requires env.decode(Extract(run.stdout).value).Some?
    ensures var r := Conclude(env, st, disk, fileKey, modelKey, run);
      var name := NameFor(st, fileKey, modelKey, env.utcNow);
      && (r.outcome.Diagnosed? || r.outcome.RenderError?)
      && (r.outcome.Diagnosed? ==> ReportPath(name) in r.disk)
      && exists rk: nat, pk: nat ::
           && rk !in st.records.rows && pk !in st.reports.rows
           && r.store.records.rows == st.records.rows[rk := Record(Some(fileKey), modelKey,
                Extract(run.stdout).value, Evaluation.TsneImagePath, Evaluation.ConfusionMatrixImagePath,
                env.dbNow, Some(pk))]
           && r.store.reports.rows == st.reports.rows[pk := ReportRow(name, "PDF", ReportPath(name), env.dbNow)]
  {
    var name := NameFor(st, fileKey, modelKey, env.utcNow);
    var (_, rk, pk) := Persist(st, fileKey, modelKey, Extract(run.stdout).value, name, env.dbNow);
  }

  /** Every request keeps the store consistent: the new record's keys resolve, its report is
      fresh and owned by it alone, and the captured text is an object. */
  lemma DiagnosePreservesConsistency(env: Env, req: Request, st: Store, disk: set<string>)
    requires Consistent(st)
    ensures Consistent(Diagnose(env, req, st, disk).store)
  {
    var c := Check(req, st, disk);
    if c.Cleared? {
      var run := env.evaluate(c.filePath, c.modelPath);
      var r := Conclude(env, st, disk, c.fileKey, c.modelKey, run);
      if r.store != st {
        var text := Extract(run.stdout).value;
        var name := NameFor(st, c.fileKey, c.modelKey, env.utcNow);
        PersistPreservesConsistency(st, c.fileKey, c.modelKey, text, name, env.dbNow);
      }
    }
  }

  lemma PersistPreservesConsistency(st: Store, fileKey: nat, modelKey: nat, result: string, name: string, now: Time)
    requires Consistent(st)
    requires fileKey in st.files.rows && modelKey in st.models.rows && ObjectText(result)
    ensures Consistent(Persist(st, fileKey, modelKey, result, name, now).0)
  {
    var (st1, rk, pk) := Persist(st, fileKey, modelKey, result, name, now);
    AddPairPreservesConsistency(st, st1, rk, pk);
  }

  /** A store that gains one record and the one report it links to, with the record's keys
      resolving, stays consistent. */
  lemma AddPairPreservesConsistency(st: Store, st1: Store, rk: nat, pk: nat)
    requires Consistent(st)
    requires rk !in st.records.rows && pk !in st.reports.rows
    requires rk in st1.records.rows && st1.records.rows - {rk} == st.records.rows
    requires pk in st1.reports.rows && st1.reports.rows - {pk} == st.reports.rows
    requires st1.users == st.users && st1.files == st.files && st1.models == st.models
    requires var rec := st1.records.rows[rk];
      && rec.reportId == Some(pk) && rec.modelId in st.models.rows && ObjectText(rec.result)
      && (rec.fileId.Some? ==> rec.fileId.value in st.files.rows)
    ensures Consistent(st1)
  {
    forall k | k in st1.records.rows && k != rk ensures k in st.records.rows && st1.records.rows[k] == st.records.rows[k] {
      assert k in st1.records.rows - {rk};
    }
    forall r | r in st1.reports.rows
      ensures exists k :: OwnedBy(st1.records, r, k)
    {
      if r == pk {
        assert OwnedBy(st1.records, r, rk);
      } else {
        assert r in st1.reports.rows - {pk};
        var k :| OwnedBy(st.records, r, k);
        assert OwnedBy(st1.records, r, k);
      }
    }
    forall k | k in st1.records.rows && st1.records.rows[k].reportId.Some?
      ensures st1.records.rows[k].reportId.value in st1.reports.rows
    {
      if k != rk {
        assert st.records.rows[k].reportId.value in st.reports.rows;
      }
    }
  }

  /** The whole round: when the evaluator is `diagnosis_eval.py` completing with metrics `m`
      and the decoder reads its output back, the response carries exactly those metrics and
      the two image URLs, both images are on disk, and the new record keeps `json.dumps` of
      the metrics. */
  lemma EndToEnd(env: Env, req: Request, st: Store, disk: set<string>, run: Evaluation.Run)
    requires Validated(req, st, disk)
    requires EvaluatorRun(env, req, st, disk) == Evaluation.Main(run)
    requires run.ending.Completed? && run.ending.metrics.OneLine()
    requires Evaluation.QuietProgress(run.printed)
    requires Evaluation.ReadsBack(env.decode, run.ending.metrics)
    ensures var m := run.ending.metrics;
      var r := Diagnose(env, req, st, disk);
      && (r.outcome.Diagnosed? || r.outcome.RenderError?)
      && (r.outcome.Diagnosed? ==> r.outcome == Diagnosed(Evaluation.Decoded(m),
            "/reports/" + Evaluation.TsneImageName, "/reports/" + Evaluation.ConfusionMatrixImageName))
      && Evaluation.TsneImagePath in r.disk && Evaluation.ConfusionMatrixImagePath in r.disk
      && exists rk :: rk in r.store.records.rows && rk !in st.records.rows &&
           r.store.records.rows[rk].result == Evaluation.Dumps(m)
  {
    ValidatedRuns(env, req, st, disk);
    CompletedRun(env, st, disk, req.fileId.value as nat, req.modelId.value as nat, run);
  }

  /** `EndToEnd` once the checks have passed. */
  lemma CompletedRun(env: Env, st: Store, disk: set<string>, fileKey: nat, modelKey: nat, run: Evaluation.Run)
    requires fileKey in st.files.rows && modelKey in st.models.rows
    requires run.ending.Completed? && run.ending.metrics.OneLine()
    requires Evaluation.QuietProgress(run.printed)
    requires Evaluation.ReadsBack(env.decode, run.ending.metrics)
    ensures var m := run.ending.metrics;
      var r := Conclude(env, st, disk, fileKey, modelKey, Evaluation.Main(run));
      && (r.outcome.Diagnosed? || r.outcome.RenderError?)
      && (r.outcome.Diagnosed? ==> r.outcome == Diagnosed(Evaluation.Decoded(m),
            "/reports/" + Evaluation.TsneImageName, "/reports/" + Evaluation.ConfusionMatrixImageName))
      && Evaluation.TsneImagePath in r.disk && Evaluation.ConfusionMatrixImagePath in r.disk
      && exists rk :: rk in r.store.records.rows && rk !in st.records.rows &&
           r.store.records.rows[rk].result == Evaluation.Dumps(m)
  {
    var m := run.ending.metrics;
    var out := Evaluation.Main(run);
    Evaluation.MainOutputContract(run, []);
    assert out.stdout + [] == out.stdout;
    assert Extract(out.stdout) == Some(Evaluation.Dumps(m));
    var r := Conclude(env, st, disk, fileKey, modelKey, out);
    assert r == Interpret(env, st, disk + out.wrote, fileKey, modelKey, Evaluation.Dumps(m));
    assert r == Commit(env, st, disk + out.wrote, fileKey, modelKey, Evaluation.Dumps(m), Evaluation.Decoded(m));
    CommittedPair(env, st, disk, fileKey, modelKey, out);
    var rk: nat, pk: nat :| rk !in st.records.rows &&
      r.store.records.rows == st.records.rows[rk := Record(Some(fileKey), modelKey,
        Evaluation.Dumps(m), Evaluation.TsneImagePath, Evaluation.ConfusionMatrixImagePath,
        env.dbNow, Some(pk))];
    assert rk in r.store.records.rows;
  }

  /** The PDF the success path writes is the rendering of the new record: the two row names
      and each metric of `m`. */
  lemma EndToEndDocument(env: Env, st: Store, disk: set<string>, fileKey: nat, modelKey: nat,
                         m: Evaluation.Metrics)
    requires fileKey in st.files.rows && modelKey in st.models.rows
    requires Evaluation.ReadsBack(env.decode, m)
    ensures var d := Render(NameFor(st, fileKey, modelKey, env.utcNow), Some(st.files.rows[fileKey].name),
                            Some(st.models.rows[modelKey].name), Evaluation.Dumps(m), env.decode,
                            env.dbNow, Evaluation.ConfusionMatrixImagePath, disk);
      && d.lines[2] == "File Name: " + st.files.rows[fileKey].name
      && d.lines[3] == "Model Name: " + st.models.rows[modelKey].name
      && d.lines[5] == "Accuracy: " + m.accuracy.Str()
      && d.lines[9] == "Specificity: " + m.specificity.Str()
  {
    ReportShowsMetrics(NameFor(st, fileKey, modelKey, env.utcNow), Some(st.files.rows[fileKey].name),
                       Some(st.models.rows[modelKey].name), m, Evaluation.Dumps(m), env.decode,
                       env.dbNow, Evaluation.ConfusionMatrixImagePath, disk);
  }

  /** The request is not idempotent: repeating a successful request in the same second adds
      a second record and a second report, and both reports name the same PDF path, so the
      second rendering overwrites the first. */
  lemma RepeatSharesReportPath(env: Env, req: Request, st: Store, disk: set<string>)
    ensures var r1 := Diagnose(env, req, st, disk);
      var r2 := Diagnose(env, req, r1.store, r1.disk);
      r1.outcome.Diagnosed? && r2.outcome.Diagnosed? ==>
        exists p1, p2 :: p1 in r2.store.reports.rows && p2 in r2.store.reports.rows && p1 != p2 &&
          r2.store.reports.rows[p1].path == r2.store.reports.rows[p2].path
  {
    var r1 := Diagnose(env, req, st, disk);
    var r2 := Diagnose(env, req, r1.store, r1.disk);
    if !(r1.outcome.Diagnosed? && r2.outcome.Diagnosed?) {
      return;
    }
    var c1 := Check(req, st, disk);
    var c2 := Check(req, r1.store, r1.disk);
    var fk, mk := req.fileId.value as nat, req.modelId.value as nat;
    var name := NameFor(st, fk, mk, env.utcNow);
    var run1 := env.evaluate(c1.filePath, c1.modelPath);
    var run2 := env.evaluate(c2.filePath, c2.modelPath);
    CommittedPair(env, st, disk, fk, mk, run1);
    var rk1: nat, pk1: nat :| pk1 !in st.reports.rows &&
      r1.store.reports.rows == st.reports.rows[pk1 := ReportRow(name, "PDF", ReportPath(name), env.dbNow)];
    assert NameFor(r1.store, fk, mk, env.utcNow) == name;
    CommittedPair(env, r1.store, r1.disk, fk, mk, run2);
    var rk2: nat, pk2: nat :| pk2 !in r1.store.reports.rows &&
      r2.store.reports.rows == r1.store.reports.rows[pk2 := ReportRow(name, "PDF", ReportPath(name), env.dbNow)];
    assert pk1 in r2.store.reports.rows && pk2 in r2.store.reports.rows && pk1 != pk2;
  }
}

=== FILE: evaluation.dfy ===
/** The evaluator process (`diagnosis_eval.py`) without its numerics: how a test table
    becomes samples and labels, the integer bookkeeping of the confusion matrix, and the
    output and exit contract of its entry point. */
module Evaluation {
  import opened Common
  import opened Text
  import opened ResultLine
  import Schema

  // ---------------------------------------------------------------------------
  // The test table

  /** The member of the uploaded zip the loader reads. */
  const CsvName: string := "test_dataset.csv"

  /** One sample holds 1024 time steps of 13 channels. */
  const StepsPerSample: nat := 1024
  const Channels: nat := 13
  const SampleSize: nat := StepsPerSample * Channels

  /** A cell after `pd.to_numeric(errors='coerce')`: a number, or NaN for text that is not one. */
  datatype Cell = Number(value: real) | NotANumber

  /** `fillna(0)`. */
  function Filled(c: Cell): real {
    match c
    case Number(v) => v
    case NotANumber => 0.0
  }

  /** The conversion of a float label to `torch.long`, which truncates toward zero. */
  function TruncateToInt(r: real): (n: int)
    ensures r >= 0.0 ==> n as real <= r < n as real + 1.0
    ensures r < 0.0 ==> n as real - 1.0 < r <= n as real
  {
    if r >= 0.0 then r.Floor else -((-r).Floor)
  }

  /** A data frame: every row has exactly `columns` cells. */
  datatype RawFrame = RawFrame(columns: nat, rows: seq<seq<Cell>>)

  predicate Rectangular(f: RawFrame) {
    forall i :: 0 <= i < |f.rows| ==> |f.rows[i]| == f.columns
  }

  type Frame = f: RawFrame | Rectangular(f) witness RawFrame(0, [])

  /** `df.iloc[i, :-1]`: every cell but the last, as numbers. */
  function Features(row: seq<Cell>): (r: seq<real>)
    requires |row| >= 1
    ensures |r| == |row| - 1
  {
    seq(|row| - 1, k requires 0 <= k < |row| - 1 => Filled(row[k]))
  }

  /** `df.iloc[i, -1]` as a label. */
  function Label(row: seq<Cell>): int
    requires |row| >= 1
  {
    TruncateToInt(Filled(row[|row| - 1]))
  }

  /** A whole-number cell, which is what a class label column holds. */
  predicate Integral(c: Cell) {
    Filled(c) == (Filled(c).Floor) as real
  }

  /** The split keeps every cell: the features followed by the label give back the row,
      read as numbers, whenever the label cell holds a whole number. */
  lemma SplitRowRoundTrip(row: seq<Cell>)
    requires |row| >= 1 && Integral(row[|row| - 1])
    ensures Features(row) + [Label(row) as real] == seq(|row|, k requires 0 <= k < |row| => Filled(row[k]))
  {
    var v := Filled(row[|row| - 1]);
    if v < 0.0 {
      assert (-v).Floor == -(v.Floor);
    }
  }

  /** All feature values of a table, row after row (`df.iloc[:, :-1].values` flattened). */
  function Flatten(rows: seq<seq<Cell>>, w: nat): (r: seq<real>)
    requires forall i :: 0 <= i < |rows| ==> |rows[i]| == w + 1
    ensures |r| == |rows| * w
  {
    if rows == [] then []
    else Flatten(rows[..|rows| - 1], w) + Features(rows[|rows| - 1])
  }

  /** The feature tensor reshaped to `(-1, 1024, 13)`, and the label of every row. */
  datatype Dataset = Dataset(features: seq<real>, samples: nat, labels: seq<int>)

  datatype LoadError =
    | CsvMissing          // FileNotFoundError: no test_dataset.csv in the extraction directory
    | NoLabelColumn       // IndexError: a table without columns has no last column
    | ShapeMismatch       // RuntimeError of reshape: the values do not fill whole samples

  datatype Loaded = Loaded(data: Dataset) | LoadFailed(error: LoadError)

  /** `load_test_dataset_from_zip` once the zip is extracted: `extracted` are the names in
      `./temp_data` afterwards, which is never emptied, so a CSV left by an earlier run counts
      too. An empty feature table reshapes to zero samples, since every dimension but the
      inferred one is fixed. */
  function LoadDataset(extracted: set<string>, f: Frame): (r: Loaded)
    ensures r.Loaded? <==> (CsvName in extracted && f.columns >= 1 &&
      |f.rows| * (f.columns - 1) % SampleSize == 0)
    ensures r.Loaded? ==> r.data.samples * SampleSize == |r.data.features| && |r.data.labels| == |f.rows|
    ensures r.Loaded? ==> forall i :: 0 <= i < |f.rows| ==> r.data.labels[i] == Label(f.rows[i])
  {
    if CsvName !in extracted then LoadFailed(CsvMissing)
    else if f.columns == 0 then LoadFailed(NoLabelColumn)
    else
      var flat := Flatten(f.rows, f.columns - 1);
      if |flat| % SampleSize != 0 then LoadFailed(ShapeMismatch)
      else
        Loaded(Dataset(flat, |flat| / SampleSize,
                       seq(|f.rows|, i requires 0 <= i < |f.rows| => Label(f.rows[i]))))
  }

  /** The `w` features of row `i` sit at `[i * w, (i + 1) * w)` of the flattened table. */
  lemma {:induction false} FlattenSlice(rows: seq<seq<Cell>>, w: nat, i: nat)
    requires forall k :: 0 <= k < |rows| ==> |rows[k]| == w + 1
    requires i < |rows|
    ensures i * w + w <= |rows| * w
    ensures Flatten(rows, w)[i * w .. i * w + w] == Features(rows[i])
  {
    var n := |rows|;
    var front := Flatten(rows[..n - 1], w);
    assert Flatten(rows, w) == front + Features(rows[n - 1]);
    assert |front| == (n - 1) * w;
    if i == n - 1 {
      assert Flatten(rows, w)[i * w .. i * w + w] == Features(rows[n - 1]);
    } else {
      FlattenSlice(rows[..n - 1], w, i);
      assert i * w + w <= (n - 1) * w by {
        assert i + 1 <= n - 1;
      }
      assert Flatten(rows, w)[i * w .. i * w + w] == front[i * w .. i * w + w];
    }
  }

  /** A table laid out one sample per row (13312 features and a label) loads as exactly one
      sample per row, each sample being that row's features and label. */
  lemma OneSamplePerRow(extracted: set<string>, f: Frame)
    requires CsvName in extracted && f.columns == SampleSize + 1
    ensures LoadDataset(extracted, f).Loaded?
    ensures var d := LoadDataset(extracted, f).data;
      d.samples == |f.rows| &&
      forall i :: 0 <= i < |f.rows| ==>
        d.features[i * SampleSize .. i * SampleSize + SampleSize] == Features(f.rows[i]) &&
        d.labels[i] == Label(f.rows[i])
  {
    var flat := Flatten(f.rows, SampleSize);
    assert |flat| == |f.rows| * SampleSize;
    WholeSamples(|f.rows|);
    forall i | 0 <= i < |f.rows|
      ensures flat[i * SampleSize .. i * SampleSize + SampleSize] == Features(f.rows[i])
    {
      FlattenSlice(f.rows, SampleSize, i);
    }
  }

  /** A table with no rows, or with only the label column, loads as a dataset of no samples:
      nothing fails until the evaluation divides by the number of batches. */
  lemma EmptyTableLoads(extracted: set<string>, f: Frame)
    requires CsvName in extracted && f.columns >= 1
    ensures (|f.rows| == 0 || f.columns == 1) ==>
      LoadDataset(extracted, f).Loaded? && LoadDataset(extracted, f).data.samples == 0 &&
      LoadDataset(extracted, f).data.features == []
  {
  }

  lemma WholeSamples(n: nat)
    ensures (n * SampleSize) % SampleSize == 0 && (n * SampleSize) / SampleSize == n
  {
    assert SampleSize == 13312;
  }

  // ---------------------------------------------------------------------------
  // Confusion-matrix bookkeeping

  function Sum(s: seq<nat>): nat {
    if s == [] then 0 else Sum(s[..|s| - 1]) + s[|s| - 1]
  }

  /** `C[i][j]` counts the samples of class `i` predicted as class `j`. */
  type Matrix = seq<seq<nat>>

  predicate Square(c: Matrix) {
    forall i :: 0 <= i < |c| ==> |c[i]| == |c|
  }

  function RowSums(c: Matrix): (r: seq<nat>)
    ensures |r| == |c|
  {
    seq(|c|, i requires 0 <= i < |c| => Sum(c[i]))
  }

  function Column(c: Matrix, j: nat): (r: seq<nat>)
    requires Square(c) && j < |c|
    ensures |r| == |c|
  {
    seq(|c|, i requires 0 <= i < |c| => c[i][j])
  }

  function Diagonal(c: Matrix): (r: seq<nat>)
    requires Square(c)
    ensures |r| == |c|
  {
    seq(|c|, i requires 0 <= i < |c| => c[i][i])
  }

  /** `np.sum(conf_matrix)`: the number of samples. */
  function Total(c: Matrix): nat {
    Sum(RowSums(c))
  }

  /** The four counts of one class, computed as the evaluator computes them with signed integers. */
  datatype ClassCounts = ClassCounts(tp: int, fn: int, fp: int, tn: int)

  /** `tp = diag`, `fn = row sum - tp`, `fp = column sum - tp`, `tn = total - (fp + fn + tp)`.
      Every count is a count (never negative), and the four partition the samples. */
  function CountsOf(c: Matrix, i: nat): (r: ClassCounts)
    requires Square(c) && i < |c|
    ensures r.tp >= 0 && r.fn >= 0 && r.fp >= 0 && r.tn >= 0
    ensures r.tp == c[i][i]
    ensures r.tp + r.fn + r.fp + r.tn == Total(c)
    ensures r.tp + r.fn == Sum(c[i]) && r.tp + r.fp == Sum(Column(c, i))
  {
    var tp := c[i][i];
    var fn := Sum(c[i]) - tp;
    var fp := Sum(Column(c, i)) - tp;
    var tn := Total(c) - (fp + fn + tp);
    TableCountsNonNegative(c, i);
    ClassCounts(tp, fn, fp, tn)
  }

  /** The counts of every class, in class order. */
  function AllCounts(c: Matrix): (r: seq<ClassCounts>)
    requires Square(c)
    ensures |r| == |c|
    ensures forall i :: 0 <= i < |c| ==> r[i] == CountsOf(c, i)
  {
    seq(|c|, i requires 0 <= i < |c| => CountsOf(c, i))
  }

  /** `accuracy = np.sum(tp) / np.sum(conf_matrix)` as its numerator and denominator: the
      correct predictions never exceed the samples, so the ratio lies in [0, 1] (and is NaN
      for an empty matrix, where both are 0). */
  function AccuracyFraction(c: Matrix): (r: (nat, nat))
    requires Square(c)
    ensures r.0 <= r.1
    ensures r.1 == Total(c)
    ensures r.0 == Sum(seq(|c|, i requires 0 <= i < |c| => CountsOf(c, i).tp)) == Sum(Diagonal(c))
  {
    TraceBelowTotal(c);
    assert seq(|c|, i requires 0 <= i < |c| => CountsOf(c, i).tp) == Diagonal(c);
    (Sum(Diagonal(c)), Total(c))
  }

  lemma {:induction false} SumAppend(s: seq<nat>, x: nat)
    ensures Sum(s + [x]) == Sum(s) + x
  {
    assert (s + [x])[..|s|] == s;
  }

  lemma {:induction false} ElementBelowSum(s: seq<nat>, i: nat)
    requires i < |s|
    ensures s[i] <= Sum(s)
  {
    if i < |s| - 1 {
      ElementBelowSum(s[..|s| - 1], i);
    }
  }

  lemma {:induction false} SumMonotone(s: seq<nat>, t: seq<nat>)
    requires |s| == |t|
    requires forall k :: 0 <= k < |s| ==> s[k] <= t[k]
    ensures Sum(s) <= Sum(t)
  {
    if s != [] {
      SumMonotone(s[..|s| - 1], t[..|t| - 1]);
    }
  }

  /** Zeroing one entry takes exactly that entry off the sum. */
  lemma {:induction false} SumClearOne(s: seq<nat>, i: nat)
    requires i < |s|
    ensures Sum(s[i := 0]) + s[i] == Sum(s)
  {
    var n := |s|;
    if i == n - 1 {
      assert s[i := 0][..n - 1] == s[..n - 1];
    } else {
      assert s[i := 0][..n - 1] == s[..n - 1][i := 0];
      SumClearOne(s[..n - 1], i);
    }
  }

  /** The other cells of column `i` fit in the other rows, so row `i` and column `i` together
      hold at most all the samples. */
  lemma TableCountsNonNegative(c: Matrix, i: nat)
    requires Square(c) && i < |c|
    ensures c[i][i] <= Sum(c[i]) && c[i][i] <= Sum(Column(c, i))
    ensures Sum(c[i]) + Sum(Column(c, i)) - c[i][i] <= Total(c)
  {
    var col := Column(c, i);
    var rows := RowSums(c);
    ElementBelowSum(c[i], i);
    ElementBelowSum(col, i);
    var col0, rows0 := col[i := 0], rows[i := 0];
    forall k | 0 <= k < |c|
      ensures col0[k] <= rows0[k]
    {
      if k != i {
        ElementBelowSum(c[k], i);
      }
    }
    SumMonotone(col0, rows0);
    SumClearOne(col, i);
    SumClearOne(rows, i);
  }

  /** The correct predictions, summed over the classes, never exceed the samples. */
  lemma TraceBelowTotal(c: Matrix)
    requires Square(c)
    ensures Sum(Diagonal(c)) <= Total(c)
  {
    forall k | 0 <= k < |c|
      ensures Diagonal(c)[k] <= RowSums(c)[k]
    {
      ElementBelowSum(c[k], k);
    }
    SumMonotone(Diagonal(c), RowSums(c));
  }

  function Minus(s: seq<nat>, t: seq<nat>): (r: seq<nat>)
    requires |s| == |t| && forall k :: 0 <= k < |s| ==> t[k] <= s[k]
    ensures |r| == |s|
  {
    seq(|s|, k requires 0 <= k < |s| => s[k] - t[k])
  }

  lemma {:induction false} SumMinus(s: seq<nat>, t: seq<nat>)
    requires |s| == |t| && forall k :: 0 <= k < |s| ==> t[k] <= s[k]
    ensures Sum(Minus(s, t)) + Sum(t) == Sum(s)
  {
    if s != [] {
      var n := |s|;
      assert Minus(s, t)[..n - 1] == Minus(s[..n - 1], t[..n - 1]);
      SumMinus(s[..n - 1], t[..n - 1]);
    }
  }

  function Plus(a: seq<nat>, b: seq<nat>): (r: seq<nat>)
    requires |a| == |b|
    ensures |r| == |a|
  {
    seq(|a|, k requires 0 <= k < |a| => a[k] + b[k])
  }

  lemma {:induction false} SumPlus(a: seq<nat>, b: seq<nat>)
    requires |a| == |b|
    ensures Sum(Plus(a, b)) == Sum(a) + Sum(b)
  {
    if a != [] {
      var n := |a|;
      assert Plus(a, b)[..n - 1] == Plus(a[..n - 1], b[..n - 1]);
      SumPlus(a[..n - 1], b[..n - 1]);
    }
  }

  lemma {:induction false} SumZeros(w: nat)
    ensures Sum(seq(w, k => 0)) == 0
  {
    if w > 0 {
      assert seq(w, k => 0)[..w - 1] == seq(w - 1, k => 0);
      SumZeros(w - 1);
    }
  }

  /** The column sums of a table whose rows all have `w` cells, accumulated row by row. */
  function ColumnTotals(c: Matrix, w: nat): (r: seq<nat>)
    requires forall i :: 0 <= i < |c| ==> |c[i]| == w
    ensures |r| == w
  {
    if c == [] then seq(w, k => 0)
    else Plus(ColumnTotals(c[..|c| - 1], w), c[|c| - 1])
  }

  lemma {:induction false} ColumnTotalsSum(c: Matrix, w: nat)
    requires forall i :: 0 <= i < |c| ==> |c[i]| == w
    ensures Sum(ColumnTotals(c, w)) == Total(c)
  {
    if c == [] {
      SumZeros(w);
    } else {
      var n := |c|;
      ColumnTotalsSum(c[..n - 1], w);
      SumPlus(ColumnTotals(c[..n - 1], w), c[n - 1]);
      assert RowSums(c)[..n - 1] == RowSums(c[..n - 1]);
    }
  }

  lemma {:induction false} ColumnTotalsAt(c: Matrix, j: nat)
    requires Square(c) && j < |c|
    ensures ColumnTotals(c, |c|)[j] == Sum(Column(c, j))
  {
    ColumnTotalsAtWidth(c, |c|, j);
    assert Column(c, j) == seq(|c|, i requires 0 <= i < |c| => c[i][j]);
  }

  lemma {:induction false} ColumnTotalsAtWidth(c: Matrix, w: nat, j: nat)
    requires forall i :: 0 <= i < |c| ==> |c[i]| == w
    requires j < w
    ensures ColumnTotals(c, w)[j] == Sum(seq(|c|, i requires 0 <= i < |c| => c[i][j]))
  {
    var col := seq(|c|, i requires 0 <= i < |c| => c[i][j]);
    if c != [] {
      var n := |c|;
      ColumnTotalsAtWidth(c[..n - 1], w, j);
      assert col[..n - 1] == seq(n - 1, i requires 0 <= i < n - 1 => c[..n - 1][i][j]);
    }
  }

  /** Summed over the classes, the false negatives and the false positives are both the
      misclassified samples: total minus the diagonal. */
  lemma {:induction false} MisclassifiedBothWays(c: Matrix)
    requires Square(c)
    ensures Sum(seq(|c|, i requires 0 <= i < |c| => CountsOf(c, i).fn as nat)) + Sum(Diagonal(c)) == Total(c)
    ensures Sum(seq(|c|, i requires 0 <= i < |c| => CountsOf(c, i).fp as nat)) + Sum(Diagonal(c)) == Total(c)
  {
    var n := |c|;
    var rows := RowSums(c);
    var cols := seq(n, j requires 0 <= j < n => Sum(Column(c, j)));
    var diag := Diagonal(c);
    forall k | 0 <= k < n
      ensures diag[k] <= rows[k] && diag[k] <= cols[k]
    {
      TableCountsNonNegative(c, k);
    }
    assert seq(n, i requires 0 <= i < n => CountsOf(c, i).fn as nat) == Minus(rows, diag);
    assert seq(n, i requires 0 <= i < n => CountsOf(c, i).fp as nat) == Minus(cols, diag);
    SumMinus(rows, diag);
    SumMinus(cols, diag);
    forall j | 0 <= j < n
      ensures cols[j] == ColumnTotals(c, n)[j]
    {
      ColumnTotalsAt(c, j);
    }
    assert cols == ColumnTotals(c, n);
    ColumnTotalsSum(c, n);
  }

  // ---------------------------------------------------------------------------
  // The result object and the entry point's output contract

  /** A Python float as the evaluator prints it; `repr` is the shortest decimal that reads back
      as the same finite value. */
  datatype Float = Finite(repr: string) | NaN | Infinity | NegInfinity {

    /** `json.dumps` of the value: non-finite values use the JavaScript names. */
    function Json(): string {
      match this
      case Finite(r) => r
      case NaN => "NaN"
      case Infinity => "Infinity"
      case NegInfinity => "-Infinity"
    }

    /** `str()` of the value, which is what an f-string prints. */
    function Str(): string {
      match this
      case Finite(r) => r
      case NaN => "nan"
      case Infinity => "inf"
      case NegInfinity => "-inf"
    }

    predicate OneLine() {
      '\n' !in Json()
    }
  }

  /** The five values `eval_model` returns. */
  datatype Metrics = Metrics(accuracy: Float, precision: Float, recall: Float, f1: Float, specificity: Float) {
    predicate OneLine() {
      accuracy.OneLine() && precision.OneLine() && recall.OneLine() && f1.OneLine() && specificity.OneLine()
    }
  }

  /** `json.dumps(diagnosis_result)`: five keys in insertion order, default separators. */
  function Dumps(m: Metrics): (r: string)
    ensures Schema.ObjectText(r)
    ensures m.OneLine() ==> '\n' !in r
  {
    "{" + Members(m) + "}"
  }

  /** The members of the object, `"key": value` joined by ", ". */
  function Members(m: Metrics): (r: string)
    ensures m.OneLine() ==> '\n' !in r
  {
    Member("accuracy", m.accuracy) + ", " + Member("precision", m.precision) + ", "
    + Member("recall", m.recall) + ", " + Member("f1", m.f1) + ", "
    + Member("specificity", m.specificity)
  }

  function Member(key: string, v: Float): (r: string)
    requires '\n' !in key
    ensures v.OneLine() ==> '\n' !in r
  {
    "\"" + key + "\": " + v.Json()
  }

  /** What `json.loads` of `Dumps(m)` gives, each value shown as `str()` shows it. */
  function Decoded(m: Metrics): map<string, string> {
    map["accuracy" := m.accuracy.Str(), "precision" := m.precision.Str(),
        "recall" := m.recall.Str(), "f1" := m.f1.Str(), "specificity" := m.specificity.Str()]
  }

  /** A decoder that reads the evaluator's own output back as `json.loads` does. */
  predicate ReadsBack(decode: Decoder, m: Metrics) {
    decode(Dumps(m)) == Some(Decoded(m))
  }

  /** The directory reports and images are written to. */
  const ReportsDir: string := "/root/My_Project/backend/reports"

  /** The two images `eval_model` saves, t-SNE first; the orchestrator hard-codes the same paths. */
  const TsneImageName: string := "t-SNE_Visualization.png"
  const ConfusionMatrixImageName: string := "Confusion_Matrix.png"
  const TsneImagePath: string := ReportsDir + "/" + TsneImageName
  const ConfusionMatrixImagePath: string := ReportsDir + "/" + ConfusionMatrixImageName

  /** The images on disk after `saved` of the two `savefig` calls have run. */
  function ImagesSaved(saved: nat): set<string> {
    if saved == 0 then {}
    else if saved == 1 then {TsneImagePath}
    else {TsneImagePath, ConfusionMatrixImagePath}
  }

  /** What the process leaves behind: exit status, standard output, files written. */
  datatype EvalOutcome = EvalOutcome(exitCode: int, stdout: string, wrote: set<string>)

  /** How the body of `__main__` ended: with the five values, or with an exception raised
      after `saved` images were written. */
  datatype Ending = Completed(metrics: Metrics) | Raised(saved: nat)

  /** One run of the entry point. `printed` is everything it wrote to standard output before
      its result line: progress messages, tensor shapes, metric summaries. */
  datatype Run = Run(printed: string, ending: Ending)

  /** Whole lines of progress output, none holding the marker. */
  predicate QuietProgress(printed: string) {
    && !Contains(printed, Marker)
    && (printed == [] || printed[|printed| - 1] == '\n')
  }

  /** The `__main__` block. On success the result line is printed last, after both images are
      saved, and the process exits 0. Any exception leaves the result line unprinted and the
      process exits 1: the first `except` names the never-imported `subprocess`, so evaluating
      it raises a NameError that escapes, which also ends the process with status 1. */
  function Main(run: Run): (o: EvalOutcome)
    ensures o.exitCode == 0 <==> run.ending.Completed?
    ensures run.ending.Completed? ==>
      o.wrote == {TsneImagePath, ConfusionMatrixImagePath} &&
      o.stdout == run.printed + ResultLineText(Dumps(run.ending.metrics))
    ensures run.ending.Raised? ==>
      o.stdout == run.printed && o.wrote <= {TsneImagePath, ConfusionMatrixImagePath} &&
      (ConfusionMatrixImagePath in o.wrote ==> TsneImagePath in o.wrote)
  {
    match run.ending
    case Completed(m) =>
      EvalOutcome(0, run.printed + ResultLineText(Dumps(m)), ImagesSaved(2))
    case Raised(saved) =>
      EvalOutcome(1, run.printed, ImagesSaved(saved))
  }

  /** The output contract seen from the orchestrator's side: a run that completes yields
      exactly its result object to the extractor, a run that raises yields nothing. */
  lemma MainOutputContract(run: Run, after: string)
    requires QuietProgress(run.printed)
    requires run.ending.Completed? ==> run.ending.metrics.OneLine()
    ensures run.ending.Completed? ==> Extract(Main(run).stdout + after) == Some(Dumps(run.ending.metrics))
    ensures run.ending.Raised? ==> Extract(Main(run).stdout) == None
  {
    match run.ending
    case Completed(m) =>
      EmitThenExtract(run.printed, Dumps(m), after);
    case Raised(_) =>
      NoMarkerNoResult(run.printed);
  }

  /** The list of names in `./temp_data` as the progress output prints it (its caption left
      off), for a directory holding one entry named after the marker and a brace pair. */
  const ForgedListing: string := "['" + Marker + "{}']\n"

  /** The listing line is matched before anything printed after it. */
  lemma ForgedListingMatchesFirst(tail: string)
    ensures Extract(ForgedListing + tail) == Some("{}")
  {
    var s := ForgedListing + tail;
    assert s[0] != Marker[0] && s[1] != Marker[0];
    assert MatchAt(s, 0) == None;
    assert MatchAt(s, 1) == None;
    ForgedListingMatchesAtTwo(s, tail);
    assert FirstMatch(s, 2) == Some(2);
  }

  /** The match at the marker the listing holds captures its brace pair. */
  lemma ForgedListingMatchesAtTwo(s: string, tail: string)
    requires s == ForgedListing + tail
    ensures MatchAt(s, 2) == Some("{}")
  {
    assert s[2..2 + |Marker|] == Marker;
    assert s[23] == '{' && s[24] == '}' && s[25] == '\'' && s[26] == ']' && s[27] == '\n';
    assert SkipSpaces(s, 23) == 23;
    assert LineEnd(s, 27) == 27;
    assert LineEnd(s, 24) == 27;
    assert LastBrace(s, 24, 26) == Some(24);
    assert LastBrace(s, 24, 27) == Some(24);
    assert s[23..25] == "{}";
  }

  /** The evaluator's object always has members. */
  lemma DumpsIsNotEmptyBraces(m: Metrics)
    ensures Dumps(m) != "{}"
  {
    assert |Members(m)| >= 2;
  }

  /** Quiet progress output is needed: `./temp_data` keeps the members of every archive
      extracted, and its listing is printed before the result line. One member named after
      the marker makes the extractor return that name's braces, whether the run completes or
      raises. */
  lemma ListingHijacksResult(run: Run)
    requires run.printed == ForgedListing
    ensures !QuietProgress(run.printed)
    ensures Extract(Main(run).stdout) == Some("{}")
    ensures run.ending.Completed? ==> Extract(Main(run).stdout) != Some(Dumps(run.ending.metrics))
  {
    assert OccursAt(run.printed, Marker, 2);
    match run.ending
    case Completed(m) =>
      ForgedListingMatchesFirst(ResultLineText(Dumps(m)));
      DumpsIsNotEmptyBraces(m);
    case Raised(_) =>
      assert Main(run).stdout == ForgedListing + [];
      ForgedListingMatchesFirst([]);
  }
}

=== FILE: file_management.dfy ===
/** `file_management.py`: uploading a data set, listing, deleting, and the name check. */
module FileManagement {
  import opened Common
  import opened Text
  import opened Clock
  import opened Schema
  import opened Catalog
  import Records

  /** `Config.UPLOAD_FILE`, relative to the server's working directory. */
  const UploadDir: string := "./uploads"

  function FileName(row: FileRow): string {
    row.name
  }

  function FileStamp(row: FileRow): int {
    Ordinal(row.uploadTime)
  }

  /** The handler's answer, with the store and the disk after it. */
  datatype Uploading = Uploading(outcome: UploadOutcome, store: Store, disk: set<string>)

  /** The tail both versions of `upload_file` share: save the bytes and insert a row with the
      sanitised name, the path, the size and the UTC time; the format and owner stay NULL. */
  function SaveAdmitted(st: Store, disk: set<string>, a: Admission, now: Time): (r: Uploading)
    ensures a.Refuse? ==> r == Uploading(a.outcome, st, disk)
    ensures a.Save? ==>
      && r.outcome.Uploaded? && r.outcome.storedName == a.safeName
      && r.outcome.key !in st.files.rows
      && r.store.files.rows == st.files.rows[r.outcome.key := FileRow(None, a.safeName, a.path, None, Some(a.size), now)]
      && r.disk == disk + {a.path}
    ensures r.store.users == st.users && r.store.models == st.models
    ensures r.store.records == st.records && r.store.reports == st.reports
  {
    match a
    case Refuse(o) => Uploading(o, st, disk)
    case Save(safe, path, size) =>
      var (files, key) := Insert(st.files, FileRow(None, safe, path, None, Some(size), now));
      Uploading(Uploaded(key, safe), st.(files := files), disk + {path})
  }

  /** `upload_file` as written. `secure` is `secure_filename`; `now` is `datetime.utcnow()`. */
  function UploadFile(st: Store, disk: set<string>, secure: string -> string,
                      upload: Option<Upload>, now: Time): (r: Uploading)
    ensures !r.outcome.Uploaded? ==> r.store == st && r.disk == disk
    ensures r.outcome.Uploaded? <==>
      && Screen(FileExtensions, upload).None?
      && (forall k :: k in st.files.rows ==> st.files.rows[k].name != upload.value.filename)
      && secure(upload.value.filename) != ""
    ensures r.outcome.Uploaded? ==>
      var safe := secure(upload.value.filename);
      && r.outcome.storedName == safe
      && r.store.files.rows == st.files.rows[r.outcome.key := FileRow(None, safe, Join(UploadDir, safe), None, Some(upload.value.size), now)]
      && r.outcome.key !in st.files.rows
      && r.disk == disk + {Join(UploadDir, safe)}
    ensures r.store.users == st.users && r.store.models == st.models
    ensures r.store.records == st.records && r.store.reports == st.reports
  {
    SaveAdmitted(st, disk, Admit(st.files, FileName, FileExtensions, UploadDir, secure, upload), now)
  }

  /** `upload_file` with the duplicate test on the stored name. */
  function UploadFileIntended(st: Store, disk: set<string>, secure: string -> string,
                              upload: Option<Upload>, now: Time): (r: Uploading)
    ensures !r.outcome.Uploaded? ==> r.store == st && r.disk == disk
    ensures r.outcome.Uploaded? <==>
      && Screen(FileExtensions, upload).None?
      && (forall k :: k in st.files.rows ==> st.files.rows[k].name != secure(upload.value.filename))
      && secure(upload.value.filename) != ""
    ensures r.outcome.Uploaded? ==>
      var safe := secure(upload.value.filename);
      && r.outcome.storedName == safe
      && r.store.files.rows == st.files.rows[r.outcome.key := FileRow(None, safe, Join(UploadDir, safe), None, Some(upload.value.size), now)]
      && r.outcome.key !in st.files.rows
      && r.disk == disk + {Join(UploadDir, safe)}
    ensures r.store.users == st.users && r.store.models == st.models
    ensures r.store.records == st.records && r.store.reports == st.reports
  {
    SaveAdmitted(st, disk, AdmitIntended(st.files, FileName, FileExtensions, UploadDir, secure, upload), now)
  }

  /** An upload adds a row and nothing that could dangle. */
  lemma UploadPreservesConsistency(st: Store, disk: set<string>, secure: string -> string,
                                   upload: Option<Upload>, now: Time)
    requires Consistent(st)
    ensures Consistent(UploadFile(st, disk, secure, upload, now).store)
    ensures Consistent(UploadFileIntended(st, disk, secure, upload, now).store)
  {
    var r1 := UploadFile(st, disk, secure, upload, now);
    var r2 := UploadFileIntended(st, disk, secure, upload, now);
    assert forall p :: p in st.reports.rows ==> exists k :: OwnedBy(r1.store.records, p, k);
    assert forall p :: p in st.reports.rows ==> exists k :: OwnedBy(r2.store.records, p, k);
  }

  /** With the test on the stored name, no two file rows ever share a name. */
  lemma UploadIntendedKeepsNamesUnique(st: Store, disk: set<string>, secure: string -> string,
                                       upload: Option<Upload>, now: Time)
    requires UniqueNames(st.files, FileName)
    ensures UniqueNames(UploadFileIntended(st, disk, secure, upload, now).store.files, FileName)
  {
  }

  /** `werkzeug`'s `secure_filename` turns a space into an underscore. */
  predicate SpacesBecomeUnderscores(secure: string -> string) {
    secure("a b.pt") == "a_b.pt"
  }

  /** "a b.pt" passes the first two checks. */
  lemma SpacedNamePassesScreen(size: nat)
    ensures Screen(FileExtensions, Some(Upload("a b.pt", size))).None?
  {
    assert Allowed("a b.pt", FileExtensions) by {
      AfterLastAt("a b.pt", 3);
      LowercaseExtension("pt");
      assert "a b.pt"[4..] == "pt";
    }
  }

  /** The same upload twice: the test looks up "a b.pt", the rows are named "a_b.pt", so the
      second upload passes the test, and the table holds two rows of one name, the second
      save having overwritten the first file. The name check the client runs first says
      "a b.pt" does not exist even after the first upload. */
  lemma RepeatedUploadDuplicatesName(st: Store, disk: set<string>, secure: string -> string,
                                     size: nat, now1: Time, now2: Time)
    requires SpacesBecomeUnderscores(secure)
    requires forall k :: k in st.files.rows ==> st.files.rows[k].name != "a b.pt"
    ensures var up := Some(Upload("a b.pt", size));
      var r1 := UploadFile(st, disk, secure, up, now1);
      var r2 := UploadFile(r1.store, r1.disk, secure, up, now2);
      && r1.outcome.Uploaded? && r2.outcome.Uploaded?
      && CheckFileExists(r1.store, Some("a b.pt")) == Answer(false)
      && !UniqueNames(r2.store.files, FileName)
  {
    SpacedNamePassesScreen(size);
    var up := Some(Upload("a b.pt", size));
    var r1 := UploadFile(st, disk, secure, up, now1);
    var r2 := UploadFile(r1.store, r1.disk, secure, up, now2);
    var k1, k2 := r1.outcome.key, r2.outcome.key;
    assert r2.store.files.rows[k1].name == "a_b.pt" == r2.store.files.rows[k2].name;
  }

  /** The corrected handler refuses the repeat, and the name check finds the stored name. */
  lemma RepeatedUploadRefusedWhenIntended(st: Store, disk: set<string>, secure: string -> string,
                                          size: nat, now1: Time, now2: Time)
    requires SpacesBecomeUnderscores(secure)
    requires forall k :: k in st.files.rows ==> st.files.rows[k].name != "a_b.pt"
    ensures var up := Some(Upload("a b.pt", size));
      var r1 := UploadFileIntended(st, disk, secure, up, now1);
      var r2 := UploadFileIntended(r1.store, r1.disk, secure, up, now2);
      && r1.outcome.Uploaded? && r2.outcome == AlreadyExists && r2.store == r1.store
      && CheckFileExists(r1.store, Some(r1.outcome.storedName)) == Answer(true)
  {
    SpacedNamePassesScreen(size);
    var up := Some(Upload("a b.pt", size));
    var r1 := UploadFileIntended(st, disk, secure, up, now1);
    assert r1.store.files.rows[r1.outcome.key].name == "a_b.pt";
  }

  /** One entry of `get_files`; the time is sent as `isoformat()`. */
  datatype FileEntry = FileEntry(fileId: nat, name: string, size: Option<nat>, uploadTime: Time)

  datatype FilePage = FilePage(files: seq<FileEntry>, total: nat, totalPages: int, currentPage: int) | FilesFailed

  function EntryOf(st: Store, k: nat): FileEntry
    requires k in st.files.rows
  {
    FileEntry(k, st.files.rows[k].name, st.files.rows[k].size, st.files.rows[k].uploadTime)
  }

  /** `get_files`: one page of the files, newest upload first. */
  function GetFiles(st: Store, page: PageParam, size: PageParam): (r: FilePage)
    ensures r.FilesFailed? <==>
      || page.Read(1).None? || size.Read(5).None? || page.Read(1).value < 1 || size.Read(5).value < 1
      || !Fetchable(page.Read(1).value, size.Read(5).value)
    ensures r.FilePage? ==>
      && r.currentPage == page.Read(1).value
      && r.total == |st.files.rows|
      && r.totalPages == TotalPages(r.total, size.Read(5).value)
      && |r.files| <= size.Read(5).value
      && (forall i :: 0 <= i < |r.files| ==> r.files[i].fileId in st.files.rows && r.files[i] == EntryOf(st, r.files[i].fileId))
    ensures r.FilePage? ==>
      var s, lo, n := Listed(st.files, FileStamp), Offset(r.currentPage, size.Read(5).value), size.Read(5).value;
      && (|r.files| == n || lo + |r.files| >= |s|)
      && forall i :: 0 <= i < |r.files| ==> lo + i < |s| && r.files[i].fileId == s[lo + i].key
  {
    var l := List(st.files, FileStamp, page, size);
    if l.ListingFailed? then FilesFailed
    else
      FilePage(Entries(st, l.keys), l.total, l.totalPages, l.currentPage)
  }

  function Entries(st: Store, keys: seq<nat>): (r: seq<FileEntry>)
    requires forall i :: 0 <= i < |keys| ==> keys[i] in st.files.rows
    ensures |r| == |keys| && forall i :: 0 <= i < |keys| ==> r[i] == EntryOf(st, keys[i])
  {
    if keys == [] then [] else [EntryOf(st, keys[0])] + Entries(st, keys[1..])
  }

  /** The page lists newer uploads first. */
  lemma GetFilesNewestFirst(st: Store, page: PageParam, size: PageParam)
    ensures var r := GetFiles(st, page, size);
      r.FilePage? ==> forall i, j :: 0 <= i < j < |r.files| ==> Ordinal(r.files[i].uploadTime) >= Ordinal(r.files[j].uploadTime)
  {
    var r := GetFiles(st, page, size);
    if r.FilePage? {
      var l := List(st.files, FileStamp, page, size);
      forall i, j | 0 <= i < j < |r.files|
        ensures Ordinal(r.files[i].uploadTime) >= Ordinal(r.files[j].uploadTime)
      {
        assert FileStamp(st.files.rows[l.keys[i]]) >= FileStamp(st.files.rows[l.keys[j]]);
      }
    }
  }

  /** `GetFiles` is the catalogue listing with each key replaced by its entry. */
  lemma GetFilesFollowsList(st: Store, page: PageParam, size: PageParam)
    ensures var l := List(st.files, FileStamp, page, size);
      l.Listing? ==> GetFiles(st, page, size) == FilePage(Entries(st, l.keys), l.total, l.totalPages, l.currentPage)
  {
  }

  /** A key the listing puts on a page shows up as that file's entry. */
  lemma ListedKeyShown(st: Store, p: int, size: int, k: nat)
    requires p >= 1 && size >= 1
    ensures var l := List(st.files, FileStamp, Given(p), Given(size));
      (l.Listing? && k in l.keys) ==>
      var r := GetFiles(st, Given(p), Given(size)); r.FilePage? && k in st.files.rows && EntryOf(st, k) in r.files
  {
    var l := List(st.files, FileStamp, Given(p), Given(size));
    if l.Listing? && k in l.keys {
      var i :| 0 <= i < |l.keys| && l.keys[i] == k;
      GetFilesFollowsList(st, Given(p), Given(size));
      var files := Entries(st, l.keys);
      assert files[i] == EntryOf(st, k);
    }
  }

  /** Paging through `getFiles` shows every file. */
  lemma GetFilesShowsEveryFile(st: Store, size: int, k: nat)
    requires size >= 1 && k in st.files.rows
    requires size <= MaxLimit && |st.files.rows| <= MaxLimit
    ensures var first := GetFiles(st, Given(1), Given(size));
      && first.FilePage?
      && exists p :: 1 <= p <= first.totalPages &&
           var r := GetFiles(st, Given(p), Given(size)); r.FilePage? && EntryOf(st, k) in r.files
  {
    var p := RowOnSomePage(st.files, FileStamp, size, k);
    PageWithinRows(st.files, FileStamp, size, p, k);
    RowListed(st.files, FileStamp, size, p, k);
    ListedKeyShown(st, p, size, k);
    GetFilesPageCount(st, size);
  }

  /** The first page announces the ceiling page count. */
  lemma GetFilesPageCount(st: Store, size: int)
    requires 1 <= size <= MaxLimit
    ensures var first := GetFiles(st, Given(1), Given(size));
      first.FilePage? && first.totalPages == TotalPages(|st.files.rows|, size)
  {
    FirstPageShown(st.files, FileStamp, size);
  }

  /** `delete_file` ends with 200, or with 500 for any failure, an unknown id included:
      `get_or_404` raises inside the `try`, and the handler turns that into 500. */
  datatype Deleting = Deleting(ok: bool, store: Store, disk: set<string>) {
    function Status(): int {
      if ok then 200 else 500
    }
  }

  /** The records after a file row goes: the relationship's back-reference sets the file key
      of every record that named it to NULL. */
  function Detach(records: Table<Record>, id: nat): (r: Table<Record>)
    ensures r.rows.Keys == records.rows.Keys && r.next == records.next
    ensures forall k :: k in records.rows ==>
      r.rows[k].fileId == (if records.rows[k].fileId == Some(id) then None else records.rows[k].fileId) &&
      r.rows[k].(fileId := records.rows[k].fileId) == records.rows[k]
  {
    RawTable(map k | k in records.rows :: if records.rows[k].fileId == Some(id) then records.rows[k].(fileId := None) else records.rows[k],
             records.next)
  }

  /** `delete_file`: the file is removed if it is on disk, then the row goes. */
  function DeleteFile(st: Store, disk: set<string>, id: nat): (r: Deleting)
    ensures r.ok <==> id in st.files.rows
    ensures !r.ok ==> r.store == st && r.disk == disk
    ensures r.ok ==>
      && r.store.files.rows == st.files.rows - {id}
      && r.disk == disk - {st.files.rows[id].path}
      && r.store.records.rows.Keys == st.records.rows.Keys
      && (forall k :: k in st.records.rows ==>
            r.store.records.rows[k].fileId == (if st.records.rows[k].fileId == Some(id) then None else st.records.rows[k].fileId) &&
            r.store.records.rows[k].(fileId := st.records.rows[k].fileId) == st.records.rows[k])
    ensures r.store.users == st.users && r.store.models == st.models && r.store.reports == st.reports
  {
    if id !in st.files.rows then Deleting(false, st, disk)
    else
      var path := st.files.rows[id].path;
      var disk1 := if path in disk then disk - {path} else disk;
      Deleting(true, st.(files := Remove(st.files, id), records := Detach(st.records, id)), disk1)
  }

  /** Deleting a file keeps the store consistent: the records that used it lose only their
      file key. */
  lemma DeleteFilePreservesConsistency(st: Store, disk: set<string>, id: nat)
    requires Consistent(st)
    ensures Consistent(DeleteFile(st, disk, id).store)
  {
    var st1 := DeleteFile(st, disk, id).store;
    if id in st.files.rows {
      forall p | p in st1.reports.rows
        ensures exists k :: OwnedBy(st1.records, p, k)
      {
        var k :| OwnedBy(st.records, p, k);
        assert OwnedBy(st1.records, p, k);
      }
      forall a, b | a in st1.records.rows && b in st1.records.rows && a != b && st1.records.rows[a].reportId.Some?
        ensures st1.records.rows[a].reportId != st1.records.rows[b].reportId
      {
        assert st1.records.rows[a].reportId == st.records.rows[a].reportId;
        assert st1.records.rows[b].reportId == st.records.rows[b].reportId;
      }
      forall k | k in st1.records.rows ensures ObjectText(st1.records.rows[k].result) {
        assert st1.records.rows[k].result == st.records.rows[k].result;
      }
    }
  }

  /** After its file is deleted, a record's entry in the record listing names the file
      'Unknown', where it named the file before. */
  lemma DeletedFileShowsUnknown(st: Store, disk: set<string>, id: nat, k: nat)
    requires Consistent(st) && k in st.records.rows && st.records.rows[k].fileId == Some(id)
    ensures Records.EntryOf(st, k).fileName == st.files.rows[id].name
    ensures var st1 := DeleteFile(st, disk, id).store;
      k in st1.records.rows && Records.EntryOf(st1, k).fileName == "Unknown"
  {
  }

  /** `check_file_exists`. */
  function CheckFileExists(st: Store, name: Option<string>): (r: ExistsAnswer)
    ensures r.NameNotProvided? <==> name.None? || name.value == ""
    ensures r.Answer? ==> (r.found <==> exists k :: k in st.files.rows && st.files.rows[k].name == name.value)
  {
    CheckExists(st.files, FileName, name)
  }
}

=== FILE: model_management.dfy ===
/** `model_management.py`: uploading a model artifact, listing, deleting, and the name check. */
module ModelManagement {
  import opened Common
  import opened Text
  import opened Clock
  import opened Schema
  import opened Catalog

  /** `Config.UPLOAD_MODEL`, relative to the server's working directory. */
  const UploadDir: string := "./models"

  function ModelName(row: ModelRow): string {
    row.name
  }

  function ModelStamp(row: ModelRow): int {
    Ordinal(row.uploadTime)
  }

  /** The handler's answer, with the store and the disk after it. */
  datatype Uploading = Uploading(outcome: UploadOutcome, store: Store, disk: set<string>)

  /** The tail both versions of `upload_model` share: save the bytes and insert a row with the
      sanitised name, the size, the path and the UTC time. */
  function SaveAdmitted(st: Store, disk: set<string>, a: Admission, now: Time): (r: Uploading)
    ensures a.Refuse? ==> r == Uploading(a.outcome, st, disk)
    ensures a.Save? ==>
      && r.outcome.Uploaded? && r.outcome.storedName == a.safeName
      && r.outcome.key !in st.models.rows
      && r.store.models.rows == st.models.rows[r.outcome.key := ModelRow(a.safeName, Some(a.size), a.path, now)]
      && r.disk == disk + {a.path}
    ensures r.store.users == st.users && r.store.files == st.files
    ensures r.store.records == st.records && r.store.reports == st.reports
  {
    match a
    case Refuse(o) => Uploading(o, st, disk)
    case Save(safe, path, size) =>
      var (models, key) := Insert(st.models, ModelRow(safe, Some(size), path, now));
      Uploading(Uploaded(key, safe), st.(models := models), disk + {path})
  }

  /** `upload_model` as written. `secure` is `secure_filename`; `now` is `datetime.utcnow()`. */
  function UploadModel(st: Store, disk: set<string>, secure: string -> string,
                       upload: Option<Upload>, now: Time): (r: Uploading)
    ensures !r.outcome.Uploaded? ==> r.store == st && r.disk == disk
    ensures r.outcome.Uploaded? <==>
      && Screen(ModelExtensions, upload).None?
      && (forall k :: k in st.models.rows ==> st.models.rows[k].name != upload.value.filename)
      && secure(upload.value.filename) != ""
    ensures r.outcome.Uploaded? ==>
      var safe := secure(upload.value.filename);
      && r.outcome.storedName == safe
      && r.store.models.rows == st.models.rows[r.outcome.key := ModelRow(safe, Some(upload.value.size), Join(UploadDir, safe), now)]
      && r.outcome.key !in st.models.rows
      && r.disk == disk + {Join(UploadDir, safe)}
    ensures r.store.users == st.users && r.store.files == st.files
    ensures r.store.records == st.records && r.store.reports == st.reports
  {
    SaveAdmitted(st, disk, Admit(st.models, ModelName, ModelExtensions, UploadDir, secure, upload), now)
  }

  /** `upload_model` with the duplicate test on the stored name. */
  function UploadModelIntended(st: Store, disk: set<string>, secure: string -> string,
                               upload: Option<Upload>, now: Time): (r: Uploading)
    ensures !r.outcome.Uploaded? ==> r.store == st && r.disk == disk
    ensures r.outcome.Uploaded? <==>
      && Screen(ModelExtensions, upload).None?
      && (forall k :: k in st.models.rows ==> st.models.rows[k].name != secure(upload.value.filename))
      && secure(upload.value.filename) != ""
    ensures r.outcome.Uploaded? ==>
      var safe := secure(upload.value.filename);
      && r.outcome.storedName == safe
      && r.store.models.rows == st.models.rows[r.outcome.key := ModelRow(safe, Some(upload.value.size), Join(UploadDir, safe), now)]
      && r.outcome.key !in st.models.rows
      && r.disk == disk + {Join(UploadDir, safe)}
    ensures r.store.users == st.users && r.store.files == st.files
    ensures r.store.records == st.records && r.store.reports == st.reports
  {
    SaveAdmitted(st, disk, AdmitIntended(st.models, ModelName, ModelExtensions, UploadDir, secure, upload), now)
  }

  /** An upload adds a row and nothing that could dangle. */
  lemma UploadPreservesConsistency(st: Store, disk: set<string>, secure: string -> string,
                                   upload: Option<Upload>, now: Time)
    requires Consistent(st)
    ensures Consistent(UploadModel(st, disk, secure, upload, now).store)
    ensures Consistent(UploadModelIntended(st, disk, secure, upload, now).store)
  {
    var r1 := UploadModel(st, disk, secure, upload, now);
    var r2 := UploadModelIntended(st, disk, secure, upload, now);
    assert forall p :: p in st.reports.rows ==> exists k :: OwnedBy(r1.store.records, p, k);
    assert forall p :: p in st.reports.rows ==> exists k :: OwnedBy(r2.store.records, p, k);
  }

  /** With the test on the stored name, no two model rows ever share a name. */
  lemma UploadIntendedKeepsNamesUnique(st: Store, disk: set<string>, secure: string -> string,
                                       upload: Option<Upload>, now: Time)
    requires UniqueNames(st.models, ModelName)
    ensures UniqueNames(UploadModelIntended(st, disk, secure, upload, now).store.models, ModelName)
  {
  }

  /** `werkzeug`'s `secure_filename` turns a space into an underscore. */
  predicate SpacesBecomeUnderscores(secure: string -> string) {
    secure("a b.pt") == "a_b.pt"
  }

  /** "a b.pt" passes the first two checks. */
  lemma SpacedNamePassesScreen(size: nat)
    ensures Screen(ModelExtensions, Some(Upload("a b.pt", size))).None?
  {
    assert Allowed("a b.pt", ModelExtensions) by {
      AfterLastAt("a b.pt", 3);
      LowercaseExtension("pt");
      assert "a b.pt"[4..] == "pt";
    }
  }

  /** The same model uploaded twice: the test looks up "a b.pt", the rows are named "a_b.pt",
      so both uploads succeed and the table holds two rows of one name. */
  lemma RepeatedUploadDuplicatesName(st: Store, disk: set<string>, secure: string -> string,
                                     size: nat, now1: Time, now2: Time)
    requires SpacesBecomeUnderscores(secure)
    requires forall k :: k in st.models.rows ==> st.models.rows[k].name != "a b.pt"
    ensures var up := Some(Upload("a b.pt", size));
      var r1 := UploadModel(st, disk, secure, up, now1);
      var r2 := UploadModel(r1.store, r1.disk, secure, up, now2);
      && r1.outcome.Uploaded? && r2.outcome.Uploaded?
      && CheckModelExists(r1.store, Some("a b.pt")) == Answer(false)
      && !UniqueNames(r2.store.models, ModelName)
  {
    SpacedNamePassesScreen(size);
    var up := Some(Upload("a b.pt", size));
    var r1 := UploadModel(st, disk, secure, up, now1);
    var r2 := UploadModel(r1.store, r1.disk, secure, up, now2);
    var k1, k2 := r1.outcome.key, r2.outcome.key;
    assert r2.store.models.rows[k1].name == "a_b.pt" == r2.store.models.rows[k2].name;
  }

  /** The corrected handler refuses the repeat, and the name check finds the stored name. */
  lemma RepeatedUploadRefusedWhenIntended(st: Store, disk: set<string>, secure: string -> string,
                                          size: nat, now1: Time, now2: Time)
    requires SpacesBecomeUnderscores(secure)
    requires forall k :: k in st.models.rows ==> st.models.rows[k].name != "a_b.pt"
    ensures var up := Some(Upload("a b.pt", size));
      var r1 := UploadModelIntended(st, disk, secure, up, now1);
      var r2 := UploadModelIntended(r1.store, r1.disk, secure, up, now2);
      && r1.outcome.Uploaded? && r2.outcome == AlreadyExists && r2.store == r1.store
      && CheckModelExists(r1.store, Some(r1.outcome.storedName)) == Answer(true)
  {
    SpacedNamePassesScreen(size);
    var up := Some(Upload("a b.pt", size));
    var r1 := UploadModelIntended(st, disk, secure, up, now1);
    assert r1.store.models.rows[r1.outcome.key].name == "a_b.pt";
  }

  /** One entry of `get_models`; the time is sent as `isoformat()`. */
  datatype ModelEntry = ModelEntry(modelId: nat, name: string, size: Option<nat>, uploadTime: Time)

  datatype ModelPage = ModelPage(models: seq<ModelEntry>, total: nat, totalPages: int, currentPage: int) | ModelsFailed

  function EntryOf(st: Store, k: nat): ModelEntry
    requires k in st.models.rows
  {
    ModelEntry(k, st.models.rows[k].name, st.models.rows[k].size, st.models.rows[k].uploadTime)
  }

  /** `get_models`: one page of the models, newest upload first. */
  function GetModels(st: Store, page: PageParam, size: PageParam): (r: ModelPage)
    ensures r.ModelsFailed? <==>
      || page.Read(1).None? || size.Read(5).None? || page.Read(1).value < 1 || size.Read(5).value < 1
      || !Fetchable(page.Read(1).value, size.Read(5).value)
    ensures r.ModelPage? ==>
      && r.currentPage == page.Read(1).value
      && r.total == |st.models.rows|
      && r.totalPages == TotalPages(r.total, size.Read(5).value)
      && |r.models| <= size.Read(5).value
      && (forall i :: 0 <= i < |r.models| ==> r.models[i].modelId in st.models.rows && r.models[i] == EntryOf(st, r.models[i].modelId))
    ensures r.ModelPage? ==>
      var s, lo, n := Listed(st.models, ModelStamp), Offset(r.currentPage, size.Read(5).value), size.Read(5).value;
      && (|r.models| == n || lo + |r.models| >= |s|)
      && forall i :: 0 <= i < |r.models| ==> lo + i < |s| && r.models[i].modelId == s[lo + i].key
  {
    var l := List(st.models, ModelStamp, page, size);
    if l.ListingFailed? then ModelsFailed
    else
      ModelPage(Entries(st, l.keys), l.total, l.totalPages, l.currentPage)
  }

  function Entries(st: Store, keys: seq<nat>): (r: seq<ModelEntry>)
    requires forall i :: 0 <= i < |keys| ==> keys[i] in st.models.rows
    ensures |r| == |keys| && forall i :: 0 <= i < |keys| ==> r[i] == EntryOf(st, keys[i])
  {
    if keys == [] then [] else [EntryOf(st, keys[0])] + Entries(st, keys[1..])
  }

  /** The page lists newer uploads first. */
  lemma GetModelsNewestFirst(st: Store, page: PageParam, size: PageParam)
    ensures var r := GetModels(st, page, size);
      r.ModelPage? ==> forall i, j :: 0 <= i < j < |r.models| ==> Ordinal(r.models[i].uploadTime) >= Ordinal(r.models[j].uploadTime)
  {
    var r := GetModels(st, page, size);
    if r.ModelPage? {
      var l := List(st.models, ModelStamp, page, size);
      forall i, j | 0 <= i < j < |r.models|
        ensures Ordinal(r.models[i].uploadTime) >= Ordinal(r.models[j].uploadTime)
      {
        assert ModelStamp(st.models.rows[l.keys[i]]) >= ModelStamp(st.models.rows[l.keys[j]]);
      }
    }
  }

  /** `GetModels` is the catalogue listing with each key replaced by its entry. */
  lemma GetModelsFollowsList(st: Store, page: PageParam, size: PageParam)
    ensures var l := List(st.models, ModelStamp, page, size);
      l.Listing? ==> GetModels(st, page, size) == ModelPage(Entries(st, l.keys), l.total, l.totalPages, l.currentPage)
  {
  }

  /** A key the listing puts on a page shows up as that model's entry. */
  lemma ListedKeyShown(st: Store, p: int, size: int, k: nat)
    requires p >= 1 && size >= 1
    ensures var l := List(st.models, ModelStamp, Given(p), Given(size));
      (l.Listing? && k in l.keys) ==>
      var r := GetModels(st, Given(p), Given(size)); r.ModelPage? && k in st.models.rows && EntryOf(st, k) in r.models
  {
    var l := List(st.models, ModelStamp, Given(p), Given(size));
    if l.Listing? && k in l.keys {
      var i :| 0 <= i < |l.keys| && l.keys[i] == k;
      GetModelsFollowsList(st, Given(p), Given(size));
      var models := Entries(st, l.keys);
      assert models[i] == EntryOf(st, k);
    }
  }

  /** Paging through `getModels` shows every model. */
  lemma GetModelsShowsEveryModel(st: Store, size: int, k: nat)
    requires size >= 1 && k in st.models.rows
    requires size <= MaxLimit && |st.models.rows| <= MaxLimit
    ensures var first := GetModels(st, Given(1), Given(size));
      && first.ModelPage?
      && exists p :: 1 <= p <= first.totalPages &&
           var r := GetModels(st, Given(p), Given(size)); r.ModelPage? && EntryOf(st, k) in r.models
  {
    var p := RowOnSomePage(st.models, ModelStamp, size, k);
    PageWithinRows(st.models, ModelStamp, size, p, k);
    RowListed(st.models, ModelStamp, size, p, k);
    ListedKeyShown(st, p, size, k);
    GetModelsPageCount(st, size);
  }

  /** The first page announces the ceiling page count. */
  lemma GetModelsPageCount(st: Store, size: int)
    requires 1 <= size <= MaxLimit
    ensures var first := GetModels(st, Given(1), Given(size));
      first.ModelPage? && first.totalPages == TotalPages(|st.models.rows|, size)
  {
    FirstPageShown(st.models, ModelStamp, size);
  }

  /** `delete_model` ends with 200, or with 500 for any failure, an unknown id included. */
  datatype Deleting = Deleting(ok: bool, store: Store, disk: set<string>) {
    function Status(): int {
      if ok then 200 else 500
    }
  }

  /** Some diagnosis record names model `id`. */
  predicate InUse(records: Table<Record>, id: nat) {
    exists k :: k in records.rows && records.rows[k].modelId == id
  }

  /** `delete_model`: the file is removed if it is on disk, then the row is deleted. `Models`
      has no relationship to the records, so a record that names the model makes the foreign
      key refuse the commit: the handler answers 500 and the row stays, its file already gone. */
  function DeleteModel(st: Store, disk: set<string>, id: nat): (r: Deleting)
    ensures r.ok <==> id in st.models.rows && !InUse(st.records, id)
    ensures id !in st.models.rows ==> r.store == st && r.disk == disk
    ensures id in st.models.rows ==> r.disk == disk - {st.models.rows[id].path}
    ensures !r.ok ==> r.store == st
    ensures r.ok ==> r.store.models.rows == st.models.rows - {id}
    ensures r.store.users == st.users && r.store.files == st.files
    ensures r.store.records == st.records && r.store.reports == st.reports
  {
    if id !in st.models.rows then Deleting(false, st, disk)
    else
      var path := st.models.rows[id].path;
      var disk1 := if path in disk then disk - {path} else disk;
      if InUse(st.records, id) then Deleting(false, st, disk1)
      else Deleting(true, st.(models := Remove(st.models, id)), disk1)
  }

  /** Deleting a model keeps the store consistent: the foreign key lets only an unused model go. */
  lemma DeleteModelPreservesConsistency(st: Store, disk: set<string>, id: nat)
    requires Consistent(st)
    ensures Consistent(DeleteModel(st, disk, id).store)
  {
    var st1 := DeleteModel(st, disk, id).store;
    forall k | k in st1.records.rows
      ensures st1.records.rows[k].modelId in st1.models.rows
    {
      assert st.records.rows[k].modelId in st.models.rows;
    }
  }

  /** A model some record uses cannot be deleted, yet its file is gone afterwards: the record
      keeps naming a model whose artifact no longer exists, and every later attempt fails too. */
  lemma DeleteUsedModelLosesFile(st: Store, disk: set<string>, id: nat, k: nat)
    requires k in st.records.rows && st.records.rows[k].modelId == id && id in st.models.rows
    ensures var r := DeleteModel(st, disk, id);
      && r.Status() == 500 && id in r.store.models.rows
      && st.models.rows[id].path !in r.disk
      && DeleteModel(r.store, r.disk, id) == r
  {
  }

  /** `check_model_exists`. */
  function CheckModelExists(st: Store, name: Option<string>): (r: ExistsAnswer)
    ensures r.NameNotProvided? <==> name.None? || name.value == ""
    ensures r.Answer? ==> (r.found <==> exists k :: k in st.models.rows && st.models.rows[k].name == name.value)
  {
    CheckExists(st.models, ModelName, name)
  }
}

=== FILE: records.dfy ===
/** `report.py`: the listing of diagnosis records and the deletion of one record with its report. */
module Records {
  import opened Common
  import opened Clock
  import opened Schema

  /** One entry of `get_diagnosis_records`. */
  datatype Entry = Entry(recordId: nat, fileName: string, modelName: string, createdAt: Time,
                         reportPath: string, reportName: string)

  /** The report linked to record `k`: the report row its `reportId` names, if that row exists. */
  function ReportOf(st: Store, k: nat): (r: Option<nat>)
    requires k in st.records.rows
    ensures r.Some? <==> st.records.rows[k].reportId.Some? && st.records.rows[k].reportId.value in st.reports.rows
    ensures r.Some? ==> r == st.records.rows[k].reportId
  {
    var link := st.records.rows[k].reportId;
    if link.Some? && link.value in st.reports.rows then link else None
  }

  /** The entry of record `k`, with 'Unknown' for a file or model row that does not exist,
      and '' and 'No Report' when no report is linked. */
  function EntryOf(st: Store, k: nat): (e: Entry)
    requires k in st.records.rows
    ensures e.recordId == k && e.createdAt == st.records.rows[k].createdAt
  {
    var rec := st.records.rows[k];
    var fileName := if rec.fileId.Some? && rec.fileId.value in st.files.rows then st.files.rows[rec.fileId.value].name else "Unknown";
    var modelName := if rec.modelId in st.models.rows then st.models.rows[rec.modelId].name else "Unknown";
    match ReportOf(st, k)
    case Some(p) => Entry(k, fileName, modelName, rec.createdAt, st.reports.rows[p].path, st.reports.rows[p].name)
    case None => Entry(k, fileName, modelName, rec.createdAt, "", "No Report")
  }

  /** Every entry is the entry of a record below `k`, and the ids increase. */
  predicate ListedBelow(st: Store, entries: seq<Entry>, k: nat) {
    && (forall i :: 0 <= i < |entries| ==>
          entries[i].recordId in st.records.rows && entries[i] == EntryOf(st, entries[i].recordId) &&
          entries[i].recordId < k)
    && (forall i, j :: 0 <= i < j < |entries| ==> entries[i].recordId < entries[j].recordId)
  }

  /** Every record below `k` has an entry. */
  predicate CoversBelow(st: Store, entries: seq<Entry>, k: nat) {
    forall j :: j in st.records.rows && j < k ==> exists i :: 0 <= i < |entries| && entries[i].recordId == j
  }

  /** One step of the scan: record `k`, if it exists, joins the end of the listing. */
  lemma ScanStep(st: Store, entries: seq<Entry>, k: nat)
    requires ListedBelow(st, entries, k) && CoversBelow(st, entries, k)
    ensures var next := if k in st.records.rows then entries + [EntryOf(st, k)] else entries;
      ListedBelow(st, next, k + 1) && CoversBelow(st, next, k + 1)
  {
    if k in st.records.rows {
      var next := entries + [EntryOf(st, k)];
      forall i | 0 <= i < |next|
        ensures next[i].recordId in st.records.rows && next[i] == EntryOf(st, next[i].recordId) &&
                next[i].recordId < k + 1
      {
        if i < |entries| {
          assert next[i] == entries[i];
        }
      }
      forall i, j | 0 <= i < j < |next| ensures next[i].recordId < next[j].recordId {
        assert next[i] == entries[i];
        if j < |entries| {
          assert next[j] == entries[j];
        }
      }
      assert ListedBelow(st, next, k + 1);
      forall j | j in st.records.rows && j < k + 1
        ensures exists i :: 0 <= i < |next| && next[i].recordId == j
      {
        if j == k {
          assert next[|entries|].recordId == j;
        } else {
          var i :| 0 <= i < |entries| && entries[i].recordId == j;
          assert next[i].recordId == j;
        }
      }
    }
  }

  /** `get_diagnosis_records`: one entry per record, in key order. */
  method ListRecords(st: Store) returns (entries: seq<Entry>)
    ensures forall i :: 0 <= i < |entries| ==>
      entries[i].recordId in st.records.rows && entries[i] == EntryOf(st, entries[i].recordId)
    ensures forall i, j :: 0 <= i < j < |entries| ==> entries[i].recordId < entries[j].recordId
    ensures forall k :: k in st.records.rows ==> exists i :: 0 <= i < |entries| && entries[i].recordId == k
  {
    entries := [];
    var k := 1;
    while k < st.records.next
      invariant 1 <= k <= st.records.next
      invariant ListedBelow(st, entries, k)
      invariant CoversBelow(st, entries, k)
    {
      ScanStep(st, entries, k);
      if k in st.records.rows {
        entries := entries + [EntryOf(st, k)];
      }
      k := k + 1;
    }
    assert forall j :: j in st.records.rows ==> j < st.records.next;
  }

  /** In a consistent store the fallbacks mean what they say: the model always resolves, the
      file shows 'Unknown' only when its row is gone, and a record has a report path exactly
      when it is linked to a report. */
  lemma EntryFallbacks(st: Store, k: nat)
    requires Consistent(st) && k in st.records.rows
    ensures var rec := st.records.rows[k];
      var e := EntryOf(st, k);
      && e.modelName == st.models.rows[rec.modelId].name
      && (rec.fileId.Some? ==> e.fileName == st.files.rows[rec.fileId.value].name)
      && (rec.fileId.None? ==> e.fileName == "Unknown")
      && (rec.reportId.Some? ==> e.reportPath == st.reports.rows[rec.reportId.value].path &&
                                 e.reportName == st.reports.rows[rec.reportId.value].name)
      && (rec.reportId.None? ==> e.reportPath == "" && e.reportName == "No Report")
  {
  }

  /** How `delete_diagnosis_record` ends. */
  datatype DeleteOutcome =
    | RecordNotFound   // 404
    | RemoveFailed     // 500: `os.remove` of the report file raised
    | RecordDeleted    // 200
  {
    function Status(): int {
      match this
      case RecordNotFound => 404
      case RemoveFailed => 500
      case RecordDeleted => 200
    }
  }

  datatype Deletion = Deletion(outcome: DeleteOutcome, store: Store, disk: set<string>)

  /** `delete_diagnosis_record`: the linked report's file is removed first, then the report
      row and the record row go in one commit. A missing report file aborts before the
      commit. */
  function DeleteRecord(st: Store, disk: set<string>, id: nat): (r: Deletion)
    ensures r.outcome.RecordNotFound? <==> id !in st.records.rows
    ensures !r.outcome.RecordDeleted? ==> r.store == st && r.disk == disk
    ensures r.outcome.RemoveFailed? <==>
      id in st.records.rows && ReportOf(st, id).Some? && st.reports.rows[ReportOf(st, id).value].path !in disk
    ensures r.outcome.RecordDeleted? ==>
      && r.store.records.rows == st.records.rows - {id}
      && (ReportOf(st, id).None? ==> r.store.reports == st.reports && r.disk == disk)
      && (ReportOf(st, id).Some? ==>
            r.store.reports.rows == st.reports.rows - {ReportOf(st, id).value} &&
            r.disk == disk - {st.reports.rows[ReportOf(st, id).value].path})
    ensures r.store.users == st.users && r.store.files == st.files && r.store.models == st.models
  {
    if id !in st.records.rows then Deletion(RecordNotFound, st, disk)
    else
      match ReportOf(st, id)
      case None => Deletion(RecordDeleted, st.(records := Remove(st.records, id)), disk)
      case Some(p) =>
        var path := st.reports.rows[p].path;
        if path !in disk then Deletion(RemoveFailed, st, disk)
        else Deletion(RecordDeleted, st.(records := Remove(st.records, id), reports := Remove(st.reports, p)), disk - {path})
  }

  /** Deleting a record leaves every other record and every report not linked to it as it was. */
  lemma DeleteRecordLeavesOthers(st: Store, disk: set<string>, id: nat)
    ensures var r := DeleteRecord(st, disk, id);
      && (forall k :: k in st.records.rows && k != id ==> k in r.store.records.rows && r.store.records.rows[k] == st.records.rows[k])
      && (forall p :: p in st.reports.rows && (id !in st.records.rows || ReportOf(st, id) != Some(p)) ==>
            p in r.store.reports.rows && r.store.reports.rows[p] == st.reports.rows[p])
  {
  }

  /** Deleting a record keeps the store consistent: no other record pointed at the report
      that goes with it. */
  lemma DeleteRecordPreservesConsistency(st: Store, disk: set<string>, id: nat)
    requires Consistent(st)
    ensures Consistent(DeleteRecord(st, disk, id).store)
  {
    var r := DeleteRecord(st, disk, id);
    if r.outcome.RecordDeleted? {
      var st1 := r.store;
      forall k | k in st1.records.rows && st1.records.rows[k].reportId.Some?
        ensures st1.records.rows[k].reportId.value in st1.reports.rows
      {
        var p := st1.records.rows[k].reportId.value;
        if ReportOf(st, id) == Some(p) {
          assert false;
        }
      }
      forall p | p in st1.reports.rows
        ensures exists k :: OwnedBy(st1.records, p, k)
      {
        var k :| OwnedBy(st.records, p, k);
        if k == id {
          assert false;
        }
        assert OwnedBy(st1.records, p, k);
      }
    }
  }

  /** Two reports that name the same PDF (two diagnoses of one pair in one second) cannot
      both be deleted: the first deletion removes the shared file, and the second then fails
      with 500 and keeps its record. */
  lemma SharedPathBlocksSecondDelete(st: Store, disk: set<string>, a: nat, b: nat)
    requires Consistent(st) && a != b
    requires a in st.records.rows && b in st.records.rows
    requires ReportOf(st, a).Some? && ReportOf(st, b).Some?
    requires st.reports.rows[ReportOf(st, a).value].path == st.reports.rows[ReportOf(st, b).value].path
    requires DeleteRecord(st, disk, a).outcome.RecordDeleted?
    ensures var r1 := DeleteRecord(st, disk, a);
      DeleteRecord(r1.store, r1.disk, b) == Deletion(RemoveFailed, r1.store, r1.disk)
  {
    var r1 := DeleteRecord(st, disk, a);
    var pa, pb := ReportOf(st, a).value, ReportOf(st, b).value;
    assert pa != pb;
    assert b in r1.store.records.rows && r1.store.records.rows[b] == st.records.rows[b];
    assert ReportOf(r1.store, b) == Some(pb);
  }
}

=== FILE: report_document.dfy ===
/** What `diagnose` derives from a finished evaluation without touching the database: the
    report's name, path and the artifact URLs, and the text of the PDF `generate_report_pdf`
    renders. */
module ReportDocument {
  import opened Common
  import opened Text
  import opened Clock
  import opened ResultLine
  import Evaluation

  const ReportsDir: string := Evaluation.ReportsDir

  /** `f"{model_name}_{file_name}_{stamp}"` with the UTC time of the request. The last fifteen
      characters are an underscore and the stamp, which reads back as the time. */
  function ReportName(modelName: string, fileName: string, utc: Time): (r: string)
    ensures |r| == |modelName| + |fileName| + 16
    ensures r[..|modelName| + 1] == modelName + "_"
    ensures r[|modelName| + 1..|modelName| + 1 + |fileName|] == fileName
    ensures r[|r| - 15] == '_' && ParseCompact(r[|r| - 14..]) == Some(utc)
  {
    var r := modelName + "_" + fileName + "_" + CompactStamp(utc);
    assert r[|modelName| + 1..|modelName| + 1 + |fileName|] == fileName;
    assert r[|r| - 14..] == CompactStamp(utc);
    CompactStampRoundTrip(utc);
    r
  }

  /** For one model and one file, the name tells the second of the request: two requests in
      different seconds get different names, two in the same second the same name. */
  lemma ReportNameDeterminesSecond(modelName: string, fileName: string, a: Time, b: Time)
    ensures ReportName(modelName, fileName, a) == ReportName(modelName, fileName, b) <==> a == b
  {
    var ra, rb := ReportName(modelName, fileName, a), ReportName(modelName, fileName, b);
    if ra == rb {
      assert ra[|ra| - 14..] == rb[|rb| - 14..];
    }
  }

  /** The name does not tell the model from the file: an underscore inside either name can
      move to the other side of the separator. */
  lemma ReportNameAmbiguous(utc: Time)
    ensures ReportName("a_b", "c", utc) == ReportName("a", "b_c", utc)
  {
  }

  /** `f"/root/My_Project/backend/reports/{report_name}.pdf"`. */
  function ReportPath(name: string): (r: string)
    ensures ReportsDir + "/" <= r
    ensures r[|ReportsDir| + 1..] == name + ".pdf"
  {
    var r := ReportsDir + "/" + name + ".pdf";
    assert r[|ReportsDir| + 1..] == name + ".pdf";
    r
  }

  /** A name without '/' keeps its PDF directly inside the reports directory. */
  lemma ReportPathInReportsDir(name: string)
    requires '/' !in name
    ensures Basename(ReportPath(name)) == name + ".pdf"
  {
    assert '/' !in ".pdf";
    assert '/' !in name + ".pdf";
    BasenameOfJoin(ReportsDir, name + ".pdf");
    assert ReportPath(name) == ReportsDir + "/" + (name + ".pdf");
  }

  /** `f"/reports/{os.path.basename(path)}"`: the URL the static route serves `path` under. */
  function ArtifactUrl(path: string): (r: string)
    ensures |r| >= 9 && r[..9] == "/reports/" && '/' !in r[9..]
    ensures |r| - 9 <= |path| && path[|path| - (|r| - 9)..] == r[9..]
    ensures r[9..] == Basename(path)
  {
    var b := Basename(path);
    assert ("/reports/" + b)[9..] == b;
    "/reports/" + b
  }

  /** The two URLs the response carries for the evaluator's fixed image paths. */
  lemma ImageUrls()
    ensures ArtifactUrl(Evaluation.TsneImagePath) == "/reports/" + Evaluation.TsneImageName
    ensures ArtifactUrl(Evaluation.ConfusionMatrixImagePath) == "/reports/" + Evaluation.ConfusionMatrixImageName
  {
    BasenameOfJoin(ReportsDir, Evaluation.TsneImageName);
    BasenameOfJoin(ReportsDir, Evaluation.ConfusionMatrixImageName);
  }

  /** The rendered report: its text lines in order, and the image embedded below them. */
  datatype PdfDocument = PdfDocument(lines: seq<string>, image: Option<string>)

  /** The labels of the five metric lines and the keys they are read from, in print order. */
  const MetricLabels: seq<string> := ["Accuracy", "Precision", "Recall", "F1 Score", "Specificity"]
  const MetricKeys: seq<string> := ["accuracy", "precision", "recall", "f1", "specificity"]

  /** `diagnosis_data.get(key, "N/A")`, shown with `str()`. */
  function ValueOr(data: map<string, string>, key: string): string {
    if key in data then data[key] else "N/A"
  }

  /** `json.loads` of the stored result, with `{}` where decoding fails. */
  function DecodedOrEmpty(decode: Decoder, result: string): (r: map<string, string>)
    ensures decode(result).None? ==> r == map[]
    ensures decode(result).Some? ==> r == decode(result).value
  {
    decode(result).GetOr(map[])
  }

  /** `generate_report_pdf`. `reportName` is the linked report's name; `fileName` and
      `modelName` are the names of the rows the record points at, if those rows exist;
      `disk` is what `os.path.exists` sees. */
  function Render(reportName: string, fileName: Option<string>, modelName: Option<string>,
                  result: string, decode: Decoder, createdAt: Time, cmPath: string,
                  disk: set<string>): (d: PdfDocument)
    ensures |d.lines| == 11
    ensures d.lines[0] == "Diagnosis Report" && d.lines[4] == "Diagnosis Results:"
    ensures d.lines[1] == "Report Name: " + reportName
    ensures d.lines[2] == "File Name: " + fileName.GetOr("Unknown File")
    ensures d.lines[3] == "Model Name: " + modelName.GetOr("Unknown Model")
    ensures forall i :: 0 <= i < 5 ==>
      d.lines[5 + i] == MetricLabels[i] + ": " + ValueOr(DecodedOrEmpty(decode, result), MetricKeys[i])
    ensures d.lines[10] == "Diagnosis Time: " + DisplayStamp(createdAt)
    ensures d.image.Some? <==> cmPath in disk
    ensures d.image.Some? ==> d.image.value == cmPath
  {
    var data := DecodedOrEmpty(decode, result);
    var metrics := seq(5, i requires 0 <= i < 5 => MetricLabels[i] + ": " + ValueOr(data, MetricKeys[i]));
    PdfDocument(
      ["Diagnosis Report",
       "Report Name: " + reportName,
       "File Name: " + fileName.GetOr("Unknown File"),
       "Model Name: " + modelName.GetOr("Unknown Model"),
       "Diagnosis Results:"]
      + metrics
      + ["Diagnosis Time: " + DisplayStamp(createdAt)],
      if cmPath in disk then Some(cmPath) else None)
  }

  /** A report of the evaluator's own output shows each of its five values, in order. */
  lemma ReportShowsMetrics(reportName: string, fileName: Option<string>, modelName: Option<string>,
                           m: Evaluation.Metrics, result: string, decode: Decoder, createdAt: Time,
                           cmPath: string, disk: set<string>)
    requires decode(result) == Some(Evaluation.Decoded(m))
    ensures var d := Render(reportName, fileName, modelName, result, decode, createdAt, cmPath, disk);
      && d.lines[5] == "Accuracy: " + m.accuracy.Str()
      && d.lines[6] == "Precision: " + m.precision.Str()
      && d.lines[7] == "Recall: " + m.recall.Str()
      && d.lines[8] == "F1 Score: " + m.f1.Str()
      && d.lines[9] == "Specificity: " + m.specificity.Str()
  {
    var data := Evaluation.Decoded(m);
    var d := Render(reportName, fileName, modelName, result, decode, createdAt, cmPath, disk);
    assert DecodedOrEmpty(decode, result) == data;
    assert ValueOr(data, MetricKeys[0]) == m.accuracy.Str();
    assert ValueOr(data, MetricKeys[1]) == m.precision.Str();
    assert ValueOr(data, MetricKeys[2]) == m.recall.Str();
    assert ValueOr(data, MetricKeys[3]) == m.f1.Str();
    assert ValueOr(data, MetricKeys[4]) == m.specificity.Str();
    assert d.lines[5 + 0] == MetricLabels[0] + ": " + ValueOr(data, MetricKeys[0]);
    assert d.lines[5 + 1] == MetricLabels[1] + ": " + ValueOr(data, MetricKeys[1]);
    assert d.lines[5 + 2] == MetricLabels[2] + ": " + ValueOr(data, MetricKeys[2]);
    assert d.lines[5 + 3] == MetricLabels[3] + ": " + ValueOr(data, MetricKeys[3]);
    assert d.lines[5 + 4] == MetricLabels[4] + ": " + ValueOr(data, MetricKeys[4]);
  }

  /** A stored result that does not decode renders every metric as "N/A". */
  lemma UndecodableShowsNotAvailable(reportName: string, fileName: Option<string>, modelName: Option<string>,
                                     result: string, decode: Decoder, createdAt: Time, cmPath: string,
                                     disk: set<string>)
    requires decode(result).None?
    ensures var d := Render(reportName, fileName, modelName, result, decode, createdAt, cmPath, disk);
      forall i :: 5 <= i < 10 ==> d.lines[i] == MetricLabels[i - 5] + ": N/A"
  {
    var d := Render(reportName, fileName, modelName, result, decode, createdAt, cmPath, disk);
    forall i | 5 <= i < 10
      ensures d.lines[i] == MetricLabels[i - 5] + ": N/A"
    {
      assert d.lines[5 + (i - 5)] == MetricLabels[i - 5] + ": " + ValueOr(map[], MetricKeys[i - 5]);
    }
  }

  /** The diagnosis time printed in the report reads back as the record's creation time. */
  lemma ReportTimeReadsBack(reportName: string, fileName: Option<string>, modelName: Option<string>,
                            result: string, decode: Decoder, createdAt: Time, cmPath: string,
                            disk: set<string>)
    ensures var d := Render(reportName, fileName, modelName, result, decode, createdAt, cmPath, disk);
      |d.lines[10]| == 35 && ParseDisplay(d.lines[10][16..]) == Some(createdAt)
  {
    var d := Render(reportName, fileName, modelName, result, decode, createdAt, cmPath, disk);
    assert d.lines[10][16..] == DisplayStamp(createdAt);
    DisplayStampRoundTrip(createdAt);
  }
}

=== FILE: result_line.dfy ===
/** The result line: what the evaluator prints last, and how the orchestrator finds it with
    `re.search(r'diagnosis_result-eval\s*(\{.*\})', stdout).group(1)`. */
module ResultLine {
  import opened Common
  import opened Text
  import Schema

  /** The literal the pattern starts with. */
  const Marker: string := "diagnosis_result-eval"

  /** `json.loads` of the captured text: a JSON object whose values are represented by the
      text Python's `str()` prints for them, or None where decoding raises. The text always
      starts with '{', so a successful decode is an object. */
  type Decoder = string -> Option<map<string, string>>

  /** Where `\s*` stops when it starts at `i`: the first character that is not white space.
      Backtracking cannot shorten the run usefully, since '{' is not white space. */
  function SkipSpaces(s: string, i: nat): (j: nat)
    requires i <= |s|
    ensures i <= j <= |s|
    ensures forall k :: i <= k < j ==> IsSpace(s[k])
    ensures j < |s| ==> !IsSpace(s[j])
    decreases |s| - i
  {
    if i < |s| && IsSpace(s[i]) then SkipSpaces(s, i + 1) else i
  }

  /** How far `.` can reach from `i`: up to the next newline, or the end of the text. */
  function LineEnd(s: string, i: nat): (j: nat)
    requires i <= |s|
    ensures i <= j <= |s|
    ensures forall k :: i <= k < j ==> s[k] != '\n'
    ensures j < |s| ==> s[j] == '\n'
    decreases |s| - i
  {
    if i < |s| && s[i] != '\n' then LineEnd(s, i + 1) else i
  }

  /** The last '}' in `s[lo..hi]`, where greedy `.*\}` ends. */
  function LastBrace(s: string, lo: nat, hi: nat): (r: Option<nat>)
    requires lo <= hi <= |s|
    ensures r.Some? ==> lo <= r.value < hi && s[r.value] == '}'
    ensures r.Some? ==> forall k :: r.value < k < hi ==> s[k] != '}'
    ensures r.None? ==> forall k :: lo <= k < hi ==> s[k] != '}'
    decreases hi - lo
  {
    if lo == hi then None
    else if s[hi - 1] == '}' then Some(hi - 1)
    else LastBrace(s, lo, hi - 1)
  }

  /** Group 1 of a match attempt that starts at `p`, or None if the attempt fails there. */
  function MatchAt(s: string, p: nat): (r: Option<string>)
    requires p <= |s|
    ensures r.Some? ==> Schema.ObjectText(r.value) && '\n' !in r.value
  {
    if !OccursAt(s, Marker, p) then None
    else
      var b := SkipSpaces(s, p + |Marker|);
      if b == |s| || s[b] != '{' then None
      else
        match LastBrace(s, b + 1, LineEnd(s, b + 1))
        case None => None
        case Some(e) =>
          Some(s[b..e + 1])
  }

  /** The pattern matches `s[p..e + 1]` with group 1 `s[b..e + 1]`: the marker at `p`, white
      space only up to `b`, '{' at `b`, no newline strictly between, and '}' at `e`. */
  ghost predicate Span(s: string, p: nat, b: nat, e: nat) {
    && OccursAt(s, Marker, p)
    && p + |Marker| <= b < e < |s|
    && (forall k :: p + |Marker| <= k < b ==> IsSpace(s[k]))
    && s[b] == '{' && s[e] == '}'
    && (forall k :: b < k < e ==> s[k] != '\n')
  }

  /** Every span starts where `\s*` stops and ends no later than the last brace on the line. */
  lemma SpanWithinGreedy(s: string, p: nat, b: nat, e: nat)
    requires Span(s, p, b, e)
    ensures b == SkipSpaces(s, p + |Marker|)
    ensures LastBrace(s, b + 1, LineEnd(s, b + 1)).Some?
    ensures e <= LastBrace(s, b + 1, LineEnd(s, b + 1)).value
  {
    assert !IsSpace(s[b]);
  }

  /** `MatchAt` is the regular expression's own semantics at one start position: it fails
      exactly when no span exists, and otherwise returns the span a backtracking matcher
      settles on, the one whose greedy `.*` reaches furthest. */
  lemma MatchAtIsGreedySpan(s: string, p: nat)
    requires p <= |s|
    ensures MatchAt(s, p).None? <==> forall b: nat, e: nat :: !Span(s, p, b, e)
    ensures MatchAt(s, p).Some? ==>
      exists b: nat, e: nat :: Span(s, p, b, e) && MatchAt(s, p).value == s[b..e + 1] &&
        forall b': nat, e': nat :: Span(s, p, b', e') ==> b' == b && e' <= e
  {
    if OccursAt(s, Marker, p) {
      var b0 := SkipSpaces(s, p + |Marker|);
      forall b: nat, e: nat | Span(s, p, b, e)
        ensures b == b0 && LastBrace(s, b0 + 1, LineEnd(s, b0 + 1)).Some?
        ensures e <= LastBrace(s, b0 + 1, LineEnd(s, b0 + 1)).value
      {
        SpanWithinGreedy(s, p, b, e);
      }
      if b0 < |s| && s[b0] == '{' {
        var j := LineEnd(s, b0 + 1);
        var r := LastBrace(s, b0 + 1, j);
        if r.Some? {
          assert Span(s, p, b0, r.value);
        }
      }
    }
  }

  /** The leftmost start position at or after `from` where a match attempt succeeds. */
  function FirstMatch(s: string, from: nat): (r: Option<nat>)
    requires from <= |s|
    ensures r.Some? ==> from <= r.value <= |s| && MatchAt(s, r.value).Some?
    ensures forall q: nat :: from <= q <= |s| && (r.None? || q < r.value) ==> MatchAt(s, q).None?
    decreases |s| - from
  {
    if MatchAt(s, from).Some? then Some(from)
    else if from == |s| then None
    else FirstMatch(s, from + 1)
  }

  /** `re.search(...)` and `group(1)`: the capture of the leftmost match, or None. */
  function Extract(stdout: string): (r: Option<string>)
    ensures r.Some? ==> Schema.ObjectText(r.value) && '\n' !in r.value
    ensures r.None? <==> forall q: nat :: q <= |stdout| ==> MatchAt(stdout, q).None?
  {
    match FirstMatch(stdout, 0)
    case None => None
    case Some(q) => MatchAt(stdout, q)
  }

  /** The line the evaluator prints last: `print("diagnosis_result-eval", payload)`. */
  function ResultLineText(payload: string): string {
    Marker + " " + payload + "\n"
  }

  lemma MarkerHasNoNewline()
    ensures forall k :: 0 <= k < |Marker| ==> Marker[k] != '\n'
  {
  }

  /** A match attempt that starts inside `before` fails when `before` is made of whole lines
      none of which holds the marker. */
  lemma NoMatchBefore(before: string, rest: string, q: nat)
    requires !Contains(before, Marker)
    requires before == [] || before[|before| - 1] == '\n'
    requires q < |before|
    ensures MatchAt(before + rest, q).None?
  {
    var s := before + rest;
    if OccursAt(s, Marker, q) {
      if q + |Marker| <= |before| {
        OccursInPrefix(before, rest, Marker, q);
      } else {
        var k := |before| - 1 - q;
        assert s[q..q + |Marker|][k] == s[|before| - 1] == '\n';
        MarkerHasNoNewline();
      }
    }
  }

  lemma OccursInPrefix(a: string, b: string, sub: string, q: nat)
    requires q + |sub| <= |a| && OccursAt(a + b, sub, q)
    ensures OccursAt(a, sub, q)
  {
    assert (a + b)[q..q + |sub|] == a[q..q + |sub|];
  }

  /** At the start of the result line the attempt succeeds and captures the payload exactly. */
  lemma MatchAtResultLine(before: string, payload: string, after: string)
    requires Schema.ObjectText(payload) && '\n' !in payload
    ensures MatchAt(before + ResultLineText(payload) + after, |before|) == Some(payload)
  {
    var s := before + ResultLineText(payload) + after;
    var p := |before|;
    var m := |Marker|;
    var n := |payload|;
    assert s[p..p + m] == Marker;
    assert s[p + m] == ' ';
    assert s[p + m + 1] == '{';
    assert SkipSpaces(s, p + m + 1) == p + m + 1;
    assert SkipSpaces(s, p + m) == p + m + 1;
    forall k | p + m + 2 <= k < p + m + 1 + n
      ensures s[k] != '\n'
    {
      assert s[k] == payload[k - (p + m + 1)];
    }
    assert s[p + m + 1 + n] == '\n';
    var j := LineEnd(s, p + m + 2);
    assert j == p + m + 1 + n;
    assert s[j - 1] == payload[n - 1] == '}';
    assert LastBrace(s, p + m + 2, j) == Some(j - 1);
    assert s[p + m + 1..j] == payload;
  }

  /** Emit then extract: whatever whole lines come before the result line, as long as none of
      them holds the marker, and whatever comes after it, the orchestrator captures exactly
      the payload the evaluator printed. A later result line never wins over an earlier one. */
  lemma {:induction false} EmitThenExtract(before: string, payload: string, after: string)
    requires !Contains(before, Marker)
    requires before == [] || before[|before| - 1] == '\n'
    requires Schema.ObjectText(payload) && '\n' !in payload
    ensures Extract(before + ResultLineText(payload) + after) == Some(payload)
  {
    var s := before + ResultLineText(payload) + after;
    assert s == before + (ResultLineText(payload) + after);
    MatchAtResultLine(before, payload, after);
    forall q: nat | q < |before|
      ensures MatchAt(s, q).None?
    {
      NoMatchBefore(before, ResultLineText(payload) + after, q);
    }
    var r := FirstMatch(s, 0);
    assert r == Some(|before|);
  }

  /** Output without the marker yields no result, whatever else it holds. */
  lemma {:induction false} NoMarkerNoResult(stdout: string)
    requires !Contains(stdout, Marker)
    ensures Extract(stdout) == None
  {
    forall q: nat | q <= |stdout|
      ensures MatchAt(stdout, q).None?
    {
      assert !OccursAt(stdout, Marker, q);
    }
  }
}

=== FILE: schema.dfy ===
/** The relational schema: one datatype per table row, tables as maps keyed by an
    autoincrementing primary key, and the store-wide consistency the operations keep. */
module Schema {
  import opened Common
  import opened Clock

  /** A table before its key discipline is imposed: rows by primary key, and the next key
      the autoincrement counter hands out. */
  datatype RawTable<T> = RawTable(rows: map<nat, T>, next: nat)

  /** Keys start at 1 and stay below the counter, which never goes back: a deleted key is not reused. */
  predicate Autoincrement<T>(t: RawTable<T>) {
    t.next >= 1 && forall k :: k in t.rows ==> 1 <= k < t.next
  }

  type Table<T> = t: RawTable<T> | Autoincrement(t) witness RawTable(map[], 1)

  /** INSERT: the row receives a key no row holds, greater than every key in the table. */
  function Insert<T>(t: Table<T>, row: T): (r: (Table<T>, nat))
    ensures r.1 !in t.rows && forall k :: k in t.rows ==> k < r.1
    ensures r.0.rows == t.rows[r.1 := row]
    ensures r.0.next > r.1
  {
    (RawTable(t.rows[t.next := row], t.next + 1), t.next)
  }

  /** DELETE of one row by key; the counter is kept. */
  function Remove<T>(t: Table<T>, key: nat): (r: Table<T>)
    ensures r.rows == t.rows - {key} && r.next == t.next
  {
    RawTable(t.rows - {key}, t.next)
  }

  /** UPDATE of one existing row. */
  function Update<T>(t: Table<T>, key: nat, row: T): (r: Table<T>)
    requires key in t.rows
    ensures r.rows == t.rows[key := row] && r.next == t.next
  {
    RawTable(t.rows[key := row], t.next)
  }

  /** The smallest key at or above `from` whose row satisfies `p`. */
  function ScanFrom<T>(t: Table<T>, p: T -> bool, from: nat): (r: Option<nat>)
    requires from >= 1
    ensures r.Some? ==> from <= r.value && r.value in t.rows && p(t.rows[r.value])
    ensures forall k :: k in t.rows && from <= k && (r.None? || k < r.value) ==> !p(t.rows[k])
    decreases t.next - from
  {
    if from >= t.next then None
    else if from in t.rows && p(t.rows[from]) then Some(from)
    else ScanFrom(t, p, from + 1)
  }

  /** `query.filter_by(...).first()`: a row satisfying `p`, the one with the smallest key. */
  function FindFirst<T>(t: Table<T>, p: T -> bool): (r: Option<nat>)
    ensures r.Some? ==> r.value in t.rows && p(t.rows[r.value])
    ensures r.Some? ==> forall k :: k in t.rows && k < r.value ==> !p(t.rows[k])
    ensures r.None? <==> forall k :: k in t.rows ==> !p(t.rows[k])
  {
    ScanFrom(t, p, 1)
  }

  /** `db.Enum('admin', 'user')`: the only two roles a user row can hold. */
  datatype Role = Admin | Regular {
    function Name(): string {
      match this
      case Admin => "admin"
      case Regular => "user"
    }
  }

  /** A row of `Users`. */
  datatype User = User(username: string, passwordHash: string, email: Option<string>,
                       createdAt: Time, lastLogin: Option<Time>, role: Role)

  /** A row of `Files`: an uploaded data set. */
  datatype FileRow = FileRow(userId: Option<nat>, name: string, path: string,
                             format: Option<string>, size: Option<nat>, uploadTime: Time)

  /** A row of `Models`: an uploaded model artifact. */
  datatype ModelRow = ModelRow(name: string, size: Option<nat>, path: string, uploadTime: Time)

  /** A row of `Diagnosis_Records`. `fileId` becomes NULL when its file row is deleted;
      `reportId` is the one link between a record and its report. */
  datatype Record = Record(fileId: Option<nat>, modelId: nat, result: string,
                           tsnePath: string, cmPath: string, createdAt: Time,
                           reportId: Option<nat>)

  /** A row of `Reports`; the path column is NOT NULL. */
  datatype ReportRow = ReportRow(name: string, format: string, path: string, createdAt: Time)

  datatype Store = Store(users: Table<User>, files: Table<FileRow>, models: Table<ModelRow>,
                         records: Table<Record>, reports: Table<ReportRow>)

  /** The text of a JSON object as the result line carries it: braces at both ends. */
  predicate ObjectText(s: string) {
    |s| >= 2 && s[0] == '{' && s[|s| - 1] == '}'
  }

  /** `username` is UNIQUE. */
  predicate UniqueUsernames(users: Table<User>) {
    forall a, b :: a in users.rows && b in users.rows && a != b ==>
      users.rows[a].username != users.rows[b].username
  }

  /** The foreign keys of every record resolve. */
  predicate RecordKeysResolve(st: Store) {
    forall k :: k in st.records.rows ==>
      && (st.records.rows[k].fileId.Some? ==> st.records.rows[k].fileId.value in st.files.rows)
      && st.records.rows[k].modelId in st.models.rows
      && (st.records.rows[k].reportId.Some? ==> st.records.rows[k].reportId.value in st.reports.rows)
  }

  /** No two records share a report: the scalar back-reference of a report is well defined. */
  predicate ReportLinksOneToOne(records: Table<Record>) {
    forall a, b :: a in records.rows && b in records.rows && a != b && records.rows[a].reportId.Some? ==>
      records.rows[a].reportId != records.rows[b].reportId
  }

  /** The record whose `reportId` points at `report`. */
  predicate OwnedBy(records: Table<Record>, report: nat, record: nat) {
    record in records.rows && records.rows[record].reportId == Some(report)
  }

  /** Every report belongs to a record. */
  ghost predicate ReportsOwned(st: Store) {
    forall r :: r in st.reports.rows ==> exists k :: OwnedBy(st.records, r, k)
  }

  /** Every stored diagnosis result is the text of a JSON object. */
  predicate ResultsAreObjects(records: Table<Record>) {
    forall k :: k in records.rows ==> ObjectText(records.rows[k].result)
  }

  /** The consistency every handler keeps. */
  ghost predicate Consistent(st: Store) {
    && UniqueUsernames(st.users)
    && RecordKeysResolve(st)
    && ReportLinksOneToOne(st.records)
    && ReportsOwned(st)
    && ResultsAreObjects(st.records)
  }

  /** A store with no rows at all is consistent. */
  function EmptyStore(): (st: Store)
    ensures Consistent(st)
    ensures st.records.rows == map[] && st.reports.rows == map[]
  {
    Store(RawTable(map[], 1), RawTable(map[], 1), RawTable(map[], 1),
          RawTable(map[], 1), RawTable(map[], 1))
  }
}

=== FILE: text.dfy ===
/** The string operations of Python that the back end relies on, restricted to what it uses. */
module Text {
  import opened Common

  /** `str.isspace`, which is also the class `\s` matches in a `str` pattern of `re`:
      the ASCII separators and the Unicode white-space characters. */
  predicate IsSpace(c: char) {
    || c == ' '
    || ('\t' <= c <= '\r')
    || ('\U{1C}' <= c <= '\U{1F}')
    || c == '\U{85}' || c == '\U{A0}' || c == '\U{1680}'
    || ('\U{2000}' <= c <= '\U{200A}')
    || c == '\U{2028}' || c == '\U{2029}' || c == '\U{202F}' || c == '\U{205F}' || c == '\U{3000}'
  }

  /** `str.lower` on one character, as seen by a comparison with an ASCII word: the ASCII
      capitals, and KELVIN SIGN, whose lower case is the ASCII 'k'. Every other character
      is either its own lower case or lowers to text holding a non-ASCII character, so it
      can never help an ASCII comparison succeed. */
  function LowerChar(c: char): char {
    if 'A' <= c <= 'Z' then (c as int + 32) as char
    else if c == '\U{212A}' then 'k'
    else c
  }

  function Lower(s: string): (r: string)
    ensures |r| == |s|
    ensures forall i :: 0 <= i < |s| ==> r[i] == LowerChar(s[i])
  {
    seq(|s|, i requires 0 <= i < |s| => LowerChar(s[i]))
  }

  /** `sub` occurs in `s` starting at index `i`. */
  predicate OccursAt(s: string, sub: string, i: nat) {
    i + |sub| <= |s| && s[i..i + |sub|] == sub
  }

  /** Python's `sub in s`. */
  predicate Contains(s: string, sub: string) {
    exists i: nat :: i <= |s| && OccursAt(s, sub, i)
  }

  /** The index of the last `c` in `s` (`str.rfind`), if any. */
  function LastIndexOf(s: string, c: char): (r: Option<nat>)
    ensures r.Some? ==> r.value < |s| && s[r.value] == c && c !in s[r.value + 1..]
    ensures r.None? <==> c !in s
  {
    if s == [] then None
    else if s[|s| - 1] == c then Some(|s| - 1)
    else
      var r := LastIndexOf(s[..|s| - 1], c);
      assert s == s[..|s| - 1] + [s[|s| - 1]];
      r
  }

  /** `s.rsplit(c, 1)[1]` for an `s` that holds `c`: the text after the last `c`. */
  function AfterLast(s: string, c: char): (r: string)
    requires c in s
    ensures c !in r
    ensures exists k: nat :: k < |s| && s[k] == c && s == s[..k + 1] + r
  {
    var k := LastIndexOf(s, c).value;
    assert s == s[..k + 1] + s[k + 1..];
    s[k + 1..]
  }

  /** `os.path.basename`: the text after the last '/'. */
  function Basename(path: string): (r: string)
    ensures '/' !in r
    ensures |r| <= |path| && path[|path| - |r|..] == r
    ensures |r| < |path| ==> path[|path| - |r| - 1] == '/'
  {
    match LastIndexOf(path, '/')
    case None => path
    case Some(k) => path[k + 1..]
  }

  /** `os.path.join(a, b)` of POSIX: an absolute `b` replaces `a`, otherwise one '/' separates them. */
  function Join(a: string, b: string): string {
    if |b| > 0 && b[0] == '/' then b
    else if a == [] || a[|a| - 1] == '/' then a + b
    else a + "/" + b
  }

  /** Appending a base name to a directory is undone by `Basename`. */
  lemma BasenameOfJoin(dir: string, name: string)
    requires '/' !in name
    ensures Basename(dir + "/" + name) == name
  {
    var p := dir + "/" + name;
    assert p[|dir|] == '/';
    assert p[|dir| + 1..] == name;
  }
}
